=== FILE: README.md ===
# goleveldb memtable and write batch, modelled in Dafny

This project models two core pieces of goleveldb:

- **The in-memory skip-list database** (`memdb.DB_` and its iterator `dbIter_`).
  - It is an append-only arena of keys and values (`kvData`) and a flat `[]int` of skip-list nodes (`nodeData`). Each node holds a key/value offset, a key length, a value length, a height and one link per level.
  - There is one sentinel head node of height 12 (`tMaxHeight`).
  - It keeps a `prevNode` scratch array filled by write-mode searches, and running counters `n` and `kvSize`.
- **The write batch** (`Batch`).
  - It is a byte buffer of records. A record is a type byte, a varint key length and the key, plus a varint value length and the value for a put.
  - It keeps an index of record positions and the running internal length.
  - It carries codecs for the batch and for its 12-byte journal header. The header is a little-endian sequence number followed by a record count.
  - It has the paths that move a batch into a memdb: put, revert, and decode-to-memdb.

## How the model is organised

- **`Order`, `Wrappers`**: bytes, the comparer and result types.
  - The comparer is a function parameter `cmp`. It is constrained by `ValidComparer`: zero exactly on equal keys, antisymmetric and transitive.
- **`SortedMap`**: the reference semantics of the memdb, a sorted sequence of entries.
  - It has `LowerBound`, `Get`, `Put` and `Remove`, with their algebra.
  - `ToMap` connects it to Dafny maps.
- **`MemDbLayout`, `MemDbRecords`, `MemDbLevels`**: the concrete state `DB` and the representation invariant `Valid(cmp, db, nodes)`.
  - `nodes` is the ghost list of live level-0 node offsets.
  - The invariant states:
    - the head's links and every node's links are those of the skip list made of the nodes tall enough for each level;
    - the level-0 keys are strictly sorted;
    - the nodes do not overlap;
    - `n` and `kvSize` match the live entries.
  - `Contents(cmp, db, nodes)` is the abstract sorted map.
- **`MemDb`, `MemDbFrame`, `MemDbInsert`, `MemDbPut`, `MemDbDelete`**: the operations of `DB_`.
  - These are the searches `findGE`, `findLT` and `findLast`, and the operations `Put`, `Delete`, `Contains`, `Get`, `Find`, `Len`, `Size`, `Reset` and `New_`.
  - Each is proved against `SortedMap` through `Contents`.
- **`MemDbIter`**: `dbIter_`.
  - Its key range (`util.Range`) has optional start and limit bounds.
  - The window of a range is the run of entries inside it.
  - Every movement is stated as the position it lands on in that window.
- **`Varint`, `LittleEndian`, `InternalKey`**: the encodings the batch relies on.
  - These are `binary.PutUvarint`/`Uvarint`, `binary.LittleEndian` and leveldb's internal key: the user key followed by the 8-byte trailer `seq<<8 | type`.
- **`BatchCodec`**: the record encoding and `decodeBatch`, plus the header codec.
  - A list of operations `Op(keyType, key, value)` is the abstract content of a batch.
- **`Batch`**: the `Batch` methods.
  - `Holds(b, ops)` says that batch `b` stores exactly `ops`.
- **`BatchMem`**: `putMem`, `revertMem` and `decodeBatchToMem` on a memdb.
  - Each is proved against tail-recursive reference loops over the operation list.
- **`BatchAsWritten`**: the record step of `decodeBatch` exactly as the Go code computes it on a 64-bit platform, including `int(x)` and the wrap-around of `int` additions. It also holds `appendRec` exactly as written, with its reserved room and `copy` truncation. It is used for the findings below.

The random source of `randHeight` is an oracle `rnd: nat -> nat`: the fixed-seed stream of `rand.Int()` draws. The store keeps a position in that stream (`rngPos`), and `Reset` rewinds it.

## Model

| member | source | states |
|---|---|---|
| MemDb.NewIsEmpty | goleveldb/leveldb/memdb/memdb_.go:489-499 | A freshly created store satisfies the skip-list invariant with no live nodes and holds the empty map. |
| MemDb.Reset | goleveldb/leveldb/memdb/memdb_.go:457-474 | Resetting gives back exactly the state of a newly created store: head links cleared, `maxHeight` 1, counters zero, arena emptied, random stream restarted. |
| MemDb.Len | goleveldb/leveldb/memdb/memdb_.go:450-454 | The counter `n` is the number of entries in the abstract map. |
| MemDb.Size | goleveldb/leveldb/memdb/memdb_.go:431-439 | `kvSize` is the total length of the live keys and values; overwritten and deleted data in the arena are not counted. |
| MemDb.RandHeight | goleveldb/leveldb/memdb/memdb_.go:204-212 | The height is between 1 and 12. Each level above the first corresponds to a draw divisible by 4. The loop stops at the first draw that is not, or at 12. Height and stream position agree with the recursive reference `Draw`. |
| MemDb.FindGE | goleveldb/leveldb/memdb/memdb_.go:214-243 | Returns the node of the first entry whose key is not below `key`, or 0 if there is none. `exact` holds iff that entry's key equals `key`. In write mode, `prevNode[i]` is the last node of level `i` before that position for every level below `maxHeight`. The slots at or above `maxHeight` keep their values, and nothing else in the store changes. |
| MemDb.FindLT | goleveldb/leveldb/memdb/memdb_.go:245-261 | Returns the node of the last entry whose key is below `key`, or the head when there is none. |
| MemDb.FindLast | goleveldb/leveldb/memdb/memdb_.go:263-278 | Returns the node of the greatest entry, or the head when the store is empty. |
| MemDb.Contains | goleveldb/leveldb/memdb/memdb_.go:352-360 | True exactly when the abstract map has an entry for `key`. |
| MemDb.Get | goleveldb/leveldb/memdb/memdb_.go:362-377 | Returns the value the abstract map holds for `key`, or `ErrNotFound` when it holds none. |
| MemDb.CeilingNode | goleveldb/leveldb/memdb/memdb_.go:379-397 | In a sorted map, the lower-bound position holds the least key that is not below `key`, and it is past the end iff every key is below. |
| MemDb.Find | goleveldb/leveldb/memdb/memdb_.go:379-397 | Returns the least entry whose key is not below `key`. Returns `ErrNotFound` iff every key is below. |
| MemDbPut.Overwrite | goleveldb/leveldb/memdb/memdb_.go:288-297 | On an existing key: appends key and value to the arena and repoints the node. The store stays valid, the map gets the new value, and `kvSize` moves by the value-length difference. |
| MemDbPut.Insert | goleveldb/leveldb/memdb/memdb_.go:298-325 | On a new key: the store stays valid and the map gains the entry. The new node is appended to the node table and sits at the key's lower bound in the level-0 list. Its height is the one `Draw` takes from the stream at `rngPos`. `maxHeight` is raised to that height when it is higher, and `rngPos` moves past the draws. |
| MemDbPut.Put | goleveldb/leveldb/memdb/memdb_.go:280-326 | The store stays valid and its map becomes the sorted-map put of `key`/`value`. The arena always grows by key ++ value. An overwrite draws no random height. A new key gets a new node whose height, `maxHeight` raise and stream advance follow `Draw`, as for `Insert`. |
| MemDbDelete.RemoveNode | goleveldb/leveldb/memdb/memdb_.go:341-349 | Unlinks the found node from every level through the recorded predecessors. The store stays valid on the remaining nodes, the map loses the key, and the arena is untouched. |
| MemDbDelete.Delete | goleveldb/leveldb/memdb/memdb_.go:328-350 | The map becomes the sorted-map removal of `key`. Returns `ErrNotFound` iff the key was absent, and then the map is unchanged. The arena is never touched. |
| SortedMap.GetAfterPut | goleveldb/leveldb/memdb/memdb_.go:280-281 | After a put, looking up the same key gives the new value and every other key reads as before (not a multi-map). |
| SortedMap.GetAfterRemove | goleveldb/leveldb/memdb/memdb_.go:328-329 | After a removal the key is absent and every other key reads as before. |
| SortedMap.PutLength | goleveldb/leveldb/memdb/memdb_.go:288-324 | A put adds one entry exactly when the key was absent. |
| SortedMap.PutSize | goleveldb/leveldb/memdb/memdb_.go:288-323 | A put changes the total size by the new value length minus the old one on overwrite. On insert it adds key plus value length. |
| SortedMap.RemoveLength | goleveldb/leveldb/memdb/memdb_.go:348 | A removal drops one entry exactly when the key was present. |
| SortedMap.RemoveSize | goleveldb/leveldb/memdb/memdb_.go:347 | A removal subtracts the removed key and value lengths from the total size. |
| SortedMap.PutSorted | goleveldb/leveldb/memdb/memdb_.go:298-325 | A put keeps the entries strictly ordered by the comparer. |
| SortedMap.ToMapPut | goleveldb/leveldb/memdb/memdb_.go:280-281 | Seen as a map, a put is a map update. |
| SortedMap.ToMapRemove | goleveldb/leveldb/memdb/memdb_.go:328-329 | Seen as a map, a removal takes the key out of the domain. |
| MemDbIter.NewIterator | goleveldb/leveldb/memdb/memdb_.go:419-421 | A new iterator is parked before the start, unreleased and error-free, and carries the given range. It is in a consistent state for every valid store. |
| MemDbIter.Fill | goleveldb/leveldb/memdb/memdb_.go:40-61 | Succeeds iff the node is a live entry, and for each requested check also at or above the range start and below the limit. On success it holds that entry's key and value. On failure it is parked with key and value cleared. |
| MemDbIter.IsValid | goleveldb/leveldb/memdb/memdb_.go:63-65 | True iff the iterator is on a node, whatever the store did since the last call. For an iterator in a consistent state at `j`, this means it sits on entry `j`, inside the range's window. |
| MemDbIter.First | goleveldb/leveldb/memdb/memdb_.go:67-82 | A released iterator fails with `ErrIterReleased`. Otherwise it moves forward to the first entry of the window, or parks when the window is empty. |
| MemDbIter.Last | goleveldb/leveldb/memdb/memdb_.go:84-99 | Released: `ErrIterReleased`. Otherwise it moves backward to the last entry of the window, or parks. |
| MemDbIter.SeekCeiling | goleveldb/leveldb/memdb/memdb_.go:101-115 | Clamping the sought key to the range start and then taking the lower bound gives the first window entry at or above the key. |
| MemDbIter.Seek | goleveldb/leveldb/memdb/memdb_.go:101-115 | Released: `ErrIterReleased`. Otherwise it lands on the first window entry at or above `key`, clamped to the range start. |
| MemDbIter.Next | goleveldb/leveldb/memdb/memdb_.go:117-134 | Released: `ErrIterReleased`. Past the end it stays put; before the start it acts as `First`. From a node still linked at position `j` of the current store, it moves to position `j + 1` and succeeds iff that position is below the limit. The cached key and value are not needed, so the store may have changed since the last call. |
| MemDbIter.Prev | goleveldb/leveldb/memdb/memdb_.go:136-153 | Released: `ErrIterReleased`. Before the start it stays put; past the end it acts as `Last`. On a node, it moves to the last entry of the current store below the cached key and succeeds iff that entry is at or above the start. When the store is unchanged and the iterator is on window entry `j`, this is entry `j - 1`. |
| MemDbIter.PrevTarget | goleveldb/leveldb/memdb/memdb_.go:151 | The entry `findLT(key)` returns is below the window's end while the key is below the limit. On window entry `j` it is entry `j - 1`. |
| MemDbIter.Release | goleveldb/leveldb/memdb/memdb_.go:165-173 | The first release parks the iterator and marks it released. Releasing again changes nothing. |
| MemDbIter.WindowIsRange | goleveldb/leveldb/memdb/memdb_.go:406-409 | The window of a range is sorted and holds exactly the entries at or above the start and below the limit. A missing bound does not restrict. |
| MemDbIter.Scan | goleveldb/leveldb/memdb/memdb_.go:117-134 | Stepping `Next` from a parked iterator until it fails visits exactly the window, in order, and ends parked. |
| Varint.UvarintEncode | goleveldb/leveldb/batch.go:105-110 | Reading a varint written by `PutUvarint` returns the value and the number of bytes written, whatever follows. At most 10 bytes are used. |
| LittleEndian.Uint64Put | goleveldb/leveldb/batch.go:381 | Reading back a little-endian 64-bit write returns the sequence number. |
| LittleEndian.Uint32Put | goleveldb/leveldb/batch.go:382 | Reading back a little-endian 32-bit write returns the count. |
| InternalKey.MakeInternalKey | goleveldb/leveldb/batch.go:225 | The internal key is the user key followed by 8 trailer bytes. It is an error exactly when the sequence number exceeds 2^56 - 1. |
| InternalKey.ParseMake | goleveldb/leveldb/batch.go:225 | Parsing a made internal key gives back the user key, sequence number and key type. |
| BatchCodec.DecodeRecord | goleveldb/leveldb/batch.go:284-314 | An accepted record moves the offset strictly forward within the buffer, and its key and value lie inside the buffer, so a length running past the end is never accepted. |
| BatchCodec.RecordChecks | goleveldb/leveldb/batch.go:284-314 | A type byte above `keyTypeVal` is rejected as an invalid type, and only then. A missing or overlong key length is rejected as an invalid key length. For a put, a missing or overlong value length is rejected as an invalid value length. An accepted record has the type, key position and length, value position and length, and next offset read from its varints. A delete has an empty value. |
| BatchCodec.LayoutsOps | goleveldb/leveldb/batch.go:94-118 | The index entries appendRec lays out for a list of operations lie inside the encoded buffer and read back exactly those operations. |
| BatchCodec.DecodeOps | goleveldb/leveldb/batch.go:281-321 | Decoding the encoding of well-formed operations succeeds and yields exactly the index entries appendRec would have built. |
| BatchCodec.DecodeBatchHeader | goleveldb/leveldb/batch.go:386-397 | The header fails iff the data is shorter than 12 bytes. |
| BatchCodec.HeaderRoundTrip | goleveldb/leveldb/batch.go:379-397 | Decoding an encoded header returns the sequence number and the count modulo 2^32, whatever follows. |
| BatchCodec.HeaderReencode | goleveldb/leveldb/batch.go:379-397 | Re-encoding a decoded header reproduces its first 12 bytes. |
| Batch.AppendRec | goleveldb/leveldb/batch.go:94-118 | The corrected write: it appends the whole record for every length. It adds one index entry and extends the data, keeping both prefixes. The new entry reads back the given type and key, and the value for a put or nothing for a delete. `internalLen` grows by key + value + 8. |
| Batch.AppendRecHolds | goleveldb/leveldb/batch.go:94-118 | A batch holding `ops` holds `ops` plus the new operation after appendRec. |
| Batch.Put | goleveldb/leveldb/batch.go:120-125 | One more record; `internalLen` grows by key + value + 8. It uses the corrected write. |
| Batch.Delete | goleveldb/leveldb/batch.go:127-132 | One more record; `internalLen` grows by key + 8. It uses the corrected write. |
| Batch.PutDeleteHold | goleveldb/leveldb/batch.go:120-132 | Put and Delete append a put, or a delete with an empty value, to the held operations. |
| Batch.Reset | goleveldb/leveldb/batch.go:168-174 | The reset batch is empty: no data, no records, zero internal length, holding no operations. |
| Batch.LenHolds | goleveldb/leveldb/batch.go:163-166 | The record count is the number of held operations. |
| Batch.Decode | goleveldb/leveldb/batch.go:204-220 | Keeps the data, and its index is exactly the records `decodeBatch` reads, including the partial list before a corrupt record; the internal length matches them. A corrupt record's error is returned as is. Otherwise it succeeds iff no count is expected or the count matches, and a wrong count gives the records-length error. |
| Batch.Load | goleveldb/leveldb/batch.go:142-148 | Keeps the data, indexes exactly the records `decodeBatch` reads, and returns exactly its error: with no expected count, it fails only on a corrupt record. |
| Batch.LoadDump | goleveldb/leveldb/batch.go:134-148 | Loading the dump of a batch succeeds and holds the same operations, with the same count and internal length. |
| Batch.DecodeDump | goleveldb/leveldb/batch.go:204-220 | Decoding a dump with its own record count as the expected length succeeds. |
| Batch.Replay | goleveldb/leveldb/batch.go:150-161 | Replays each record in order as a Put of key and value or a Delete of key. |
| Batch.ReplayHolds | goleveldb/leveldb/batch.go:150-161 | For a batch holding `ops`, the replayed calls are exactly `ops` in order: puts with their values and deletes. |
| Batch.ReplayInternal | goleveldb/leveldb/batch.go:176-183 | Returns no error iff the callback accepts every record. Otherwise it returns the callback's error on the first record it rejects. |
| Batch.Append | goleveldb/leveldb/batch.go:185-202 | The data is concatenated and the index entries of `p` are rebased by the old data length. `internalLen` adds up. |
| Batch.AppendedOps | goleveldb/leveldb/batch.go:185-202 | The appended batch reads back the operations of `b` followed by those of `p`. |
| Batch.AppendedHolds | goleveldb/leveldb/batch.go:185-202 | Appending a batch holding `pops` to one holding `bops` gives a batch holding `bops + pops`, whose count is the sum. |
| Batch.BatchesLen | goleveldb/leveldb/batch.go:399-405 | The loop computes the total record count of the batches. |
| Batch.TotalLenCounts | goleveldb/leveldb/batch.go:399-405 | The total record count equals the number of operations the batches hold together. |
| BatchMem.PutMem | goleveldb/leveldb/batch.go:222-234 | Record `i` is put into the memdb under its internal key with sequence `seq + i`, stopping at the first error. The memdb stays valid. |
| BatchMem.PutFromGet | goleveldb/leveldb/batch.go:222-234 | With no sequence overflow, putting the records succeeds. Each record is found under its own internal key with its value, and every other key is unchanged. |
| BatchMem.RevertMem | goleveldb/leveldb/batch.go:261-270 | Record `i`'s internal key is deleted from the memdb. It stops with `ErrNotFound` at the first key that is absent. |
| BatchMem.RevertFromGet | goleveldb/leveldb/batch.go:261-270 | When every record's internal key is present, reverting succeeds and removes exactly those keys. |
| BatchMem.RevertAfterPut | goleveldb/leveldb/batch.go:222-270 | Putting a batch with fresh sequence numbers and then reverting it succeeds and leaves every key reading as before. |
| BatchMem.DecodeBatchToMem | goleveldb/leveldb/batch.go:323-351 | Decodes the header, then feeds record `i` to the memdb under sequence `seq + i`, as the reference journal replay does. It fails on too many records, a corrupt record or a count mismatch. |
| BatchMem.ToMemDump | goleveldb/leveldb/batch.go:323-351 | A journal entry made of a header and a batch dump replays into the memdb exactly as putMem would, with the header's sequence and count. |
| BatchMem.ToMemCounts | goleveldb/leveldb/batch.go:336-349 | On cleanly decoded records with no overflow: no error iff the record count matches the header. More records give the records-length error from the callback; fewer give it after the loop. |
| BatchAsWritten.ToInt | goleveldb/leveldb/batch.go:298 | Go's `int(x)` on a `uint64` is the identity below 2^63 and wraps to a negative value above. |
| BatchAsWritten.Wrap64 | goleveldb/leveldb/batch.go:294 | Go's `int` addition: the result lies in `[-2^63, 2^63)`, differs from the exact sum by a multiple of 2^64, and equals it when the sum is in range. |
| BatchAsWritten.AsWrittenRepeats | goleveldb/leveldb/batch.go:292-299 | As written, the 11-byte delete record with key length 2^64 - 11 is accepted with key length -11, and the next offset is 0. |
| BatchAsWritten.CorrectedRejects | goleveldb/leveldb/batch.go:292-296 | The corrected record step rejects that record as an invalid key length. |
| BatchAsWritten.AsWrittenAgrees | goleveldb/leveldb/batch.go:283-319 | On buffers shorter than 2^63, every record the corrected step accepts is read identically by the code as written. |
| BatchAsWritten.AsWrittenRejects | goleveldb/leveldb/batch.go:292-310 | On such buffers, when the key's end and, for a put, the value's end are below 2^63 in exact arithmetic, every record the corrected step rejects is rejected by the code as written with the same error. With `AsWrittenAgrees`, the two differ only on records that announce an end at 2^63 or beyond. |
| Varint.EncodeLength | goleveldb/leveldb/batch.go:105 | `PutUvarint` writes more than `k` bytes exactly when the value is at least 2^(7k). |
| BatchAsWritten.VarintRoom | goleveldb/leveldb/batch.go:95-111 | The reserved room always holds the key's varint and, for a put, the whole key and the value's varint, so `PutUvarint` never panics in `appendRec`. |
| BatchAsWritten.AppendRecAsWritten | goleveldb/leveldb/batch.go:94-118 | `appendRec` as written appends at least one byte and at most the reserved room, keeping the old data and the old index entries. |
| BatchAsWritten.AppendAgrees | goleveldb/leveldb/batch.go:94-118 | The write as written equals the corrected write exactly when the varints fit their reservation: five bytes for a delete, ten shared by a put's two. |
| BatchAsWritten.AppendOutOfBounds | goleveldb/leveldb/batch.go:102-117 | When the varints do not fit, the index entry as written points past the end of the data. |
| BatchAsWritten.DeleteTruncated | goleveldb/leveldb/batch.go:102-108 | A delete with a key of 2^35 bytes or more is cut to the reserved room as written, shorter than its full record, with an out-of-bounds index entry and the full key counted in `internalLen`. The corrected write's entry is in bounds. |
| BatchAsWritten.AsWrittenWraps | goleveldb/leveldb/batch.go:292-299 | As written, the 10-byte delete record with key length 2^63 - 1 is accepted, because `10+int(x)` wraps to a negative sum. Its next offset is 9 - 2^63. The corrected step rejects it as an invalid key length. |

## Left out

- Locking (`mu`, the RLock/Lock pairs) and the concurrency notes: the model is sequential.
- `Capacity`, `Free`, `grow`, `MakeBatch` and the capacity argument of `New_`: slice capacity does not change any observable content. `MemDb.New` takes the capacity and ignores it.
- The `_s` variants (`Batch_s`, `putMem_s`, `revertMem_s`, `decodeBatchToMem_s`, `memdb.DBs`): they are copies of the modelled functions on another store type.
- `writeBatchesWithHeader`, `newBatch`, `kv` and `fmt.Println` in `decodeBatchToMem`: I/O, pooling and output with no effect on the result.
- Error message texts: errors are modelled as datatype values (`Corruption`, `ErrNotFound`, `ErrIterReleased`), not formatted strings.
- Batch.AppendRec: the model always writes the whole record. Go cuts its buffer to the `MaxVarintLen32` bytes reserved per length, so it truncates a record whose varints need more, for example a delete with a key of 2^35 bytes or more. That behaviour is logged under Findings and modelled by `BatchAsWritten.AppendRecAsWritten`.
- `decodeBatchHeader`'s `batchLen < 0` branch: a 32-bit unsigned count converted to a 64-bit `int` is never negative, so the branch is dead.
- `key.go` is not part of this model. `InternalKey.MakeInternalKey` follows leveldb's internal-key layout, and its panic on a sequence number above 2^56 - 1 becomes an `Overflow` error value in `BatchMem`.
- `memdb.DB`, the store `putMem` and `decodeBatchToMem` write to, is modelled by the `DB_` of this model.
- `randHeight`'s random source is an oracle parameter; the draws themselves are not modelled.
- `Batch.Replay`: its `BatchReplay` target is modelled as the list of calls it receives, not as an interface with side effects.
- `Batch.Len` and `Batch.Dump` carry no contract of their own: they return a field. `Batch.LenHolds` and `Batch.LoadDump` state what they mean.
- `BatchMem.RevertAfterPut`: stated through lookups of every key, not as equality of the entry lists.
- `Batch.Replay`, `Batch.ReplayInternal`, `BatchMem.PutMem`, `BatchMem.RevertMem` and the lemmas `Batch.AppendedOps` and `Batch.AppendedHolds` require every index entry to lie inside the data. This is the representation invariant every constructor establishes. `Batch.Append` itself requires nothing.
- `Batch.Append`: entries with an empty value keep an unshifted `valuePos`, as in Go. The model states content through the records' meaning, which ignores that position.
- MemDbIter.Next: an iterator whose current node was deleted since the last call has no contract. Go still follows that node's stale level-0 link, which the model's list of live nodes does not describe.
- BatchMem.DecodeBatchToMem: Go's `expectSeq` parameter is unused, because its check is commented out, so the model has no such parameter.
- `util.BasicReleaser`'s release setter and the reference to the store that the iterator drops on release are left out: the store is passed to each iterator call. `Key`, `Value` and `Error` are plain reads of the iterator's fields.

## Findings

| source | as written | input that shows it | evidently intended | confidence | as-written member | corrected member |
|---|---|---|---|---|---|---|
| goleveldb/leveldb/batch.go:292-299 | The varint key length `x` is converted with `int(x)`, so a length of 2^63 or more becomes negative and passes `o+int(x) > len(data)`. The value length at 303-310 has the same pattern. | The bytes `00 F5 FF FF FF FF FF FF FF FF 01` decode as a delete whose key length is 2^64 - 11. It is accepted with key length -11 and the next offset 0. `Load` then loops on the same record forever. When the header announces at least one record, `decodeBatchToMem` panics slicing the key. With a count of 0 its callback reports an invalid records length first. | A length is valid only when it fits in the bytes left, compared without wrap-around, so that every accepted record moves forward. | not executed | BatchAsWritten.AsWrittenRepeats | BatchCodec.DecodeRecord |
| goleveldb/leveldb/batch.go:294 | The bounds check adds the offset and `int(x)` in `int` arithmetic, which wraps at 2^63, so key lengths below 2^63 are let through as well. `o += index.keyLen` and the value check at 305 wrap the same way. | The bytes `00 FF FF FF FF FF FF FF FF 7F` decode as a delete whose key length is 2^63 - 1. The check computes `10+int(x)` as 9 - 2^63, which is not above 10, so the record is accepted, and the next offset is 9 - 2^63. `Load` then panics reading the type byte at that negative offset. `decodeBatchToMem` panics slicing the key when the header count is at least 1. | The same as above: the end of a length must not pass the buffer's end, compared without wrap-around. | not executed | BatchAsWritten.AsWrittenWraps | BatchCodec.DecodeRecord |
| goleveldb/leveldb/batch.go:95-113 | `appendRec` reserves `MaxVarintLen32` (5) bytes for each length varint and cuts its slice to `1+5+len(key)` bytes, plus `5+len(value)` for a put. `copy` then stops silently at the end of that slice. | A `Delete` with a key of 2^35 bytes: the key's varint takes 6 bytes, so the last byte of the key is not written. The index entry still records the full key length, which runs one byte past the data, and `internalLen` counts the full key. A `Put` is cut the same way when its two varints take more than 10 bytes together. | The buffer holds the whole record, so that every index entry lies inside the data. | not executed | BatchAsWritten.DeleteTruncated | Batch.AppendRec |

=== FILE: batch.dfy ===
/**
  The write batch: a buffer of encoded records with an index of where each
  record's key and value lie, and the running internal-key length. The
  abstraction is the sequence of records (`Op`s) the batch holds.
 */
module Batch {
  import opened Order
  import opened Wrappers
  import opened InternalKey
  import opened BatchCodec

  /** `Batch`. */
  datatype Batch = Batch(data: Bytes, index: seq<BatchIndex>, internalLen: int)

  /** The zero `Batch` (and `MakeBatch`, whose capacity is only a hint). */
  const Empty := Batch([], [], 0)

  /** What `appendRec` and `decode` add to `internalLen` for a run of index
      entries: each key and value length plus eight trailer bytes. */
  function IndexLen(index: seq<BatchIndex>): int {
    if |index| == 0 then 0 else index[0].keyLen + index[0].valueLen + 8 + IndexLen(index[1..])
  }

  /** The internal-key footprint of a run of records. */
  function InternalLen(ops: seq<Op>): nat {
    if |ops| == 0 then 0 else |ops[0].key| + |ops[0].value| + 8 + InternalLen(ops[1..])
  }

  /** `b` holds exactly `ops`, in order: its buffer is their encoding, its
      index denotes them, and `internalLen` is their footprint. */
  ghost predicate Holds(b: Batch, ops: seq<Op>) {
    && AllWellFormed(ops)
    && b.data == EncodeOps(ops)
    && AllInBounds(b.index, b.data)
    && OpsOf(b.index, b.data) == ops
    && b.internalLen == InternalLen(ops)
  }

  /** The empty batch holds no record. */
  lemma EmptyHolds()
    ensures Holds(Empty, [])
  {
  }

  // ---------------------------------------------------------------------
  // Footprints

  lemma {:induction false} InternalLenAppend(a: seq<Op>, b: seq<Op>)
    ensures InternalLen(a + b) == InternalLen(a) + InternalLen(b)
    decreases |a|
  {
    if |a| == 0 {
      assert a + b == b;
    } else {
      assert (a + b)[1..] == a[1..] + b;
      InternalLenAppend(a[1..], b);
    }
  }

  /** Summing over the index is summing over the records it denotes. */
  lemma {:induction false} IndexLenOps(index: seq<BatchIndex>, data: Bytes)
    requires AllInBounds(index, data)
    ensures IndexLen(index) == InternalLen(OpsOf(index, data))
    decreases |index|
  {
    if |index| > 0 {
      var ops := OpsOf(index, data);
      assert AllInBounds(index[1..], data) by {
        assert forall i :: 0 <= i < |index| - 1 ==> index[1..][i] == index[i + 1];
      }
      IndexLenOps(index[1..], data);
      assert OpsOf(index[1..], data) == ops[1..];
      assert |ops[0].key| == index[0].keyLen && |ops[0].value| == index[0].valueLen;
    }
  }

  // ---------------------------------------------------------------------
  // What an index denotes, under growth and concatenation

  /** Bytes added after the buffer do not move an entry's key or value. */
  lemma OpAtExtend(idx: BatchIndex, data: Bytes, more: Bytes)
    requires InBounds(idx, data)
    ensures InBounds(idx, data + more) && OpAt(idx, data + more) == OpAt(idx, data)
  {
    assert (data + more)[idx.keyPos..idx.keyPos + idx.keyLen] == data[idx.keyPos..idx.keyPos + idx.keyLen];
    if idx.valueLen != 0 {
      assert (data + more)[idx.valuePos..idx.valuePos + idx.valueLen] == data[idx.valuePos..idx.valuePos + idx.valueLen];
    }
  }

  lemma OpsOfExtend(index: seq<BatchIndex>, data: Bytes, more: Bytes)
    requires AllInBounds(index, data)
    ensures AllInBounds(index, data + more) && OpsOf(index, data + more) == OpsOf(index, data)
  {
    forall i | 0 <= i < |index|
      ensures InBounds(index[i], data + more) && OpAt(index[i], data + more) == OpAt(index[i], data)
    {
      OpAtExtend(index[i], data, more);
    }
  }

  lemma OpsOfConcat(a: seq<BatchIndex>, b: seq<BatchIndex>, data: Bytes)
    requires AllInBounds(a, data) && AllInBounds(b, data)
    ensures AllInBounds(a + b, data) && OpsOf(a + b, data) == OpsOf(a, data) + OpsOf(b, data)
  {
    assert forall i :: 0 <= i < |b| ==> (a + b)[|a| + i] == b[i];
  }

  // ---------------------------------------------------------------------
  // Building a batch

  /** `appendRec`: the encoded record goes after the existing bytes and
      its layout after the existing entries. A delete keeps no value. */
  function AppendRec(b: Batch, kt: KeyType, key: Bytes, value: Bytes): (r: Batch)
    requires |key| < MaxGoLen && |value| < MaxGoLen
    ensures |r.index| == |b.index| + 1 && r.index[..|b.index|] == b.index
    ensures |r.data| > |b.data| && r.data[..|b.data|] == b.data
    ensures r.internalLen == b.internalLen + |key| + (if kt == Val then |value| else 0) + 8
    ensures InBounds(r.index[|b.index|], r.data)
    ensures OpAt(r.index[|b.index|], r.data) == Op(kt, key, if kt == Val then value else [])
  {
    var op := Op(kt, key, if kt == Val then value else []);
    var idx := Layout(op, |b.data|);
    var data := b.data + EncodeRec(op);
    assert data[|b.data|..] == EncodeRec(op) + [];
    RecDenotes(data, |b.data|, op, []);
    Batch(data, b.index + [idx], b.internalLen + idx.keyLen + idx.valueLen + 8)
  }

  /** Appending a record to a batch holding `ops` gives one holding
      `ops` followed by that record. */
  lemma AppendRecHolds(b: Batch, ops: seq<Op>, kt: KeyType, key: Bytes, value: Bytes)
    requires Holds(b, ops) && |key| < MaxGoLen && |value| < MaxGoLen
    ensures Holds(AppendRec(b, kt, key, value), ops + [Op(kt, key, if kt == Val then value else [])])
  {
    var op := Op(kt, key, if kt == Val then value else []);
    var r := AppendRec(b, kt, key, value);
    EncodeOpsAppend(ops, [op]);
    assert EncodeOps([op]) == EncodeRec(op) + EncodeOps([]);
    OpsOfExtend(b.index, b.data, EncodeRec(op));
    assert r.index == b.index + [r.index[|b.index|]];
    OpsOfConcat(b.index, [r.index[|b.index|]], r.data);
    InternalLenAppend(ops, [op]);
  }

  /** `Put`. */
  function Put(b: Batch, key: Bytes, value: Bytes): (r: Batch)
    requires |key| < MaxGoLen && |value| < MaxGoLen
    ensures |r.index| == |b.index| + 1
    ensures r.internalLen == b.internalLen + |key| + |value| + 8
  {
    AppendRec(b, Val, key, value)
  }

  /** `Delete`. */
  function Delete(b: Batch, key: Bytes): (r: Batch)
    requires |key| < MaxGoLen
    ensures |r.index| == |b.index| + 1
    ensures r.internalLen == b.internalLen + |key| + 8
  {
    AppendRec(b, Del, key, [])
  }

  /** A put is recorded with its key and value, a delete with its key. */
  lemma PutDeleteHold(b: Batch, ops: seq<Op>, key: Bytes, value: Bytes)
    requires Holds(b, ops) && |key| < MaxGoLen && |value| < MaxGoLen
    ensures Holds(Put(b, key, value), ops + [Op(Val, key, value)])
    ensures Holds(Delete(b, key), ops + [Op(Del, key, [])])
  {
    AppendRecHolds(b, ops, Val, key, value);
    AppendRecHolds(b, ops, Del, key, []);
  }

  /** `Len`. */
  function Len(b: Batch): nat {
    |b.index|
  }

  /** `Reset`: back to the empty batch (the Go code keeps the capacity). */
  function Reset(b: Batch): (r: Batch)
    ensures Holds(r, []) && Len(r) == 0 && |r.data| == 0 && r.internalLen == 0
  {
    Empty
  }

  /** The record count of a batch is the number of records it holds. */
  lemma LenHolds(b: Batch, ops: seq<Op>)
    requires Holds(b, ops)
    ensures Len(b) == |ops|
  {
    assert |OpsOf(b.index, b.data)| == |b.index|;
  }

  // ---------------------------------------------------------------------
  // Dump and Load

  /** `Dump`. */
  function Dump(b: Batch): Bytes {
    b.data
  }

  /** `decode`: the batch adopts `data` and the records `decodeBatch`
      reads from it; on corruption it keeps those read before it. With a
      non-negative `expectedLen`, the record count must match it. */
  function Decode(data: Bytes, expectedLen: int): (r: (Batch, Option<Corruption>))
    ensures r.0.data == data && AllInBounds(r.0.index, data)
    ensures r.0.index == DecodeBatch(data).records
    ensures r.0.internalLen == InternalLen(OpsOf(r.0.index, data))
    ensures DecodeBatch(data).err.Some? ==> r.1 == DecodeBatch(data).err
    ensures r.1.None? <==>
      DecodeBatch(data).err.None? && (expectedLen >= 0 ==> |r.0.index| == expectedLen)
    ensures r.1.Some? && DecodeBatch(data).err.None? ==>
      r.1 == Some(RecordsLengthMismatch(expectedLen, |r.0.index|))
  {
    var d := DecodeBatch(data);
    IndexLenOps(d.records, data);
    var b := Batch(data, d.records, IndexLen(d.records));
    if d.err.Some? then (b, d.err)
    else if expectedLen >= 0 && |d.records| != expectedLen then
      (b, Some(RecordsLengthMismatch(expectedLen, |d.records|)))
    else (b, None)
  }

  /** `Load`: decode without an expected count. */
  function Load(data: Bytes): (r: (Batch, Option<Corruption>))
    ensures r.0.data == data && r.0.index == DecodeBatch(data).records
    ensures r.0.internalLen == InternalLen(OpsOf(r.0.index, data))
    ensures r.1 == DecodeBatch(data).err
  {
    Decode(data, -1)
  }

  /** Loading what a batch dumps gives back a batch holding the same
      records, with the same count and `internalLen`, and no error. */
  lemma LoadDump(b: Batch, ops: seq<Op>)
    requires Holds(b, ops)
    ensures Load(Dump(b)).1.None?
    ensures Holds(Load(Dump(b)).0, ops)
    ensures Len(Load(Dump(b)).0) == Len(b) && Load(Dump(b)).0.internalLen == b.internalLen
  {
    assert b.data[0..] == EncodeOps(ops);
    DecodeOps(b.data, 0, ops);
    LayoutsOps(ops);
    LenHolds(b, ops);
  }

  /** Decoding what a batch dumps, expecting its own count, succeeds. */
  lemma DecodeDump(b: Batch, ops: seq<Op>)
    requires Holds(b, ops)
    ensures Decode(Dump(b), Len(b)) == (Load(Dump(b)).0, None)
  {
    LoadDump(b, ops);
  }

  // ---------------------------------------------------------------------
  // Replay

  /** A call made on a `BatchReplay`. */
  datatype Call = PutCall(key: Bytes, value: Bytes) | DeleteCall(key: Bytes)

  function CallOf(op: Op): Call {
    match op.keyType
    case Val => PutCall(op.key, op.value)
    case Del => DeleteCall(op.key)
  }

  /** The calls that replay `ops`, one per record, in order. */
  function Calls(ops: seq<Op>): (r: seq<Call>)
    ensures |r| == |ops|
  {
    seq(|ops|, i requires 0 <= i < |ops| => CallOf(ops[i]))
  }

  /** `Replay`: the calls it makes on the replay target. */
  method Replay(b: Batch) returns (calls: seq<Call>)
    requires AllInBounds(b.index, b.data)
    ensures calls == Calls(OpsOf(b.index, b.data))
  {
    calls := [];
    var i := 0;
    while i < |b.index|
      invariant 0 <= i <= |b.index| && |calls| == i
      invariant forall j :: 0 <= j < i ==> calls[j] == CallOf(OpAt(b.index[j], b.data))
    {
      var idx := b.index[i];
      if idx.keyType == Val {
        calls := calls + [PutCall(K(idx, b.data), V(idx, b.data))];
      } else {
        calls := calls + [DeleteCall(K(idx, b.data))];
      }
      i := i + 1;
    }
  }

  /** A batch built from `ops` replays them: puts as `Put`, deletes as
      `Delete`, in the order they were added. */
  lemma ReplayHolds(b: Batch, ops: seq<Op>)
    requires Holds(b, ops)
    ensures Calls(OpsOf(b.index, b.data)) == Calls(ops)
    ensures forall i :: 0 <= i < |ops| ==>
      (ops[i].keyType == Val <==> Calls(ops)[i] == PutCall(ops[i].key, ops[i].value))
  {
  }

  /** The callback `replayInternal` makes for the `i`-th record. */
  function Visit<E>(b: Batch, fn: (int, KeyType, Bytes, Bytes) -> Option<E>, i: int): Option<E>
    requires AllInBounds(b.index, b.data) && 0 <= i < |b.index|
  {
    fn(i, b.index[i].keyType, K(b.index[i], b.data), V(b.index[i], b.data))
  }

  /** `replayInternal`: the callback runs on the records in order, and
      the first error it reports ends the replay and is returned. */
  method ReplayInternal<E>(b: Batch, fn: (int, KeyType, Bytes, Bytes) -> Option<E>) returns (err: Option<E>)
    requires AllInBounds(b.index, b.data)
    ensures err.None? <==> forall i :: 0 <= i < |b.index| ==> Visit(b, fn, i).None?
    ensures err.Some? ==>
      (exists i :: 0 <= i < |b.index| && err == Visit(b, fn, i) && (forall j :: 0 <= j < i ==> Visit(b, fn, j).None?))
  {
    var i := 0;
    while i < |b.index|
      invariant 0 <= i <= |b.index|
      invariant forall j :: 0 <= j < i ==> Visit(b, fn, j).None?
    {
      var idx := b.index[i];
      var e := fn(i, idx.keyType, K(idx, b.data), V(idx, b.data));
      if e.Some? {
        assert e == Visit(b, fn, i);
        return e;
      }
      i := i + 1;
    }
    return None;
  }

  // ---------------------------------------------------------------------
  // Appending one batch to another

  /** An entry of the appended batch moved by `ob` bytes; an empty value's
      position is left where it was. */
  function Shift(idx: BatchIndex, ob: int): BatchIndex {
    idx.(keyPos := idx.keyPos + ob,
         valuePos := if idx.valueLen != 0 then idx.valuePos + ob else idx.valuePos)
  }

  function Rebase(index: seq<BatchIndex>, ob: int): (r: seq<BatchIndex>)
    ensures |r| == |index|
  {
    seq(|index|, i requires 0 <= i < |index| => Shift(index[i], ob))
  }

  /** The batch `append` leaves behind. */
  function Appended(b: Batch, p: Batch): Batch {
    Batch(b.data + p.data, b.index + Rebase(p.index, |b.data|), b.internalLen + p.internalLen)
  }

  /** `append`: concatenate, then shift the appended entries by the old
      buffer length (when it is not zero). */
  method Append(b: Batch, p: Batch) returns (r: Batch)
    ensures r == Appended(b, p)
  {
    var ob := |b.data|;
    var oi := |b.index|;
    var index := b.index + p.index;
    if ob != 0 {
      while oi < |index|
        invariant |b.index| <= oi <= |index| == |b.index| + |p.index|
        invariant index[..|b.index|] == b.index
        invariant forall j :: |b.index| <= j < oi ==> index[j] == Shift(p.index[j - |b.index|], ob)
        invariant forall j :: oi <= j < |index| ==> index[j] == p.index[j - |b.index|]
      {
        var e := index[oi];
        index := index[oi := e.(keyPos := e.keyPos + ob,
                                valuePos := if e.valueLen != 0 then e.valuePos + ob else e.valuePos)];
        oi := oi + 1;
      }
    }
    assert index == b.index + Rebase(p.index, ob);
    r := Batch(b.data + p.data, index, b.internalLen + p.internalLen);
  }

  /** A moved entry reads the same record from behind the prefix `a`. */
  lemma ShiftOpAt(idx: BatchIndex, a: Bytes, data: Bytes)
    requires InBounds(idx, data)
    ensures InBounds(Shift(idx, |a|), a + data) && OpAt(Shift(idx, |a|), a + data) == OpAt(idx, data)
  {
    SliceBehind(a, data, idx.keyPos, idx.keyLen);
    if idx.valueLen != 0 {
      SliceBehind(a, data, idx.valuePos, idx.valueLen);
    }
  }

  lemma SliceBehind(a: Bytes, data: Bytes, p: int, n: int)
    requires 0 <= p && 0 <= n && p + n <= |data|
    ensures (a + data)[|a| + p..|a| + p + n] == data[p..p + n]
  {
  }

  lemma RebaseOps(index: seq<BatchIndex>, a: Bytes, data: Bytes)
    requires AllInBounds(index, data)
    ensures AllInBounds(Rebase(index, |a|), a + data)
    ensures OpsOf(Rebase(index, |a|), a + data) == OpsOf(index, data)
  {
    forall i | 0 <= i < |index|
      ensures InBounds(Rebase(index, |a|)[i], a + data)
      ensures OpAt(Rebase(index, |a|)[i], a + data) == OpAt(index[i], data)
    {
      ShiftOpAt(index[i], a, data);
    }
  }

  /** The appended batch denotes the records of `b` followed by those of
      `p`, whatever its buffers hold. */
  lemma AppendedOps(b: Batch, p: Batch)
    requires AllInBounds(b.index, b.data) && AllInBounds(p.index, p.data)
    ensures AllInBounds(Appended(b, p).index, Appended(b, p).data)
    ensures OpsOf(Appended(b, p).index, Appended(b, p).data) == OpsOf(b.index, b.data) + OpsOf(p.index, p.data)
  {
    OpsOfExtend(b.index, b.data, p.data);
    RebaseOps(p.index, b.data, p.data);
    OpsOfConcat(b.index, Rebase(p.index, |b.data|), b.data + p.data);
  }

  /** Appending a batch holding `pops` to one holding `bops` gives one
      holding `bops + pops`. */
  lemma AppendedHolds(b: Batch, bops: seq<Op>, p: Batch, pops: seq<Op>)
    requires Holds(b, bops) && Holds(p, pops)
    ensures Holds(Appended(b, p), bops + pops)
    ensures Len(Appended(b, p)) == Len(b) + Len(p)
  {
    AppendedOps(b, p);
    EncodeOpsAppend(bops, pops);
    InternalLenAppend(bops, pops);
  }

  // ---------------------------------------------------------------------
  // Counting the records of several batches

  /** The records in a run of batches. */
  function TotalLen(batches: seq<Batch>): nat {
    if |batches| == 0 then 0 else TotalLen(batches[..|batches| - 1]) + Len(batches[|batches| - 1])
  }

  /** `batchesLen`. */
  method BatchesLen(batches: seq<Batch>) returns (n: int)
    ensures n == TotalLen(batches)
  {
    n := 0;
    var i := 0;
    while i < |batches|
      invariant 0 <= i <= |batches| && n == TotalLen(batches[..i])
    {
      assert batches[..i + 1][..i] == batches[..i];
      n := n + Len(batches[i]);
      i := i + 1;
    }
    assert batches[..i] == batches;
  }

  /** The records of batches laid end to end. */
  function Concat(opss: seq<seq<Op>>): seq<Op> {
    if |opss| == 0 then [] else Concat(opss[..|opss| - 1]) + opss[|opss| - 1]
  }

  /** The count `batchesLen` gives is the number of records the batches
      hold together (each batch's count is that of its records, by
      `LenHolds`). */
  lemma {:induction false} TotalLenCounts(batches: seq<Batch>, opss: seq<seq<Op>>)
    requires |batches| == |opss|
    requires forall i :: 0 <= i < |batches| ==> Len(batches[i]) == |opss[i]|
    ensures TotalLen(batches) == |Concat(opss)|
    decreases |batches|
  {
    if |batches| > 0 {
      var k := |batches| - 1;
      assert forall i :: 0 <= i < k ==> batches[..k][i] == batches[i] && opss[..k][i] == opss[i];
      TotalLenCounts(batches[..k], opss[..k]);
    }
  }
}

=== FILE: batch_as_written.dfy ===
/**
  `decodeBatch`'s record step exactly as the Go code computes it on a 64-bit
  platform: the varint length is converted with `int(x)`, which turns a
  `uint64` of 2^63 or more into a negative `int`, and the sums `o+int(x)`
  are `int` additions, which wrap at 2^63. Either lets an overlong length
  through the bounds check `o+int(x) > len(data)`.
  `BatchCodec.DecodeRecord` is the corrected step, which compares lengths
  in exact arithmetic.

  The second part is `appendRec` as written: it cuts its buffer to
  `MaxVarintLen32` bytes per length, and `copy` stops at the end of that
  buffer, so a record whose varints need more is cut short.
  `Batch.AppendRec` is the corrected write, which always writes the whole
  record.
 */
module BatchAsWritten {
  import opened Order
  import opened Wrappers
  import opened Varint
  import opened InternalKey
  import opened BatchCodec
  import Batch

  const Two63: int := 0x8000_0000_0000_0000

  /** Go's `int(x)` for a `uint64` on a 64-bit platform. */
  function ToInt(x: nat): (r: int)
    requires x < Two64
    ensures -0x8000_0000_0000_0000 <= r < Two63
    ensures x < Two63 ==> r == x
  {
    if x < Two63 then x else x - Two64
  }

  /** Go's `int` addition on a 64-bit platform: the exact sum brought back
      into `[-2^63, 2^63)` modulo 2^64. */
  function Wrap64(v: int): (r: int)
    ensures -Two63 <= r < Two63
    ensures (v - r) % Two64 == 0
    ensures -Two63 <= v < Two63 ==> r == v
  {
    (v + Two63) % Two64 - Two63
  }

  /** What one turn of the loop does: a record and the offset after it, a
      corruption, or a run-time panic (a negative slice index). */
  datatype Step = Record(idx: BatchIndex, next: int) | Corrupt(c: Corruption) | Panic

  /** One turn of `decodeBatch`'s loop at offset `o`, with Go's `int`
      conversion of each length and Go's wrapping `int` sum of an offset and
      a length. A Go slice is shorter than 2^63, so `o++` and the additions
      of a varint's size `n`, which stay within the buffer, cannot wrap. */
  function DecodeRecordAsWritten(data: Bytes, o: nat): (r: Step)
    requires o < |data| < Two63
  {
    var tag := data[o];
    if tag > Code(Val) then Corrupt(InvalidType(tag))
    else
      var kt := if tag == Code(Del) then Del else Val;
      var (x, n) := Uvarint(data[o + 1..]);
      var keyPos := o + 1 + n;
      if n <= 0 || Wrap64(keyPos + ToInt(x)) > |data| then Corrupt(InvalidKeyLength)
      else
        var o2 := Wrap64(keyPos + ToInt(x));
        if kt == Val then
          if o2 < 0 then Panic
          else
            var (y, m) := Uvarint(data[o2..]);
            var valuePos := o2 + m;
            if m <= 0 || Wrap64(valuePos + ToInt(y)) > |data| then Corrupt(InvalidValueLength)
            else Record(BatchIndex(Val, keyPos, ToInt(x), valuePos, ToInt(y)), Wrap64(valuePos + ToInt(y)))
        else
          Record(BatchIndex(Del, keyPos, ToInt(x), 0, 0), o2)
  }

  /** A delete record whose key length reads as 2^64 - 11. */
  const Looping: Bytes := [0x00, 0xF5, 0xFF, 0xFF, 0xFF, 0xFF, 0xFF, 0xFF, 0xFF, 0xFF, 0x01]

  lemma LoopingLength()
    ensures Looping == [0x00] + Encode(Two64 - 11)
    ensures Uvarint(Looping[1..]) == (Two64 - 11, 10)
  {
    assert Encode(1) == [1];
    assert Encode(255) == [0xFF] + Encode(1);
    assert Encode(32767) == [0xFF] + Encode(255);
    assert Encode(4194303) == [0xFF] + Encode(32767);
    assert Encode(536870911) == [0xFF] + Encode(4194303);
    assert Encode(68719476735) == [0xFF] + Encode(536870911);
    assert Encode(8796093022207) == [0xFF] + Encode(68719476735);
    assert Encode(1125899906842623) == [0xFF] + Encode(8796093022207);
    assert Encode(144115188075855871) == [0xFF] + Encode(1125899906842623);
    assert Encode(18446744073709551605) == [0xF5] + Encode(144115188075855871);
    assert Encode(Two64 - 11) == Looping[1..];
    assert Looping[1..] == Encode(Two64 - 11) + [];
    UvarintEncode(Two64 - 11, []);
  }

  /** As written, the record is accepted with key length -11, and the
      offset after it is 0: the loop goes back to the same record. */
  lemma AsWrittenRepeats()
    ensures DecodeRecordAsWritten(Looping, 0) == Record(BatchIndex(Del, 11, -11, 0, 0), 0)
  {
    LoopingLength();
  }

  /** The corrected step rejects the same record. */
  lemma CorrectedRejects()
    ensures DecodeRecord(Looping, 0) == Err(InvalidKeyLength)
  {
    LoopingLength();
  }

  /** A delete record whose key length reads as 2^63 - 1, the largest
      `int`. */
  const Wrapping: Bytes := [0x00, 0xFF, 0xFF, 0xFF, 0xFF, 0xFF, 0xFF, 0xFF, 0xFF, 0x7F]

  lemma WrappingLength()
    ensures Uvarint(Wrapping[1..]) == (Two63 - 1, 9)
  {
    assert Encode(127) == [0x7F];
    assert Encode(16383) == [0xFF] + Encode(127);
    assert Encode(2097151) == [0xFF] + Encode(16383);
    assert Encode(268435455) == [0xFF] + Encode(2097151);
    assert Encode(34359738367) == [0xFF] + Encode(268435455);
    assert Encode(4398046511103) == [0xFF] + Encode(34359738367);
    assert Encode(562949953421311) == [0xFF] + Encode(4398046511103);
    assert Encode(72057594037927935) == [0xFF] + Encode(562949953421311);
    assert Encode(Two63 - 1) == [0xFF] + Encode(72057594037927935);
    assert Wrapping[1..] == Encode(Two63 - 1) + [];
    UvarintEncode(Two63 - 1, []);
  }

  /** A key length below 2^63 is let through as well: `10+int(x)` is
      2^63 + 9, which wraps to 9 - 2^63 and so is not above the length 10.
      As written, the record is accepted with key length 2^63 - 1 and a
      negative next offset; the corrected step rejects it. */
  lemma AsWrittenWraps()
    ensures DecodeRecordAsWritten(Wrapping, 0) == Record(BatchIndex(Del, 10, Two63 - 1, 0, 0), 9 - Two63)
    ensures DecodeRecord(Wrapping, 0) == Err(InvalidKeyLength)
  {
    WrappingLength();
  }

  /** On buffers a Go slice can hold, every record the corrected step
      accepts is read the same way by the code as written. */
  lemma AsWrittenAgrees(data: Bytes, o: nat)
    requires o < |data| < Two63 && DecodeRecord(data, o).Ok?
    ensures DecodeRecordAsWritten(data, o) == Record(DecodeRecord(data, o).value.0, DecodeRecord(data, o).value.1)
  {
  }

  /** The ends the record at `o` announces, each an offset plus a length,
      are below 2^63 in exact arithmetic: the key's, and for a put whose
      key fits, the value's. */
  predicate NoWrap(data: Bytes, o: nat)
    requires o < |data|
  {
    var (x, n) := Uvarint(data[o + 1..]);
    var o2 := o + 1 + n + x;
    && o2 < Two63
    && (data[o] == Code(Val) && 0 < n && o2 <= |data| ==>
          var (y, m) := Uvarint(data[o2..]);
          o2 + m + y < Two63)
  }

  /** The converse: when no announced end reaches 2^63, the code as written
      rejects a record exactly as the corrected step does. With
      `AsWrittenAgrees`, the two differ only on records that announce an
      end at 2^63 or beyond. */
  lemma AsWrittenRejects(data: Bytes, o: nat)
    requires o < |data| < Two63 && NoWrap(data, o) && DecodeRecord(data, o).Err?
    ensures DecodeRecordAsWritten(data, o) == Corrupt(DecodeRecord(data, o).error)
  {
  }

  // ---------------------------------------------------------------------
  // appendRec

  /** The bytes `appendRec` cuts its slice to past the old end: the tag,
      `MaxVarintLen32` for each length, the key and, for a put, the value. */
  function Room(kt: KeyType, key: Bytes, value: Bytes): nat {
    1 + MaxVarintLen32 + |key| + (if kt == Val then MaxVarintLen32 + |value| else 0)
  }

  /** 2^35 and 2^63, the smallest values whose varints are longer than
      five and nine bytes. */
  lemma Pow2Values()
    ensures Pow2(35) == 0x8_0000_0000 && Pow2(63) == Two63
  {
    assert Pow2(0) == 1;
    Pow2Plus7(0);
    Pow2Plus7(7);
    Pow2Plus7(14);
    Pow2Plus7(21);
    Pow2Plus7(28);
    Pow2Plus7(35);
    Pow2Plus7(42);
    Pow2Plus7(49);
    Pow2Plus7(56);
  }

  /** `PutUvarint` never runs out of the room `appendRec` cuts: the key's
      varint fits after the tag, and for a put the key is copied whole and
      the value's varint fits after it. */
  lemma VarintRoom(kt: KeyType, key: Bytes, value: Bytes)
    requires |key| < MaxGoLen && |value| < MaxGoLen
    ensures 1 + |Encode(|key|)| <= Room(kt, key, value)
    ensures kt == Val ==> 1 + |Encode(|key|)| + |key| + |Encode(|value|)| <= Room(kt, key, value)
  {
    Pow2Values();
    EncodeLength(|key|, 9);
    EncodeShort(|key|);
    EncodeShort(|value|);
  }

  /** `appendRec` exactly as written: the tag, the key's varint, as much
      of the key as the slice holds, and for a put the value's varint and
      as much of the value as the slice holds. The index entry and
      `internalLen` take the full lengths. */
  function AppendRecAsWritten(b: Batch.Batch, kt: KeyType, key: Bytes, value: Bytes): (r: Batch.Batch)
    requires |key| < MaxGoLen && |value| < MaxGoLen
    ensures |b.data| < |r.data| <= |b.data| + Room(kt, key, value) && r.data[..|b.data|] == b.data
    ensures |r.index| == |b.index| + 1 && r.index[..|b.index|] == b.index
  {
    VarintRoom(kt, key, value);
    var o := |b.data|;
    var room := Room(kt, key, value);
    var kv := Encode(|key|);
    var kc := if |key| <= room - 1 - |kv| then |key| else room - 1 - |kv|;
    var head := [Code(kt)] + kv + key[..kc];
    if kt == Val then
      var vv := Encode(|value|);
      var vc := if |value| <= room - |head| - |vv| then |value| else room - |head| - |vv|;
      var idx := BatchIndex(Val, o + 1 + |kv|, |key|, o + |head| + |vv|, |value|);
      Batch.Batch(b.data + head + vv + value[..vc], b.index + [idx], b.internalLen + |key| + |value| + 8)
    else
      var idx := BatchIndex(Del, o + 1 + |kv|, |key|, 0, 0);
      Batch.Batch(b.data + head, b.index + [idx], b.internalLen + |key| + 8)
  }

  /** What the code as written appends for a delete: the full layout and
      footprint, and the record cut by the bytes its varint takes beyond
      the five reserved. */
  lemma ShapeDel(b: Batch.Batch, key: Bytes)
    requires |key| < MaxGoLen
    ensures var r, k := AppendRecAsWritten(b, Del, key, []), |Encode(|key|)|;
      && r.index[|b.index|] == BatchIndex(Del, |b.data| + 1 + k, |key|, 0, 0)
      && r.internalLen == b.internalLen + |key| + 8
      && |r.data| == |b.data| + 1 + k + |key| - (if k > MaxVarintLen32 then k - MaxVarintLen32 else 0)
      && (k <= MaxVarintLen32 ==> r.data == b.data + EncodeRec(Op(Del, key, [])))
  {
    VarintRoom(Del, key, []);
    var k := |Encode(|key|)|;
    if k <= MaxVarintLen32 {
      assert key[..|key|] == key;
      assert EncodeRec(Op(Del, key, [])) == [Code(Del)] + Encode(|key|) + key;
    }
  }

  /** What the code as written appends for a put: the full layout and
      footprint, and the record cut by the bytes its two varints take
      beyond the ten reserved. */
  lemma ShapeVal(b: Batch.Batch, key: Bytes, value: Bytes)
    requires |key| < MaxGoLen && |value| < MaxGoLen
    ensures var r, k, v := AppendRecAsWritten(b, Val, key, value), |Encode(|key|)|, |Encode(|value|)|;
      && r.index[|b.index|] == BatchIndex(Val, |b.data| + 1 + k, |key|, |b.data| + 1 + k + |key| + v, |value|)
      && r.internalLen == b.internalLen + |key| + |value| + 8
      && |r.data| == |b.data| + 1 + k + |key| + v + |value| - (if k + v > 2 * MaxVarintLen32 then k + v - 2 * MaxVarintLen32 else 0)
      && (k + v <= 2 * MaxVarintLen32 ==> r.data == b.data + EncodeRec(Op(Val, key, value)))
  {
    VarintRoom(Val, key, value);
    ValIndex(b, key, value);
    ValLength(b, key, value);
    if |Encode(|key|)| + |Encode(|value|)| <= 2 * MaxVarintLen32 {
      ValWhole(b, key, value);
    }
  }

  /** The key of a put is always copied whole: the bytes before the
      value's varint are the tag, the key's varint and the key. */
  lemma ValHead(key: Bytes, value: Bytes)
    requires |key| < MaxGoLen && |value| < MaxGoLen
    ensures var room, kv := Room(Val, key, value), Encode(|key|);
      var kc := if |key| <= room - 1 - |kv| then |key| else room - 1 - |kv|;
      kc == |key| && key[..kc] == key
  {
    VarintRoom(Val, key, value);
  }

  lemma ValIndex(b: Batch.Batch, key: Bytes, value: Bytes)
    requires |key| < MaxGoLen && |value| < MaxGoLen
    ensures var r, k, v := AppendRecAsWritten(b, Val, key, value), |Encode(|key|)|, |Encode(|value|)|;
      && r.index[|b.index|] == BatchIndex(Val, |b.data| + 1 + k, |key|, |b.data| + 1 + k + |key| + v, |value|)
      && r.internalLen == b.internalLen + |key| + |value| + 8
  {
    ValHead(key, value);
  }

  lemma ValLength(b: Batch.Batch, key: Bytes, value: Bytes)
    requires |key| < MaxGoLen && |value| < MaxGoLen
    ensures var r, k, v := AppendRecAsWritten(b, Val, key, value), |Encode(|key|)|, |Encode(|value|)|;
      |r.data| == |b.data| + 1 + k + |key| + v + |value| - (if k + v > 2 * MaxVarintLen32 then k + v - 2 * MaxVarintLen32 else 0)
  {
    ValHead(key, value);
    VarintRoom(Val, key, value);
  }

  lemma ValWhole(b: Batch.Batch, key: Bytes, value: Bytes)
    requires |key| < MaxGoLen && |value| < MaxGoLen
    requires |Encode(|key|)| + |Encode(|value|)| <= 2 * MaxVarintLen32
    ensures AppendRecAsWritten(b, Val, key, value).data == b.data + EncodeRec(Op(Val, key, value))
  {
    ValData(b, key, value);
    PutBytes(b.data, AppendRecAsWritten(b, Val, key, value).data, Op(Val, key, value));
  }

  lemma ValData(b: Batch.Batch, key: Bytes, value: Bytes)
    requires |key| < MaxGoLen && |value| < MaxGoLen
    requires |Encode(|key|)| + |Encode(|value|)| <= 2 * MaxVarintLen32
    ensures AppendRecAsWritten(b, Val, key, value).data
      == b.data + ([Code(Val)] + Encode(|key|) + key) + Encode(|value|) + value
  {
    ValHead(key, value);
    assert value[..|value|] == value;
  }

  /** The varints take no more room than is reserved for them: five bytes
      for a delete's, ten shared by a put's two. */
  predicate Fits(kt: KeyType, key: Bytes, value: Bytes) {
    if kt == Val then |Encode(|key|)| + |Encode(|value|)| <= 2 * MaxVarintLen32
    else |Encode(|key|)| <= MaxVarintLen32
  }

  /** The code as written appends the same record as the corrected write
      exactly when the varints fit their reservation. */
  lemma AppendAgrees(b: Batch.Batch, kt: KeyType, key: Bytes, value: Bytes)
    requires |key| < MaxGoLen && |value| < MaxGoLen
    ensures AppendRecAsWritten(b, kt, key, value) == Batch.AppendRec(b, kt, key, value) <==> Fits(kt, key, value)
  {
    if kt == Val {
      AgreesVal(b, key, value);
    } else {
      AgreesDel(b, key);
    }
  }

  lemma AgreesDel(b: Batch.Batch, key: Bytes)
    requires |key| < MaxGoLen
    ensures AppendRecAsWritten(b, Del, key, []) == Batch.AppendRec(b, Del, key, []) <==> Fits(Del, key, [])
  {
    var op := Op(Del, key, []);
    var r, c := AppendRecAsWritten(b, Del, key, []), Batch.AppendRec(b, Del, key, []);
    ShapeDel(b, key);
    LayoutDel(op, |b.data|, |Encode(|key|)|);
    assert c.data == b.data + EncodeRec(op);
    if Fits(Del, key, []) {
      assert r.index == b.index + [r.index[|b.index|]];
      assert c.index == b.index + [Layout(op, |b.data|)];
    } else {
      assert |r.data| < |c.data|;
    }
  }

  lemma AgreesVal(b: Batch.Batch, key: Bytes, value: Bytes)
    requires |key| < MaxGoLen && |value| < MaxGoLen
    ensures AppendRecAsWritten(b, Val, key, value) == Batch.AppendRec(b, Val, key, value) <==> Fits(Val, key, value)
  {
    var op := Op(Val, key, value);
    var r, c := AppendRecAsWritten(b, Val, key, value), Batch.AppendRec(b, Val, key, value);
    ShapeVal(b, key, value);
    LayoutVal(op, |b.data|, |Encode(|key|)|, |Encode(|value|)|);
    assert c.data == b.data + EncodeRec(op);
    if Fits(Val, key, value) {
      assert r.index == b.index + [r.index[|b.index|]];
      assert c.index == b.index + [Layout(op, |b.data|)];
    } else {
      assert |r.data| < |c.data|;
    }
  }

  /** When the varints do not fit, the record as written is cut short and
      its index entry points past the end of the buffer. */
  lemma AppendOutOfBounds(b: Batch.Batch, kt: KeyType, key: Bytes, value: Bytes)
    requires |key| < MaxGoLen && |value| < MaxGoLen && !Fits(kt, key, value)
    ensures var r := AppendRecAsWritten(b, kt, key, value);
      !InBounds(r.index[|b.index|], r.data)
  {
    Pow2Values();
    EncodeLength(|key|, 9);
    if kt == Val {
      ShapeVal(b, key, value);
    } else {
      ShapeDel(b, key);
    }
  }

  /** A delete whose key is 2^35 bytes or longer: its length takes six or
      more varint bytes, so as written the record is cut to the reserved
      room and loses the end of the key. Its index entry runs past the
      buffer, while `internalLen` counts the whole key. The corrected write
      keeps the whole record. */
  lemma DeleteTruncated(b: Batch.Batch, key: Bytes)
    requires 0x8_0000_0000 <= |key| < MaxGoLen
    ensures var r := AppendRecAsWritten(b, Del, key, []);
      && |r.data| == |b.data| + Room(Del, key, []) < |b.data| + |EncodeRec(Op(Del, key, []))|
      && r.internalLen == b.internalLen + |key| + 8
      && !InBounds(r.index[|b.index|], r.data)
    ensures InBounds(Batch.AppendRec(b, Del, key, []).index[|b.index|], Batch.AppendRec(b, Del, key, []).data)
  {
    Pow2Values();
    EncodeLength(|key|, 5);
    LayoutDel(Op(Del, key, []), |b.data|, |Encode(|key|)|);
    ShapeDel(b, key);
    AppendOutOfBounds(b, Del, key, []);
  }
}

=== FILE: batch_codec.dfy ===
/**
  The write-batch wire format. A batch body is a run of records

      tag (1 byte) | uvarint(keyLen) | key | [uvarint(valueLen) | value]

  with the value part present only for a put (`tag` 1); a delete has
  `tag` 0. A stored batch is preceded by a 12-byte header: the sequence
  number as a little-endian 64-bit integer and the record count as a
  little-endian 32-bit integer.

  The index of a batch does not copy keys and values: each `BatchIndex`
  holds their offsets into the batch's buffer.
 */
module BatchCodec {
  import opened Order
  import opened Wrappers
  import opened Varint
  import LittleEndian
  import opened InternalKey

  const BatchHeaderLen: nat := 8 + 4

  /** Go slice lengths are `int`s: below 2^63. */
  const MaxGoLen: nat := 0x8000_0000_0000_0000

  /** The reasons an `ErrBatchCorrupted` carries. */
  datatype Corruption =
    | TooShort
    | InvalidType(tag: byte)
    | InvalidKeyLength
    | InvalidValueLength
    | InvalidRecordsLength
    | RecordsLengthMismatch(expected: int, got: int)

  /** The reason text, without the numbers the Go code formats into it. */
  function Reason(c: Corruption): string {
    match c
    case TooShort => "too short"
    case InvalidType(_) => "bad record: invalid type"
    case InvalidKeyLength => "bad record: invalid key length"
    case InvalidValueLength => "bad record: invalid value length"
    case InvalidRecordsLength => "invalid records length"
    case RecordsLengthMismatch(_, _) => "invalid records length: "
  }

  /** `batchIndex`. */
  datatype BatchIndex = BatchIndex(keyType: KeyType, keyPos: int, keyLen: int, valuePos: int, valueLen: int)

  /** The entry's key and (non-empty) value lie inside `data`, and a delete
      has no value. */
  predicate InBounds(idx: BatchIndex, data: Bytes) {
    && 0 <= idx.keyPos && 0 <= idx.keyLen && idx.keyPos + idx.keyLen <= |data|
    && 0 <= idx.valueLen
    && (idx.valueLen != 0 ==> 0 <= idx.valuePos && idx.valuePos + idx.valueLen <= |data|)
    && (idx.keyType == Del ==> idx.valueLen == 0)
  }

  predicate AllInBounds(index: seq<BatchIndex>, data: Bytes) {
    forall i :: 0 <= i < |index| ==> InBounds(index[i], data)
  }

  /** `batchIndex.k`. */
  function K(idx: BatchIndex, data: Bytes): Bytes
    requires InBounds(idx, data)
  {
    data[idx.keyPos..idx.keyPos + idx.keyLen]
  }

  /** `batchIndex.v`; Go's nil for an empty value is the empty sequence. */
  function V(idx: BatchIndex, data: Bytes): Bytes
    requires InBounds(idx, data)
  {
    if idx.valueLen != 0 then data[idx.valuePos..idx.valuePos + idx.valueLen] else []
  }

  /** One logical record: what `Put` or `Delete` was called with. */
  datatype Op = Op(keyType: KeyType, key: Bytes, value: Bytes)

  /** The record an index entry denotes. */
  function OpAt(idx: BatchIndex, data: Bytes): Op
    requires InBounds(idx, data)
  {
    Op(idx.keyType, K(idx, data), V(idx, data))
  }

  /** The records an index denotes, in order. */
  ghost function OpsOf(index: seq<BatchIndex>, data: Bytes): seq<Op>
    requires AllInBounds(index, data)
  {
    seq(|index|, i requires 0 <= i < |index| => OpAt(index[i], data))
  }

  /** A record Go can build: lengths fit an `int`, and a delete carries no
      value. */
  predicate WellFormed(op: Op) {
    && |op.key| < MaxGoLen && |op.value| < MaxGoLen
    && (op.keyType == Del ==> op.value == [])
  }

  predicate AllWellFormed(ops: seq<Op>) {
    forall i :: 0 <= i < |ops| ==> WellFormed(ops[i])
  }

  /** The bytes `appendRec` writes for one record: the tag and the
      length-prefixed key, then for a put the length-prefixed value. */
  function EncodeRec(op: Op): Bytes {
    EncodeKey(op) + EncodeValue(op)
  }

  function EncodeKey(op: Op): Bytes {
    [Code(op.keyType)] + (Encode(|op.key|) + op.key)
  }

  function EncodeValue(op: Op): Bytes {
    if op.keyType == Val then Encode(|op.value|) + op.value else []
  }

  /** The bytes of a run of records. */
  function EncodeOps(ops: seq<Op>): Bytes {
    if |ops| == 0 then [] else EncodeRec(ops[0]) + EncodeOps(ops[1..])
  }

  /** The record layout `appendRec` records for `op` written at offset
      `base`. */
  function Layout(op: Op, base: int): BatchIndex {
    var keyPos := base + 1 + |Encode(|op.key|)|;
    if op.keyType == Val then
      BatchIndex(Val, keyPos, |op.key|, keyPos + |op.key| + |Encode(|op.value|)|, |op.value|)
    else
      BatchIndex(Del, keyPos, |op.key|, 0, 0)
  }

  /** One iteration of `decodeBatch`'s loop: the record at offset `o` and
      the offset after it. Each check is made in exact arithmetic. */
  function DecodeRecord(data: Bytes, o: nat): (r: Result<(BatchIndex, nat), Corruption>)
    requires o < |data|
    ensures r.Ok? ==> o < r.value.1 <= |data| && InBounds(r.value.0, data)
  {
    var tag := data[o];
    if tag > Code(Val) then Err(InvalidType(tag))
    else
      var kt := if tag == Code(Del) then Del else Val;
      var (x, n) := Uvarint(data[o + 1..]);
      if n <= 0 || o + 1 + n + x > |data| then Err(InvalidKeyLength)
      else
        var keyPos := o + 1 + n;
        var o2 := keyPos + x;
        if kt == Val then
          var (y, m) := Uvarint(data[o2..]);
          if m <= 0 || o2 + m + y > |data| then Err(InvalidValueLength)
          else Ok((BatchIndex(Val, keyPos, x, o2 + m, y), o2 + m + y))
        else
          Ok((BatchIndex(Del, keyPos, x, 0, 0), o2))
  }

  /** Why `DecodeRecord` rejects a record, one clause per check of
      `decodeBatch`, and the fields of a record it accepts: the tag, the
      key after its varint length, and for a put the value after its
      varint length. */
  lemma RecordChecks(data: Bytes, o: nat)
    requires o < |data|
    ensures DecodeRecord(data, o) == Err(InvalidType(data[o])) <==> data[o] > Code(Val)
    ensures var r, (x, n) := DecodeRecord(data, o), Uvarint(data[o + 1..]);
      data[o] <= Code(Val) ==> (r == Err(InvalidKeyLength) <==> n <= 0 || o + 1 + n + x > |data|)
    ensures var r, (x, n) := DecodeRecord(data, o), Uvarint(data[o + 1..]);
      var o2 := o + 1 + n + x;
      data[o] == Code(Val) && 0 < n && o2 <= |data| ==>
        var (y, m) := Uvarint(data[o2..]);
        (r == Err(InvalidValueLength) <==> m <= 0 || o2 + m + y > |data|)
    ensures var r, (x, n) := DecodeRecord(data, o), Uvarint(data[o + 1..]);
      var o2 := o + 1 + n + x;
      r.Ok? ==>
        var (idx, next) := r.value;
        && idx.keyType == (if data[o] == Code(Del) then Del else Val)
        && idx.keyPos == o + 1 + n && idx.keyLen == x
        && (data[o] == Code(Del) ==> idx.valuePos == 0 && idx.valueLen == 0 && next == o2)
        && (data[o] == Code(Val) ==>
              var (y, m) := Uvarint(data[o2..]);
              idx.valuePos == o2 + m && idx.valueLen == y && next == o2 + m + y)
  {
  }

  /** What `decodeBatch` hands to its callback: the records decoded, in
      order, up to the first corrupt one, and the corruption if any. */
  datatype Decoded = Decoded(records: seq<BatchIndex>, err: Option<Corruption>)

  /** `decodeBatch`'s loop from offset `o`. */
  function DecodeFrom(data: Bytes, o: nat): (r: Decoded)
    requires o <= |data|
    ensures AllInBounds(r.records, data)
    decreases |data| - o
  {
    if o == |data| then Decoded([], None)
    else
      match DecodeRecord(data, o)
      case Err(e) => Decoded([], Some(e))
      case Ok((idx, o')) =>
        var rest := DecodeFrom(data, o');
        Decoded([idx] + rest.records, rest.err)
  }

  /** `decodeBatch`. */
  function DecodeBatch(data: Bytes): (r: Decoded)
    ensures AllInBounds(r.records, data)
  {
    DecodeFrom(data, 0)
  }

  /** `data` from `o` on is `a` followed by `t`: `a` sits at `o` and `t`
      follows it. */
  lemma DropPrefix(data: Bytes, o: nat, a: Bytes, t: Bytes)
    requires o <= |data| && data[o..] == a + t
    ensures o + |a| <= |data|
    ensures data[o + |a|..] == t
    ensures data[o..o + |a|] == a
  {
    assert data[o..][|a|..] == t;
    assert data[o..][..|a|] == a;
  }

  /** The fields of `op`'s record read back at offset `o`: the tag, the
      key length and, for a put, the value length, each fitting in
      `data`. */
  predicate ReadsAt(data: Bytes, o: nat, op: Op) {
    var k := |Encode(|op.key|)|;
    var keyEnd := o + 1 + k + |op.key|;
    && o < |data| && data[o] == Code(op.keyType)
    && Uvarint(data[o + 1..]) == (|op.key|, k) && keyEnd <= |data|
    && (op.keyType == Val ==>
          && Uvarint(data[keyEnd..]) == (|op.value|, |Encode(|op.value|)|)
          && keyEnd + |Encode(|op.value|)| + |op.value| <= |data|)
  }

  /** The tag and the key length of a record `appendRec` wrote read back
      from the front of `s`; the value part follows the key. */
  lemma FrontKey(s: Bytes, op: Op, rest: Bytes)
    requires WellFormed(op) && s == EncodeRec(op) + rest
    ensures |s| > 0 && s[0] == Code(op.keyType)
    ensures Uvarint(s[1..]) == (|op.key|, |Encode(|op.key|)|)
    ensures 1 + |Encode(|op.key|)| + |op.key| <= |s|
    ensures s[1 + |Encode(|op.key|)| + |op.key|..] == EncodeValue(op) + rest
  {
    var ev := EncodeValue(op) + rest;
    assert s[1..] == Encode(|op.key|) + (op.key + ev);
    UvarintEncode(|op.key|, op.key + ev);
    assert s[1 + |Encode(|op.key|)| + |op.key|..] == ev;
  }

  /** The value length of a put reads back from the front of its value
      part. */
  lemma FrontValue(t: Bytes, op: Op, rest: Bytes)
    requires op.keyType == Val && |op.value| < MaxGoLen && t == EncodeValue(op) + rest
    ensures Uvarint(t) == (|op.value|, |Encode(|op.value|)|)
    ensures |Encode(|op.value|)| + |op.value| <= |t|
  {
    assert t == Encode(|op.value|) + (op.value + rest);
    UvarintEncode(|op.value|, op.value + rest);
  }

  /** A record `appendRec` wrote reads back from the front of `s`,
      whatever follows it. */
  lemma RecReadsFront(s: Bytes, op: Op, rest: Bytes)
    requires WellFormed(op) && s == EncodeRec(op) + rest
    ensures ReadsAt(s, 0, op)
  {
    FrontKey(s, op, rest);
    if op.keyType == Val {
      FrontValue(s[1 + |Encode(|op.key|)| + |op.key|..], op, rest);
    }
  }

  /** Reading a record only looks at the bytes from its offset on. */
  lemma ReadsShift(data: Bytes, o: nat, op: Op)
    requires o <= |data| && ReadsAt(data[o..], 0, op)
    ensures ReadsAt(data, o, op)
  {
    var s := data[o..];
    var keyEnd := 1 + |Encode(|op.key|)| + |op.key|;
    assert data[o] == s[0];
    assert data[o + 1..] == s[1..];
    assert data[o + keyEnd..] == s[keyEnd..];
  }

  /** The record `appendRec` wrote at offset `o` reads back, whatever
      follows it. */
  lemma RecReads(data: Bytes, o: nat, op: Op, rest: Bytes)
    requires WellFormed(op) && o <= |data| && data[o..] == EncodeRec(op) + rest
    ensures ReadsAt(data, o, op)
  {
    RecReadsFront(data[o..], op, rest);
    ReadsShift(data, o, op);
  }

  /** A record whose fields read back decodes to its layout and the
      offset just past it. */
  lemma RecDecodes(data: Bytes, o: nat, op: Op)
    requires ReadsAt(data, o, op)
    ensures DecodeRecord(data, o) == Ok((Layout(op, o), o + |EncodeRec(op)|))
  {
    if op.keyType == Val {
      RecDecodesVal(data, o, op);
    } else {
      RecDecodesDel(data, o, op);
    }
  }

  lemma RecDecodesVal(data: Bytes, o: nat, op: Op)
    requires op.keyType == Val && ReadsAt(data, o, op)
    ensures DecodeRecord(data, o) == Ok((Layout(op, o), o + |EncodeRec(op)|))
  {
    var k := |Encode(|op.key|)|;
    var v := |Encode(|op.value|)|;
    LayoutVal(op, o, k, v);
    DecodeVal(data, o, |op.key|, k, |op.value|, v, Layout(op, o), o + |EncodeRec(op)|);
  }

  lemma RecDecodesDel(data: Bytes, o: nat, op: Op)
    requires op.keyType == Del && ReadsAt(data, o, op)
    ensures DecodeRecord(data, o) == Ok((Layout(op, o), o + |EncodeRec(op)|))
  {
    var k := |Encode(|op.key|)|;
    LayoutDel(op, o, k);
    DecodeDel(data, o, |op.key|, k, Layout(op, o), o + |EncodeRec(op)|);
  }

  /** A put's tag, key varint, key, value varint and value, in that
      order, are its encoded record. */
  lemma PutBytes(prefix: Bytes, data: Bytes, op: Op)
    requires op.keyType == Val
    requires data == prefix + ([Code(Val)] + Encode(|op.key|) + op.key) + Encode(|op.value|) + op.value
    ensures data == prefix + EncodeRec(op)
  {
    var head, tail := EncodeKey(op), EncodeValue(op);
    assert head == [Code(Val)] + Encode(|op.key|) + op.key;
    assert data == prefix + head + tail;
  }

  /** The layout of a put, given the lengths of its two varints. */
  lemma LayoutVal(op: Op, o: nat, k: nat, v: nat)
    requires op.keyType == Val && k == |Encode(|op.key|)| && v == |Encode(|op.value|)|
    ensures Layout(op, o) == BatchIndex(Val, o + 1 + k, |op.key|, o + 1 + k + |op.key| + v, |op.value|)
    ensures o + |EncodeRec(op)| == o + 1 + k + |op.key| + v + |op.value|
  {
  }

  /** The layout of a delete, given the length of its varint. */
  lemma LayoutDel(op: Op, o: nat, k: nat)
    requires op.keyType == Del && k == |Encode(|op.key|)|
    ensures Layout(op, o) == BatchIndex(Del, o + 1 + k, |op.key|, 0, 0)
    ensures o + |EncodeRec(op)| == o + 1 + k + |op.key|
  {
  }

  /** `x` sits at offset `a` of `s` when `s` from `a` on starts with it. */
  lemma Window(s: Bytes, a: nat, x: Bytes, t: Bytes)
    requires a <= |s| && s[a..] == x + t
    ensures a + |x| <= |s| && s[a..a + |x|] == x
  {
    assert s[a..][..|x|] == x;
  }

  /** A window of a suffix is a window of the whole. */
  lemma ShiftWindow(data: Bytes, o: nat, a: nat, b: nat)
    requires o <= |data| && a <= b <= |data| - o
    ensures data[o + a..o + b] == data[o..][a..b]
  {
  }

  /** Where the key and the value of a record `appendRec` wrote sit,
      counted from the record's first byte. */
  lemma FrontFields(s: Bytes, op: Op, rest: Bytes)
    requires WellFormed(op) && s == EncodeRec(op) + rest
    ensures var kp := 1 + |Encode(|op.key|)|;
      kp + |op.key| <= |s| && s[kp..kp + |op.key|] == op.key
    ensures op.keyType == Val ==>
      var vp := 1 + |Encode(|op.key|)| + |op.key| + |Encode(|op.value|)|;
      vp + |op.value| <= |s| && s[vp..vp + |op.value|] == op.value
  {
    var kp := 1 + |Encode(|op.key|)|;
    var ev := EncodeValue(op) + rest;
    assert s[kp..] == op.key + ev;
    Window(s, kp, op.key, ev);
    if op.keyType == Val {
      var vp := kp + |op.key| + |Encode(|op.value|)|;
      assert s[vp..] == op.value + rest;
      Window(s, vp, op.value, rest);
    }
  }

  /** The layout of the record `appendRec` wrote at offset `o` denotes
      the record. */
  lemma RecDenotes(data: Bytes, o: nat, op: Op, rest: Bytes)
    requires WellFormed(op) && o <= |data| && data[o..] == EncodeRec(op) + rest
    ensures InBounds(Layout(op, o), data) && OpAt(Layout(op, o), data) == op
  {
    FrontFields(data[o..], op, rest);
    if op.keyType == Val {
      RecDenotesVal(data, o, op);
    } else {
      RecDenotesDel(data, o, op);
    }
  }

  lemma RecDenotesVal(data: Bytes, o: nat, op: Op)
    requires op.keyType == Val && o <= |data|
    requires var kp := 1 + |Encode(|op.key|)|;
      kp + |op.key| <= |data| - o && data[o..][kp..kp + |op.key|] == op.key
    requires var vp := 1 + |Encode(|op.key|)| + |op.key| + |Encode(|op.value|)|;
      vp + |op.value| <= |data| - o && data[o..][vp..vp + |op.value|] == op.value
    ensures InBounds(Layout(op, o), data) && OpAt(Layout(op, o), data) == op
  {
    var k := |Encode(|op.key|)|;
    var v := |Encode(|op.value|)|;
    var vp := 1 + k + |op.key| + v;
    ShiftWindow(data, o, 1 + k, 1 + k + |op.key|);
    ShiftWindow(data, o, vp, vp + |op.value|);
    LayoutVal(op, o, k, v);
    OpAtIdx(data, Layout(op, o), op.key, op.value);
  }

  lemma RecDenotesDel(data: Bytes, o: nat, op: Op)
    requires op.keyType == Del && op.value == [] && o <= |data|
    requires var kp := 1 + |Encode(|op.key|)|;
      kp + |op.key| <= |data| - o && data[o..][kp..kp + |op.key|] == op.key
    ensures InBounds(Layout(op, o), data) && OpAt(Layout(op, o), data) == op
  {
    var k := |Encode(|op.key|)|;
    ShiftWindow(data, o, 1 + k, 1 + k + |op.key|);
    LayoutDel(op, o, k);
    OpAtIdx(data, Layout(op, o), op.key, op.value);
  }

  /** An entry whose key and value sit where it says denotes them. */
  lemma OpAtIdx(data: Bytes, idx: BatchIndex, key: Bytes, value: Bytes)
    requires idx.keyPos >= 0 && idx.keyLen == |key|
    requires idx.keyPos + |key| <= |data| && data[idx.keyPos..idx.keyPos + |key|] == key
    requires idx.valueLen == |value| && (idx.keyType == Del ==> value == [])
    requires value != [] ==>
      idx.valuePos >= 0 && idx.valuePos + |value| <= |data| && data[idx.valuePos..idx.valuePos + |value|] == value
    ensures InBounds(idx, data) && OpAt(idx, data) == Op(idx.keyType, key, value)
  {
  }

  /** The layouts of a run of records written from offset `base` on. */
  function Layouts(ops: seq<Op>, base: int): (r: seq<BatchIndex>)
    ensures |r| == |ops|
  {
    if |ops| == 0 then [] else [Layout(ops[0], base)] + Layouts(ops[1..], base + |EncodeRec(ops[0])|)
  }

  /** The first record of a run, and the rest after it. */
  lemma SplitOps(data: Bytes, o: nat, ops: seq<Op>, rest: Bytes)
    requires |ops| > 0 && o <= |data| && data[o..] == EncodeOps(ops) + rest
    ensures data[o..] == EncodeRec(ops[0]) + (EncodeOps(ops[1..]) + rest)
    ensures o + |EncodeRec(ops[0])| <= |data|
    ensures data[o + |EncodeRec(ops[0])|..] == EncodeOps(ops[1..]) + rest
  {
    assert EncodeOps(ops) + rest == EncodeRec(ops[0]) + (EncodeOps(ops[1..]) + rest);
    DropPrefix(data, o, EncodeRec(ops[0]), EncodeOps(ops[1..]) + rest);
  }

  lemma WellFormedTail(ops: seq<Op>)
    requires |ops| > 0 && AllWellFormed(ops)
    ensures WellFormed(ops[0]) && AllWellFormed(ops[1..])
  {
    assert forall i :: 0 <= i < |ops| - 1 ==> ops[1..][i] == ops[i + 1];
  }

  /** One turn of the decoding loop that reads a record. */
  lemma DecodeStep(data: Bytes, o: nat, idx: BatchIndex, o': nat)
    requires o < |data| && DecodeRecord(data, o) == Ok((idx, o'))
    ensures o' <= |data|
    ensures DecodeFrom(data, o) == Decoded([idx] + DecodeFrom(data, o').records, DecodeFrom(data, o').err)
  {
  }

  /** Every record of `ops` can be read in turn from offset `o`, and the
      last one ends the buffer. */
  ghost predicate ReadsRun(data: Bytes, o: nat, ops: seq<Op>)
    decreases |ops|
  {
    if |ops| == 0 then o == |data|
    else
      var o' := o + |EncodeRec(ops[0])|;
      && ReadsAt(data, o, ops[0]) && o < o' <= |data|
      && ReadsRun(data, o', ops[1..])
  }

  /** An encoded run that ends the buffer can be read record by record. */
  lemma {:induction false} EncodedRun(data: Bytes, o: nat, ops: seq<Op>)
    requires AllWellFormed(ops) && o <= |data| && data[o..] == EncodeOps(ops)
    ensures ReadsRun(data, o, ops)
    decreases |ops|
  {
    if |ops| > 0 {
      FirstReads(data, o, ops);
      EncodedRun(data, o + |EncodeRec(ops[0])|, ops[1..]);
    } else {
      assert data[o..] == [];
    }
  }

  /** The decoding loop goes through a readable run at its layouts and
      stops at the end of the buffer without error. */
  lemma {:induction false} RunDecodes(data: Bytes, o: nat, ops: seq<Op>)
    requires o <= |data| && ReadsRun(data, o, ops)
    ensures DecodeFrom(data, o) == Decoded(Layouts(ops, o), None)
    decreases |ops|
  {
    if |ops| > 0 {
      var o' := o + |EncodeRec(ops[0])|;
      ReadStep(data, o, ops[0]);
      RunDecodes(data, o', ops[1..]);
      LayoutsCons(ops, o);
    } else {
      assert Layouts(ops, o) == [];
    }
  }

  /** The layouts of a non-empty run: the first record's, then the rest's. */
  lemma LayoutsCons(ops: seq<Op>, o: int)
    requires |ops| > 0
    ensures Layouts(ops, o) == [Layout(ops[0], o)] + Layouts(ops[1..], o + |EncodeRec(ops[0])|)
  {
  }

  /** `decodeBatch` reads back every record of an encoded run that ends
      the buffer, at the offsets the encoder laid them out, and reports no
      corruption. */
  lemma DecodeOps(data: Bytes, o: nat, ops: seq<Op>)
    requires AllWellFormed(ops) && o <= |data| && data[o..] == EncodeOps(ops)
    ensures DecodeFrom(data, o) == Decoded(Layouts(ops, o), None)
  {
    EncodedRun(data, o, ops);
    RunDecodes(data, o, ops);
  }

  /** A record that can be read at `o` is one turn of the decoding loop. */
  lemma ReadStep(data: Bytes, o: nat, op: Op)
    requires ReadsAt(data, o, op) && o < o + |EncodeRec(op)| <= |data|
    ensures DecodeFrom(data, o) == Decoded([Layout(op, o)] + DecodeFrom(data, o + |EncodeRec(op)|).records,
                                           DecodeFrom(data, o + |EncodeRec(op)|).err)
  {
    RecDecodes(data, o, op);
    DecodeStep(data, o, Layout(op, o), o + |EncodeRec(op)|);
  }

  /** The first record of an encoded run can be read where it starts, and
      the rest of the run follows it. */
  lemma FirstReads(data: Bytes, o: nat, ops: seq<Op>)
    requires AllWellFormed(ops) && |ops| > 0 && o <= |data| && data[o..] == EncodeOps(ops)
    ensures o < o + |EncodeRec(ops[0])| <= |data| && AllWellFormed(ops[1..])
    ensures data[o + |EncodeRec(ops[0])|..] == EncodeOps(ops[1..])
    ensures ReadsAt(data, o, ops[0])
  {
    assert data[o..] == EncodeOps(ops) + [];
    SplitOps(data, o, ops, []);
    WellFormedTail(ops);
    RecReads(data, o, ops[0], EncodeOps(ops[1..]) + []);
    assert EncodeOps(ops[1..]) + [] == EncodeOps(ops[1..]);
  }

  /** `index` lies inside `data` and its entries denote `ops`, in order. */
  predicate Denotes(index: seq<BatchIndex>, data: Bytes, ops: seq<Op>)
    decreases |index|
  {
    && |index| == |ops|
    && (|index| > 0 ==>
          && InBounds(index[0], data) && OpAt(index[0], data) == ops[0]
          && Denotes(index[1..], data, ops[1..]))
  }

  lemma DenotesCons(idx: BatchIndex, index: seq<BatchIndex>, data: Bytes, op: Op, ops: seq<Op>)
    requires InBounds(idx, data) && OpAt(idx, data) == op && Denotes(index, data, ops)
    ensures Denotes([idx] + index, data, [op] + ops)
  {
    assert ([idx] + index)[1..] == index && ([op] + ops)[1..] == ops;
  }

  /** Each laid-out entry lies inside the buffer and denotes its record. */
  lemma {:induction false} LayoutsDenote(data: Bytes, o: nat, ops: seq<Op>, rest: Bytes)
    requires AllWellFormed(ops) && o <= |data| && data[o..] == EncodeOps(ops) + rest
    ensures Denotes(Layouts(ops, o), data, ops)
    decreases |ops|
  {
    if |ops| > 0 {
      SplitOps(data, o, ops, rest);
      WellFormedTail(ops);
      RecDenotes(data, o, ops[0], EncodeOps(ops[1..]) + rest);
      var o' := o + |EncodeRec(ops[0])|;
      LayoutsDenote(data, o', ops[1..], rest);
      DenotesCons(Layout(ops[0], o), Layouts(ops[1..], o'), data, ops[0], ops[1..]);
      assert [ops[0]] + ops[1..] == ops;
    }
  }

  /** Denoting, stated with `OpsOf`. */
  lemma {:induction false} DenotesOps(index: seq<BatchIndex>, data: Bytes, ops: seq<Op>)
    requires Denotes(index, data, ops)
    ensures AllInBounds(index, data) && OpsOf(index, data) == ops
    decreases |index|
  {
    if |index| > 0 {
      DenotesOps(index[1..], data, ops[1..]);
      forall i | 0 < i < |index|
        ensures InBounds(index[i], data) && OpAt(index[i], data) == ops[i]
      {
        assert index[1..][i - 1] == index[i] && ops[1..][i - 1] == ops[i];
        assert OpsOf(index[1..], data)[i - 1] == OpAt(index[i], data);
      }
    }
  }

  /** The index `decodeBatch` builds for an encoded run denotes the run. */
  lemma LayoutsOps(ops: seq<Op>)
    requires AllWellFormed(ops)
    ensures AllInBounds(Layouts(ops, 0), EncodeOps(ops))
    ensures OpsOf(Layouts(ops, 0), EncodeOps(ops)) == ops
  {
    var data := EncodeOps(ops);
    assert data[0..] == data + [];
    LayoutsDenote(data, 0, ops, []);
    DenotesOps(Layouts(ops, 0), data, ops);
  }

  /** `DecodeRecord` on a put whose two varints read and fit. */
  lemma DecodeVal(data: Bytes, o: nat, x: nat, n: nat, y: nat, m: nat, idx: BatchIndex, end: nat)
    requires o < |data| && data[o] == 1
    requires 0 < n && Uvarint(data[o + 1..]) == (x, n) && o + 1 + n + x <= |data|
    requires 0 < m && Uvarint(data[o + 1 + n + x..]) == (y, m) && o + 1 + n + x + m + y <= |data|
    requires idx == BatchIndex(Val, o + 1 + n, x, o + 1 + n + x + m, y) && end == o + 1 + n + x + m + y
    ensures DecodeRecord(data, o) == Ok((idx, end))
  {
  }

  /** `DecodeRecord` on a delete whose varint reads and fits. */
  lemma DecodeDel(data: Bytes, o: nat, x: nat, n: nat, idx: BatchIndex, end: nat)
    requires o < |data| && data[o] == 0
    requires 0 < n && Uvarint(data[o + 1..]) == (x, n) && o + 1 + n + x <= |data|
    requires idx == BatchIndex(Del, o + 1 + n, x, 0, 0) && end == o + 1 + n + x
    ensures DecodeRecord(data, o) == Ok((idx, end))
  {
  }

  /** Encoding is compatible with concatenation. */
  lemma {:induction false} EncodeOpsAppend(a: seq<Op>, b: seq<Op>)
    ensures EncodeOps(a + b) == EncodeOps(a) + EncodeOps(b)
  {
    if |a| > 0 {
      assert (a + b)[1..] == a[1..] + b;
      EncodeOpsAppend(a[1..], b);
    } else {
      assert a + b == b;
    }
  }

  /** `encodeBatchHeader`: the sequence number, then the record count
      converted to `uint32` (two's complement, so modulo 2^32). */
  function EncodeBatchHeader(sn: nat, batchLen: int): (r: Bytes)
    requires sn < Two64
    ensures |r| == BatchHeaderLen
  {
    LittleEndian.PutUint64(sn) + LittleEndian.PutUint32(batchLen % Two32)
  }

  /** `decodeBatchHeader`, with Go's `int` 64 bits wide: the count read
      back is never negative. */
  function DecodeBatchHeader(data: Bytes): (r: Result<(nat, nat), Corruption>)
    ensures r.Err? <==> |data| < BatchHeaderLen
    ensures r.Err? ==> r.error == TooShort
    ensures r.Ok? ==> r.value.0 < Two64 && r.value.1 < Two32
  {
    if |data| < BatchHeaderLen then Err(TooShort)
    else Ok((LittleEndian.Uint64(data), LittleEndian.Uint32(data[8..])))
  }

  /** A header reads back as the sequence number and the count modulo
      2^32, whatever follows it. */
  lemma HeaderRoundTrip(sn: nat, batchLen: int, rest: Bytes)
    requires sn < Two64
    ensures DecodeBatchHeader(EncodeBatchHeader(sn, batchLen) + rest) == Ok((sn, batchLen % Two32))
  {
    var a := LittleEndian.PutUint64(sn);
    var b := LittleEndian.PutUint32(batchLen % Two32);
    var data := a + b + rest;
    assert a[..8] == a && data[..8] == a;
    assert b[..4] == b && data[8..][..4] == b;
    LittleEndian.Uint64Put(sn);
    LittleEndian.Uint32Put(batchLen % Two32);
    assert LittleEndian.Uint64(data) == LittleEndian.Uint64(a);
    assert LittleEndian.Uint32(data[8..]) == LittleEndian.Uint32(b);
  }

  /** Every header that reads is the encoding of what it reads as. */
  lemma HeaderReencode(data: Bytes)
    requires DecodeBatchHeader(data).Ok?
    ensures var (sn, n) := DecodeBatchHeader(data).value;
      EncodeBatchHeader(sn, n) == data[..BatchHeaderLen]
  {
    var sn := LittleEndian.Uint64(data);
    var n := LittleEndian.Uint32(data[8..]);
    LittleEndian.PutGet(data[..8]);
    LittleEndian.PutGet(data[8..12]);
    assert data[..8][..8] == data[..8];
    assert data[8..][..4] == data[8..12];
    LittleEndian.Widths();
    assert n % Two32 == n;
    assert data[..BatchHeaderLen] == data[..8] + data[8..12];
  }
}

=== FILE: batch_mem.dfy ===
/**
  Writing a batch into the memtable and taking it back out: `putMem`,
  `revertMem` and `decodeBatchToMem`. Record `i` of a batch written at
  sequence `sn` goes in under the internal key of its user key, sequence
  `sn + i` (64-bit arithmetic) and its type; a delete goes in as an entry
  too, with an empty value.

  Each operation is stated twice: on the abstract sorted map (`PutFrom`,
  `RevertFrom`, `ToMem`), and as a method driving the skip list, whose
  contract says it follows the abstract one.
 */
module BatchMem {
  import opened Order
  import opened Wrappers
  import opened SortedMap
  import opened MemDbLayout
  import opened InternalKey
  import opened BatchCodec
  import Batch
  import MemDb
  import MemDbPut
  import MemDbDelete

  /** Why writing or reverting stops: a corrupt journal record, a missing
      key on revert, or a sequence number too large for a key (the Go code
      panics there). */
  datatype MemWriteError = Corrupted(reason: Corruption) | NotFound | Overflow

  /** The internal key for record `i` of a batch at sequence `sn`;
      `seq+uint64(i)` wraps modulo 2^64. */
  function RecordKey(op: Op, sn: nat, i: nat): Result<Bytes, KeyError> {
    MakeInternalKey(op.key, (sn + i) % Two64, op.keyType)
  }

  /** `putMem`'s loop from record `i` on, over the abstract map. */
  function PutFrom(cmp: Comparer, m: seq<Entry>, ops: seq<Op>, sn: nat, i: nat): (seq<Entry>, Option<MemWriteError>)
    requires i <= |ops|
    decreases |ops| - i
  {
    if i == |ops| then (m, None)
    else
      match RecordKey(ops[i], sn, i)
      case Err(_) => (m, Some(Overflow))
      case Ok(ik) => PutFrom(cmp, SortedMap.Put(cmp, m, ik, ops[i].value), ops, sn, i + 1)
  }

  /** `revertMem`'s loop from record `i` on, over the abstract map: the
      first key that is not there ends it. */
  function RevertFrom(m: seq<Entry>, ops: seq<Op>, sn: nat, i: nat): (seq<Entry>, Option<MemWriteError>)
    requires i <= |ops|
    decreases |ops| - i
  {
    if i == |ops| then (m, None)
    else
      match RecordKey(ops[i], sn, i)
      case Err(_) => (m, Some(Overflow))
      case Ok(ik) =>
        if Get(m, ik).None? then (m, Some(NotFound))
        else RevertFrom(Remove(m, ik), ops, sn, i + 1)
  }

  // ---------------------------------------------------------------------
  // The keys a batch is written under

  /** The internal key of record `j` when its sequence number fits. */
  function IK(ops: seq<Op>, sn: nat, j: nat): Bytes
    requires j < |ops| && sn + j <= KeyMaxSeq
  {
    MakeInternalKey(ops[j].key, sn + j, ops[j].keyType).value
  }

  /** `k` is the key of one of the records `i..` of the batch. */
  ghost predicate Among(ops: seq<Op>, sn: nat, i: nat, k: Bytes)
    requires sn + |ops| <= KeyMaxSeq + 1
  {
    exists j :: i <= j < |ops| && IK(ops, sn, j) == k
  }

  /** Below the largest sequence number nothing wraps and every key builds. */
  lemma RecordKeyIK(ops: seq<Op>, sn: nat, j: nat)
    requires j < |ops| && sn + j <= KeyMaxSeq
    ensures RecordKey(ops[j], sn, j) == Ok(IK(ops, sn, j))
  {
    assert (sn + j) % Two64 == sn + j;
  }

  /** Records of one batch never share an internal key. */
  lemma IKDistinct(ops: seq<Op>, sn: nat, i: nat, j: nat)
    requires i < |ops| && j < |ops| && sn + i <= KeyMaxSeq && sn + j <= KeyMaxSeq && i != j
    ensures IK(ops, sn, i) != IK(ops, sn, j)
  {
    if IK(ops, sn, i) == IK(ops, sn, j) {
      MakeInjective(ops[i].key, sn + i, ops[i].keyType, ops[j].key, sn + j, ops[j].keyType);
    }
  }

  /** Record `i`'s key is not that of a later record. */
  lemma NotLater(ops: seq<Op>, sn: nat, i: nat)
    requires i < |ops| && sn + |ops| <= KeyMaxSeq + 1
    ensures !Among(ops, sn, i + 1, IK(ops, sn, i))
  {
    forall j | i + 1 <= j < |ops|
      ensures IK(ops, sn, j) != IK(ops, sn, i)
    {
      IKDistinct(ops, sn, i, j);
    }
  }

  // ---------------------------------------------------------------------
  // Putting and reverting on the abstract map

  lemma {:induction false} PutFromSorted(cmp: Comparer, m: seq<Entry>, ops: seq<Op>, sn: nat, i: nat)
    requires ValidComparer(cmp) && Sorted(cmp, m) && i <= |ops|
    ensures Sorted(cmp, PutFrom(cmp, m, ops, sn, i).0)
    decreases |ops| - i
  {
    if i < |ops| && RecordKey(ops[i], sn, i).Ok? {
      var ik := RecordKey(ops[i], sn, i).value;
      SortedMap.PutSorted(cmp, m, ik, ops[i].value);
      PutFromSorted(cmp, SortedMap.Put(cmp, m, ik, ops[i].value), ops, sn, i + 1);
    }
  }

  /** When no sequence number overflows, `putMem` succeeds, record `j` is
      found under sequence `sn + j` with its value, and every other key
      keeps its value. */
  lemma {:induction false} PutFromGet(cmp: Comparer, m: seq<Entry>, ops: seq<Op>, sn: nat, i: nat)
    requires ValidComparer(cmp) && i <= |ops| && sn + |ops| <= KeyMaxSeq + 1
    ensures PutFrom(cmp, m, ops, sn, i).1 == None
    ensures forall j :: i <= j < |ops| ==> Get(PutFrom(cmp, m, ops, sn, i).0, IK(ops, sn, j)) == Some(ops[j].value)
    ensures forall k :: !Among(ops, sn, i, k) ==> Get(PutFrom(cmp, m, ops, sn, i).0, k) == Get(m, k)
    decreases |ops| - i
  {
    if i < |ops| {
      var ik := IK(ops, sn, i);
      RecordKeyIK(ops, sn, i);
      var m' := SortedMap.Put(cmp, m, ik, ops[i].value);
      var r := PutFrom(cmp, m', ops, sn, i + 1);
      assert PutFrom(cmp, m, ops, sn, i) == r;
      PutFromGet(cmp, m', ops, sn, i + 1);
      NotLater(ops, sn, i);
      GetAfterPut(cmp, m, ik, ops[i].value, ik);
      forall k | !Among(ops, sn, i, k)
        ensures Get(r.0, k) == Get(m, k)
      {
        assert k != ik;
        assert !Among(ops, sn, i + 1, k);
        GetAfterPut(cmp, m, ik, ops[i].value, k);
      }
    }
  }

  /** When every key of records `i..` is present, `revertMem` succeeds,
      removes exactly those keys and leaves every other key alone. */
  lemma {:induction false} RevertFromGet(cmp: Comparer, m: seq<Entry>, ops: seq<Op>, sn: nat, i: nat)
    requires ValidComparer(cmp) && Sorted(cmp, m) && i <= |ops| && sn + |ops| <= KeyMaxSeq + 1
    requires forall j :: i <= j < |ops| ==> Get(m, IK(ops, sn, j)).Some?
    ensures RevertFrom(m, ops, sn, i).1 == None
    ensures forall j :: i <= j < |ops| ==> Get(RevertFrom(m, ops, sn, i).0, IK(ops, sn, j)) == None
    ensures forall k :: !Among(ops, sn, i, k) ==> Get(RevertFrom(m, ops, sn, i).0, k) == Get(m, k)
    decreases |ops| - i
  {
    if i < |ops| {
      var ik := IK(ops, sn, i);
      RecordKeyIK(ops, sn, i);
      var m' := Remove(m, ik);
      var r := RevertFrom(m', ops, sn, i + 1);
      assert RevertFrom(m, ops, sn, i) == r;
      RemoveSorted(cmp, m, ik);
      forall j | i + 1 <= j < |ops|
        ensures Get(m', IK(ops, sn, j)) == Get(m, IK(ops, sn, j))
      {
        IKDistinct(ops, sn, i, j);
        GetAfterRemove(cmp, m, ik, IK(ops, sn, j));
      }
      RevertFromGet(cmp, m', ops, sn, i + 1);
      NotLater(ops, sn, i);
      GetAfterRemove(cmp, m, ik, ik);
      forall k | !Among(ops, sn, i, k)
        ensures Get(r.0, k) == Get(m, k)
      {
        assert k != ik;
        assert !Among(ops, sn, i + 1, k);
        GetAfterRemove(cmp, m, ik, k);
      }
    }
  }

  /** `revertMem` after `putMem` at fresh sequence numbers succeeds and
      gives back a map in which every key reads as before. */
  lemma RevertAfterPut(cmp: Comparer, m: seq<Entry>, ops: seq<Op>, sn: nat)
    requires ValidComparer(cmp) && Sorted(cmp, m) && sn + |ops| <= KeyMaxSeq + 1
    requires forall j :: 0 <= j < |ops| ==> Get(m, IK(ops, sn, j)).None?
    ensures PutFrom(cmp, m, ops, sn, 0).1 == None
    ensures RevertFrom(PutFrom(cmp, m, ops, sn, 0).0, ops, sn, 0).1 == None
    ensures forall k :: Get(RevertFrom(PutFrom(cmp, m, ops, sn, 0).0, ops, sn, 0).0, k) == Get(m, k)
  {
    var p := PutFrom(cmp, m, ops, sn, 0).0;
    PutFromGet(cmp, m, ops, sn, 0);
    PutFromSorted(cmp, m, ops, sn, 0);
    RevertFromGet(cmp, p, ops, sn, 0);
    forall k
      ensures Get(RevertFrom(p, ops, sn, 0).0, k) == Get(m, k)
    {
      if Among(ops, sn, 0, k) {
        var j :| 0 <= j < |ops| && IK(ops, sn, j) == k;
      }
    }
  }

  // ---------------------------------------------------------------------
  // The memtable methods

  /** `putMem`: each record goes into the store under its internal key;
      the store follows `PutFrom` on its contents. */
  method PutMem(b: Batch.Batch, sn: nat, db: DB, cmp: Comparer, rnd: nat -> nat, ghost nodes: seq<int>)
    returns (db': DB, err: Option<MemWriteError>, ghost nodes': seq<int>)
    requires sn < Two64 && AllInBounds(b.index, b.data)
    requires ValidComparer(cmp) && Valid(cmp, db, nodes)
    ensures Valid(cmp, db', nodes')
    ensures err == PutFrom(cmp, Contents(cmp, db, nodes), OpsOf(b.index, b.data), sn, 0).1
    ensures Contents(cmp, db', nodes') == PutFrom(cmp, Contents(cmp, db, nodes), OpsOf(b.index, b.data), sn, 0).0
  {
    ghost var ops := OpsOf(b.index, b.data);
    db', nodes' := db, nodes;
    var i := 0;
    while i < |b.index|
      invariant 0 <= i <= |b.index| && Valid(cmp, db', nodes')
      invariant PutFrom(cmp, Contents(cmp, db', nodes'), ops, sn, i) == PutFrom(cmp, Contents(cmp, db, nodes), ops, sn, 0)
    {
      var idx := b.index[i];
      var ik := MakeInternalKey(K(idx, b.data), (sn + i) % Two64, idx.keyType);
      if ik.Err? {
        return db', Some(Overflow), nodes';
      }
      db', nodes' := MemDbPut.Put(db', cmp, rnd, ik.value, V(idx, b.data), nodes');
      i := i + 1;
    }
    err := None;
  }

  /** `revertMem`: delete each record's internal key, stopping at the
      first one that is missing. */
  method RevertMem(b: Batch.Batch, sn: nat, db: DB, cmp: Comparer, ghost nodes: seq<int>)
    returns (db': DB, err: Option<MemWriteError>, ghost nodes': seq<int>)
    requires sn < Two64 && AllInBounds(b.index, b.data)
    requires ValidComparer(cmp) && Valid(cmp, db, nodes)
    ensures Valid(cmp, db', nodes')
    ensures err == RevertFrom(Contents(cmp, db, nodes), OpsOf(b.index, b.data), sn, 0).1
    ensures Contents(cmp, db', nodes') == RevertFrom(Contents(cmp, db, nodes), OpsOf(b.index, b.data), sn, 0).0
  {
    ghost var ops := OpsOf(b.index, b.data);
    db', nodes' := db, nodes;
    var i := 0;
    while i < |b.index|
      invariant 0 <= i <= |b.index| && Valid(cmp, db', nodes')
      invariant RevertFrom(Contents(cmp, db', nodes'), ops, sn, i) == RevertFrom(Contents(cmp, db, nodes), ops, sn, 0)
    {
      var idx := b.index[i];
      var ik := MakeInternalKey(K(idx, b.data), (sn + i) % Two64, idx.keyType);
      if ik.Err? {
        return db', Some(Overflow), nodes';
      }
      var e;
      db', e, nodes' := MemDbDelete.Delete(db', cmp, ik.value, nodes');
      if e.Some? {
        return db', Some(NotFound), nodes';
      }
      i := i + 1;
    }
    err := None;
  }

  // ---------------------------------------------------------------------
  // Replaying a journal record

  /** `decodeBatchToMem`'s callback from record `i` on, over the abstract
      map, then its final check. A record beyond the header's count fails
      the callback; once the records run out, a corruption `derr` found
      after them, or fewer records than the count, is the error. */
  function CountedFrom(cmp: Comparer, m: seq<Entry>, ops: seq<Op>, derr: Option<Corruption>, sn: nat, batchLen: int, i: nat)
    : (seq<Entry>, Option<MemWriteError>)
    requires i <= |ops|
    decreases |ops| - i
  {
    if i == |ops| then
      if derr.Some? then (m, Some(Corrupted(derr.value)))
      else if i != batchLen then (m, Some(Corrupted(RecordsLengthMismatch(batchLen, i))))
      else (m, None)
    else if i >= batchLen then (m, Some(Corrupted(InvalidRecordsLength)))
    else
      match RecordKey(ops[i], sn, i)
      case Err(_) => (m, Some(Overflow))
      case Ok(ik) => CountedFrom(cmp, SortedMap.Put(cmp, m, ik, ops[i].value), ops, derr, sn, batchLen, i + 1)
  }

  /** `decodeBatchToMem` over the abstract map: the sequence number and
      count from the header, the map after the records it puts, and the
      error. */
  ghost function ToMem(cmp: Comparer, m: seq<Entry>, data: Bytes): (nat, int, seq<Entry>, Option<MemWriteError>) {
    match DecodeBatchHeader(data)
    case Err(e) => (0, 0, m, Some(Corrupted(e)))
    case Ok((sn, batchLen)) =>
      var body := data[BatchHeaderLen..];
      var d := DecodeBatch(body);
      var r := CountedFrom(cmp, m, OpsOf(d.records, body), d.err, sn, batchLen, 0);
      (sn, batchLen, r.0, r.1)
  }

  /** One record within the count: its key either overflows, ending the
      loop, or goes in with the record's value. */
  lemma CountedStep(cmp: Comparer, m: seq<Entry>, ops: seq<Op>, derr: Option<Corruption>, sn: nat, batchLen: int, i: nat)
    requires i < |ops| && i < batchLen
    ensures RecordKey(ops[i], sn, i).Err? ==>
      CountedFrom(cmp, m, ops, derr, sn, batchLen, i) == (m, Some(Overflow))
    ensures RecordKey(ops[i], sn, i).Ok? ==>
      CountedFrom(cmp, m, ops, derr, sn, batchLen, i)
        == CountedFrom(cmp, SortedMap.Put(cmp, m, RecordKey(ops[i], sn, i).value, ops[i].value), ops, derr, sn, batchLen, i + 1)
  {
  }

  /** With the count right and nothing corrupt, the callback loop is
      `putMem`'s. */
  lemma {:induction false} CountedPutFrom(cmp: Comparer, m: seq<Entry>, ops: seq<Op>, sn: nat, i: nat)
    requires i <= |ops|
    ensures CountedFrom(cmp, m, ops, None, sn, |ops|, i) == PutFrom(cmp, m, ops, sn, i)
    decreases |ops| - i
  {
    if i < |ops| && RecordKey(ops[i], sn, i).Ok? {
      CountedPutFrom(cmp, SortedMap.Put(cmp, m, RecordKey(ops[i], sn, i).value, ops[i].value), ops, sn, i + 1);
    }
  }

  /** Without overflow, the callback loop ends in the count check alone. */
  lemma {:induction false} CountedChecks(cmp: Comparer, m: seq<Entry>, ops: seq<Op>, sn: nat, batchLen: int, i: nat)
    requires i <= |ops| && i <= batchLen && sn + |ops| <= KeyMaxSeq + 1
    ensures var err := CountedFrom(cmp, m, ops, None, sn, batchLen, i).1;
      && (|ops| > batchLen ==> err == Some(Corrupted(InvalidRecordsLength)))
      && (|ops| < batchLen ==> err == Some(Corrupted(RecordsLengthMismatch(batchLen, |ops|))))
      && (|ops| == batchLen ==> err == None)
    decreases |ops| - i
  {
    if i < |ops| && i < batchLen {
      RecordKeyIK(ops, sn, i);
      CountedChecks(cmp, SortedMap.Put(cmp, m, IK(ops, sn, i), ops[i].value), ops, sn, batchLen, i + 1);
    }
  }

  /** `decodeBatchToMem`. */
  method DecodeBatchToMem(data: Bytes, db: DB, cmp: Comparer, rnd: nat -> nat, ghost nodes: seq<int>)
    returns (sn: nat, batchLen: int, db': DB, err: Option<MemWriteError>, ghost nodes': seq<int>)
    requires ValidComparer(cmp) && Valid(cmp, db, nodes)
    ensures Valid(cmp, db', nodes')
    ensures var t := ToMem(cmp, Contents(cmp, db, nodes), data);
      sn == t.0 && batchLen == t.1 && err == t.3
    ensures Contents(cmp, db', nodes') == ToMem(cmp, Contents(cmp, db, nodes), data).2
  {
    var h := DecodeBatchHeader(data);
    if h.Err? {
      return 0, 0, db, Some(Corrupted(h.error)), nodes;
    }
    sn, batchLen := h.value.0, h.value.1;
    var body := data[BatchHeaderLen..];
    var d := DecodeBatch(body);
    db', err, nodes' := Feed(body, d.records, d.err, sn, batchLen, db, cmp, rnd, nodes);
  }

  /** The callback loop of `decodeBatchToMem` over the records
      `decodeBatch` read from `body`, then the final count check. */
  method Feed(body: Bytes, records: seq<BatchIndex>, derr: Option<Corruption>, sn: nat, batchLen: int,
              db: DB, cmp: Comparer, rnd: nat -> nat, ghost nodes: seq<int>)
    returns (db': DB, err: Option<MemWriteError>, ghost nodes': seq<int>)
    requires AllInBounds(records, body)
    requires ValidComparer(cmp) && Valid(cmp, db, nodes)
    ensures Valid(cmp, db', nodes')
    ensures err == CountedFrom(cmp, Contents(cmp, db, nodes), OpsOf(records, body), derr, sn, batchLen, 0).1
    ensures Contents(cmp, db', nodes') == CountedFrom(cmp, Contents(cmp, db, nodes), OpsOf(records, body), derr, sn, batchLen, 0).0
  {
    ghost var ops := OpsOf(records, body);
    ghost var m0 := Contents(cmp, db, nodes);
    db', nodes' := db, nodes;
    var i := 0;
    while i < |records|
      invariant 0 <= i <= |records| && Valid(cmp, db', nodes')
      invariant CountedFrom(cmp, Contents(cmp, db', nodes'), ops, derr, sn, batchLen, i)
        == CountedFrom(cmp, m0, ops, derr, sn, batchLen, 0)
    {
      if i >= batchLen {
        return db', Some(Corrupted(InvalidRecordsLength)), nodes';
      }
      var idx := records[i];
      var ik := MakeInternalKey(K(idx, body), (sn + i) % Two64, idx.keyType);
      assert ops[i] == Op(idx.keyType, K(idx, body), V(idx, body));
      CountedStep(cmp, Contents(cmp, db', nodes'), ops, derr, sn, batchLen, i);
      if ik.Err? {
        return db', Some(Overflow), nodes';
      }
      db', nodes' := MemDbPut.Put(db', cmp, rnd, ik.value, V(idx, body), nodes');
      i := i + 1;
    }
    if derr.Some? {
      err := Some(Corrupted(derr.value));
    } else if i != batchLen {
      err := Some(Corrupted(RecordsLengthMismatch(batchLen, i)));
    } else {
      err := None;
    }
  }

  /** Replaying the journal record of a batch — its header and its dump —
      does exactly what `putMem` does with the batch at that sequence. */
  lemma ToMemDump(cmp: Comparer, m: seq<Entry>, b: Batch.Batch, ops: seq<Op>, sn: nat)
    requires Batch.Holds(b, ops) && sn < Two64 && |ops| < Two32
    ensures ToMem(cmp, m, EncodeBatchHeader(sn, |ops|) + Batch.Dump(b))
      == (sn, |ops|, PutFrom(cmp, m, ops, sn, 0).0, PutFrom(cmp, m, ops, sn, 0).1)
  {
    var data := EncodeBatchHeader(sn, |ops|) + b.data;
    HeaderRoundTrip(sn, |ops|, b.data);
    assert data[BatchHeaderLen..] == b.data;
    assert b.data[0..] == EncodeOps(ops);
    DecodeOps(b.data, 0, ops);
    LayoutsOps(ops);
    CountedPutFrom(cmp, m, ops, sn, 0);
  }

  /** The record-count checks of `decodeBatchToMem`, when the records read
      cleanly and no sequence number overflows: more records than the
      header counts is "invalid records length", fewer is a mismatch, and
      the right number is no error. */
  lemma ToMemCounts(cmp: Comparer, m: seq<Entry>, data: Bytes)
    requires ValidComparer(cmp) && |data| >= BatchHeaderLen
    requires DecodeBatch(data[BatchHeaderLen..]).err.None?
    requires DecodeBatchHeader(data).value.0 + |DecodeBatch(data[BatchHeaderLen..]).records| <= KeyMaxSeq + 1
    ensures var batchLen := DecodeBatchHeader(data).value.1;
      var n := |DecodeBatch(data[BatchHeaderLen..]).records|;
      var err := ToMem(cmp, m, data).3;
      && (err.None? <==> n == batchLen)
      && (n > batchLen ==> err == Some(Corrupted(InvalidRecordsLength)))
      && (n < batchLen ==> err == Some(Corrupted(RecordsLengthMismatch(batchLen, n))))
  {
    var (sn, batchLen) := DecodeBatchHeader(data).value;
    var body := data[BatchHeaderLen..];
    CountedChecks(cmp, m, OpsOf(DecodeBatch(body).records, body), sn, batchLen, 0);
  }
}

=== FILE: internal_key.dfy ===
/**
  Internal keys: a user key followed by an eight-byte little-endian
  trailer `sn << 8 | type`. The batch code builds one per record before
  handing it to the memtable.
 */
module InternalKey {
  import opened Order
  import opened Wrappers
  import LittleEndian

  /** `keyTypeDel` (0) and `keyTypeVal` (1). */
  datatype KeyType = Del | Val

  function Code(kt: KeyType): byte {
    match kt
    case Del => 0
    case Val => 1
  }

  /** The largest sequence number a trailer can hold (56 bits). */
  const KeyMaxSeq: nat := 0xFF_FFFF_FFFF_FFFF

  /** Building a key with a larger sequence number is an error (the Go
      code panics). */
  datatype KeyError = SequenceOverflow

  /** `makeInternalKey`. */
  function MakeInternalKey(ukey: Bytes, sn: nat, kt: KeyType): (r: Result<Bytes, KeyError>)
    ensures r.Err? <==> sn > KeyMaxSeq
    ensures r.Ok? ==> |r.value| == |ukey| + 8 && r.value[..|ukey|] == ukey
  {
    if sn > KeyMaxSeq then Err(SequenceOverflow)
    else
      LittleEndian.Widths();
      Ok(ukey + LittleEndian.PutUint64(sn * 256 + Code(kt)))
  }

  /** Split an internal key back into its user key, sequence number and
      type; `None` when it is too short or the type byte is unknown. */
  function ParseInternalKey(ik: Bytes): (r: Option<(Bytes, nat, KeyType)>)
    ensures r.Some? ==> |ik| >= 8 && r.value.1 <= KeyMaxSeq && |r.value.0| == |ik| - 8
  {
    if |ik| < 8 then None
    else
      var num := LittleEndian.Uint64(ik[|ik| - 8..]);
      var t := num % 256;
      if t > 1 then None
      else
        assert num / 256 <= KeyMaxSeq by {
          LittleEndian.Widths();
        }
        Some((ik[..|ik| - 8], num / 256, if t == 0 then Del else Val))
  }

  /** Parsing a built key gives back what it was built from. */
  lemma ParseMake(ukey: Bytes, sn: nat, kt: KeyType)
    requires sn <= KeyMaxSeq
    ensures ParseInternalKey(MakeInternalKey(ukey, sn, kt).value) == Some((ukey, sn, kt))
  {
    var num := sn * 256 + Code(kt);
    assert num < Two64;
    var ik := MakeInternalKey(ukey, sn, kt).value;
    assert ik == ukey + LittleEndian.PutUint64(num);
    assert ik[|ik| - 8..] == LittleEndian.PutUint64(num);
    LittleEndian.Uint64Put(num);
    Trailer(sn, Code(kt));
  }

  lemma Trailer(sn: nat, c: nat)
    requires c < 256
    ensures (sn * 256 + c) % 256 == c && (sn * 256 + c) / 256 == sn
  {
  }

  /** Distinct (user key, sequence, type) triples give distinct internal
      keys. */
  lemma MakeInjective(k1: Bytes, n1: nat, t1: KeyType, k2: Bytes, n2: nat, t2: KeyType)
    requires n1 <= KeyMaxSeq && n2 <= KeyMaxSeq
    requires MakeInternalKey(k1, n1, t1) == MakeInternalKey(k2, n2, t2)
    ensures k1 == k2 && n1 == n2 && t1 == t2
  {
    ParseMake(k1, n1, t1);
    ParseMake(k2, n2, t2);
  }
}

=== FILE: little_endian.dfy ===
/**
  Fixed-width little-endian integers, as `binary.LittleEndian` writes
  (`PutUint64`, `PutUint32`) and reads (`Uint64`, `Uint32`) them.
 */
module LittleEndian {
  import opened Order

  function Pow256(k: nat): (r: nat)
    ensures r >= 1
  {
    if k == 0 then 1 else 256 * Pow256(k - 1)
  }

  lemma Widths()
    ensures Pow256(4) == Two32 && Pow256(8) == Two64
  {
    calc {
      Pow256(8);
      256 * Pow256(7);
      256 * 256 * Pow256(6);
      256 * 256 * 256 * Pow256(5);
      256 * 256 * 256 * 256 * Pow256(4);
    }
    calc {
      Pow256(4);
      256 * Pow256(3);
      256 * 256 * Pow256(2);
      256 * 256 * 256 * Pow256(1);
    }
  }

  /** The `k` low bytes of `x`, least significant first. */
  function Put(x: nat, k: nat): (r: Bytes)
    ensures |r| == k
  {
    if k == 0 then [] else [x % 256] + Put(x / 256, k - 1)
  }

  /** The number whose little-endian bytes are `bs`; it is below
      `256^|bs|`. */
  function Get(bs: Bytes): (r: nat)
    ensures r < Pow256(|bs|)
  {
    if |bs| == 0 then 0 else bs[0] + 256 * Get(bs[1..])
  }

  /** Reading back what was written gives the value modulo `256^k`. */
  lemma {:induction false} GetPut(x: nat, k: nat)
    ensures Get(Put(x, k)) == x % Pow256(k)
  {
    if k > 0 {
      var q := x / 256;
      GetPut(q, k - 1);
      assert Put(x, k)[1..] == Put(q, k - 1);
      var P := Pow256(k - 1);
      assert Get(Put(x, k)) == x % 256 + 256 * (q % P);
      ModSplit(x, P);
    }
  }

  lemma ModSplit(x: nat, P: nat)
    requires P >= 1
    ensures x % (256 * P) == x % 256 + 256 * ((x / 256) % P)
  {
    var q := x / 256;
    var a := x % 256;
    var b := q % P;
    var c := q / P;
    assert x == a + 256 * q;
    assert q == b + P * c;
    assert x == (a + 256 * b) + (256 * P) * c;
    assert 0 <= a + 256 * b < 256 * P;
    ModUnique(x, 256 * P, a + 256 * b, c);
  }

  /** The remainder is the only value in range that differs from `x` by a
      multiple of `m`. */
  lemma ModUnique(x: int, m: int, r: int, c: int)
    requires m > 0 && 0 <= r < m && x == r + m * c
    ensures x % m == r
  {
    var d := c - x / m;
    assert m * d == x % m - r;
  }

  /** Writing what was read gives the same bytes back. */
  lemma {:induction false} PutGet(bs: Bytes)
    ensures Put(Get(bs), |bs|) == bs
  {
    if |bs| > 0 {
      var g := Get(bs[1..]);
      PutGet(bs[1..]);
      var x := bs[0] + 256 * g;
      assert x % 256 == bs[0] && x / 256 == g;
      assert Put(x, |bs|) == [bs[0]] + Put(g, |bs| - 1);
    }
  }

  /** `PutUint64`. */
  function PutUint64(x: nat): (r: Bytes)
    requires x < Two64
    ensures |r| == 8
  {
    Put(x, 8)
  }

  /** `PutUint32`. */
  function PutUint32(x: nat): (r: Bytes)
    requires x < Two32
    ensures |r| == 4
  {
    Put(x, 4)
  }

  /** `Uint64` of the first eight bytes. */
  function Uint64(bs: Bytes): (r: nat)
    requires |bs| >= 8
    ensures r < Two64
  {
    Widths();
    Get(bs[..8])
  }

  /** `Uint32` of the first four bytes. */
  function Uint32(bs: Bytes): (r: nat)
    requires |bs| >= 4
    ensures r < Two32
  {
    Widths();
    Get(bs[..4])
  }

  /** `Uint64` reads back what `PutUint64` wrote. */
  lemma Uint64Put(x: nat)
    requires x < Two64
    ensures Uint64(PutUint64(x)) == x
  {
    var bs := PutUint64(x);
    assert bs == Put(x, 8) && bs[..8] == bs;
    assert Uint64(bs) == Get(bs);
    GetPut(x, 8);
    Widths();
    ModSmall(x, Pow256(8));
  }

  /** `Uint32` reads back what `PutUint32` wrote. */
  lemma Uint32Put(x: nat)
    requires x < Two32
    ensures Uint32(PutUint32(x)) == x
  {
    var bs := PutUint32(x);
    assert bs == Put(x, 4) && bs[..4] == bs;
    assert Uint32(bs) == Get(bs);
    GetPut(x, 4);
    Widths();
    ModSmall(x, Pow256(4));
  }

  lemma ModSmall(x: int, m: int)
    requires 0 <= x < m
    ensures x % m == x
  {
  }
}

=== FILE: memdb.dfy ===
/**
  The skip-list memtable `DB_`: construction, the three searches and the
  read-side queries. Every operation takes the comparator and, as a ghost
  argument, the level-0 node list that witnesses the representation invariant; the
  results are stated against the abstract sorted map `Contents`.
 */
module MemDb {
  import opened Order
  import opened Wrappers
  import opened SortedMap
  import opened MemDbLayout
  import opened MemDbLevels

  datatype MemError = ErrNotFound

  /** `New_`: an empty store whose head has all links 0. The capacity is
      only an allocation hint and does not change the state. */
  function New(capacity: int): (db: DB)
    ensures HeadOK(db) && db.n == 0 && db.kvSize == 0
  {
    DB([], seq(HeadSize, i => if i == NHeight then TMaxHeight else 0),
       seq(TMaxHeight, i => 0), 1, 0, 0, 0)
  }

  /** A fresh store is valid for every comparator and holds nothing. */
  lemma NewIsEmpty(cmp: Comparer, capacity: int)
    ensures Valid(cmp, New(capacity), [])
    ensures Contents(cmp, New(capacity), []) == []
    ensures New(capacity).n == 0 && New(capacity).kvSize == 0 && New(capacity).maxHeight == 1
  {
    var db := New(capacity);
    assert Entries(db, []) == [];
  }

  /** `Reset`: back to the state `New_` builds, keeping nothing of the old contents. */
  function Reset(db: DB): (r: DB)
    requires HeadSize <= |db.nodeData|
    ensures r == New(0)
  {
    var nd := db.nodeData[..HeadSize][NKV := 0][NKey := 0][NVal := 0][NHeight := TMaxHeight];
    var nd' := seq(HeadSize, i requires 0 <= i < HeadSize => if i < NNext then nd[i] else 0);
    DB(db.kvData[..0], nd', seq(TMaxHeight, i => 0), 1, 0, 0, 0)
  }

  /** `Len`: the number of live entries. */
  function Len(db: DB, ghost cmp: Comparer, ghost nodes: seq<int>): (r: int)
    requires Valid(cmp, db, nodes)
    ensures r == |Contents(cmp, db, nodes)|
  {
    db.n
  }

  /** `Size`: total key and value bytes of the live entries. */
  function Size(db: DB, ghost cmp: Comparer, ghost nodes: seq<int>): (r: int)
    requires Valid(cmp, db, nodes)
    ensures r == TotalSize(Contents(cmp, db, nodes))
  {
    db.kvSize
  }

  /** The height drawn from position `pos` of the stream `rnd` by a draw
      that has already reached height `h`, and the stream position after
      it: one more level for each draw divisible by 4, up to `TMaxHeight`. */
  function Draw(rnd: nat -> nat, pos: nat, h: int): (r: (int, nat))
    requires 1 <= h <= TMaxHeight
    decreases TMaxHeight - h
  {
    if h == TMaxHeight then (h, pos)
    else if rnd(pos) % 4 == 0 then Draw(rnd, pos + 1, h + 1)
    else (h, pos + 1)
  }

  /** `randHeight`: start at 1 and grow while the next draw of the seeded
      stream `rnd` is divisible by 4, up to `TMaxHeight`. No draw is taken
      once the cap is reached. */
  method RandHeight(rnd: nat -> nat, pos: nat) returns (h: int, pos': nat)
    ensures 1 <= h <= TMaxHeight
    ensures forall j :: pos <= j < pos + h - 1 ==> rnd(j) % 4 == 0
    ensures h < TMaxHeight ==> rnd(pos + h - 1) % 4 != 0 && pos' == pos + h
    ensures h == TMaxHeight ==> pos' == pos + h - 1
    ensures (h, pos') == Draw(rnd, pos, 1)
  {
    h := 1;
    pos' := pos;
    while h < TMaxHeight && rnd(pos') % 4 == 0
      invariant 1 <= h <= TMaxHeight
      invariant pos' == pos + h - 1
      invariant forall j :: pos <= j < pos' ==> rnd(j) % 4 == 0
      invariant Draw(rnd, pos, 1) == Draw(rnd, pos', h)
    {
      h := h + 1;
      pos' := pos' + 1;
    }
    if h < TMaxHeight {
      pos' := pos' + 1;
    }
  }

  /** One level of a search: from `node` (position `t` of level `h`, or
      the head) follow link `h` while the next node is below `key`. Returns
      the last node visited, the next one and the comparison that stopped
      the walk (1 for the end of the level). */
  method Walk(db: DB, cmp: Comparer, key: Bytes, h: int, node: int, ghost nodes: seq<int>, ghost t: int)
    returns (node': int, next: int, c: int, ghost t': int)
    requires ValidComparer(cmp) && Searchable(cmp, db, nodes)
    requires 0 <= h < TMaxHeight && -1 <= t < |Tall(db, nodes, h)|
    requires node == if t < 0 then 0 else Tall(db, nodes, h)[t]
    requires t >= 0 ==> cmp(KeyOf(db, node), key) < 0
    ensures t <= t' < |Tall(db, nodes, h)|
    ensures node' == if t' < 0 then 0 else Tall(db, nodes, h)[t']
    ensures t' >= 0 ==> cmp(KeyOf(db, node'), key) < 0
    ensures node' == PrevAt(cmp, db, nodes, key, h)
    ensures t' + 1 == |Tall(db, nodes[..NodeLB(cmp, db, nodes, key)], h)|
    ensures next == (if t' < 0 then First(Tall(db, nodes, h)) else NextIn(Tall(db, nodes, h), t'))
    ensures c >= 0 && c == (if next != 0 then cmp(KeyOf(db, next), key) else 1)
  {
    node' := node;
    t' := t;
    while true
      invariant t <= t' < |Tall(db, nodes, h)|
      invariant node' == if t' < 0 then 0 else Tall(db, nodes, h)[t']
      invariant t' >= 0 ==> cmp(KeyOf(db, node'), key) < 0
      decreases |Tall(db, nodes, h)| - t'
    {
      LinkAt(db, nodes, h, t');
      next := db.nodeData[node' + NNext + h];
      c := 1;
      if next != 0 {
        c := cmp(KeyOf(db, next), key);
      }
      if c < 0 {
        node' := next;
        t' := t' + 1;
      } else {
        SplitPoint(cmp, db, nodes, key, h, t');
        return;
      }
    }
  }

  /** `findGE`: the first level-0 node whose key is at least `key` (0 if
      none) and whether it holds `key`. With `prev`, it also records for
      every level below `maxHeight` the last node there that is below `key`
      (the head, 0, if none). Only those slots of `prevNode` change. */
  method FindGE(db: DB, cmp: Comparer, key: Bytes, prev: bool, ghost nodes: seq<int>)
    returns (db': DB, node: int, exact: bool)
    requires ValidComparer(cmp) && Searchable(cmp, db, nodes)
    ensures db' == db.(prevNode := db'.prevNode) && |db'.prevNode| == TMaxHeight
    ensures !prev ==> db' == db
    ensures var b := NodeLB(cmp, db, nodes, key);
      && node == (if b < |nodes| then nodes[b] else 0)
      && (exact <==> b < |nodes| && Entries(db, nodes)[b].key == key)
    ensures prev ==> forall i :: 0 <= i < db.maxHeight ==>
      db'.prevNode[i] == PrevAt(cmp, db, nodes, key, i)
    ensures forall i :: db.maxHeight <= i < TMaxHeight ==> db'.prevNode[i] == db.prevNode[i]
  {
    var pn := db.prevNode;
    var cur := 0;
    var h := db.maxHeight - 1;
    ghost var t := -1;
    var next, c;
    while true
      invariant 0 <= h < db.maxHeight
      invariant -1 <= t < |Tall(db, nodes, h)|
      invariant cur == if t < 0 then 0 else Tall(db, nodes, h)[t]
      invariant t >= 0 ==> cmp(KeyOf(db, cur), key) < 0
      invariant |pn| == TMaxHeight
      invariant !prev ==> pn == db.prevNode
      invariant forall i :: db.maxHeight <= i < TMaxHeight ==> pn[i] == db.prevNode[i]
      invariant prev ==> RecordedAbove(cmp, db, nodes, key, pn, h)
      decreases h
    {
      cur, next, c, t := Walk(db, cmp, key, h, cur, nodes, t);
      if prev {
        RecordLevel(cmp, db, nodes, key, pn, h, cur);
        pn := pn[h := cur];
      }
      if (!prev && c == 0) || h == 0 {
        break;
      }
      t := Descend(db, nodes, h, t);
      assert -1 <= t < |Tall(db, nodes, h - 1)|;
      h := h - 1;
    }
    Found(cmp, db, nodes, key, h, t, next, c);
    return db.(prevNode := pn), next, c == 0;
  }

  /** Slots `h + 1` up to the store's height hold what a write-mode search
      records there. */
  ghost predicate RecordedAbove(cmp: Comparer, db: DB, nodes: seq<int>, key: Bytes, pn: seq<int>, h: int)
    requires AllNodesOK(db, nodes) && |pn| == TMaxHeight && db.maxHeight <= TMaxHeight && -1 <= h
  {
    forall i :: h < i < db.maxHeight ==> pn[i] == PrevAt(cmp, db, nodes, key, i)
  }

  /** Recording level `h` extends the recorded slots down to `h`. */
  lemma RecordLevel(cmp: Comparer, db: DB, nodes: seq<int>, key: Bytes, pn: seq<int>, h: int, cur: int)
    requires AllNodesOK(db, nodes) && |pn| == TMaxHeight && db.maxHeight <= TMaxHeight && 0 <= h < TMaxHeight
    requires RecordedAbove(cmp, db, nodes, key, pn, h) && cur == PrevAt(cmp, db, nodes, key, h)
    ensures RecordedAbove(cmp, db, nodes, key, pn[h := cur], h - 1)
  {
  }

  /** Where a search stops (an exact hit at any level, or the end of level
      0) it holds the node at the key's lower bound. */
  lemma Found(cmp: Comparer, db: DB, nodes: seq<int>, key: Bytes, h: int, t: int, next: int, c: int)
    requires ValidComparer(cmp) && Searchable(cmp, db, nodes)
    requires 0 <= h < TMaxHeight && -1 <= t < |Tall(db, nodes, h)|
    requires t + 1 == |Tall(db, nodes[..NodeLB(cmp, db, nodes, key)], h)|
    requires next == (if t < 0 then First(Tall(db, nodes, h)) else NextIn(Tall(db, nodes, h), t))
    requires c == (if next != 0 then cmp(KeyOf(db, next), key) else 1)
    requires h == 0 || c == 0
    ensures var b := NodeLB(cmp, db, nodes, key);
      && next == (if b < |nodes| then nodes[b] else 0)
      && (c == 0 <==> b < |nodes| && Entries(db, nodes)[b].key == key)
  {
    if c == 0 {
      ExactPoint(cmp, db, nodes, key, h, t + 1);
    } else {
      LevelZero(cmp, db, nodes, key);
      SearchEnd(cmp, db, nodes, key, t, next, c);
    }
  }

  /** Level 0 lists every node, so its split point is the lower bound itself. */
  lemma LevelZero(cmp: Comparer, db: DB, nodes: seq<int>, key: Bytes)
    requires AllNodesOK(db, nodes)
    ensures Tall(db, nodes, 0) == nodes
    ensures var b := NodeLB(cmp, db, nodes, key);
      AllNodesOK(db, nodes[..b]) && |Tall(db, nodes[..b], 0)| == b
  {
    var b := NodeLB(cmp, db, nodes, key);
    TallZero(db, nodes);
    SliceNodesOK(db, nodes, 0, b);
    TallZero(db, nodes[..b]);
  }

  /** The level-0 step of a search: stopping after position `t` just below
      the lower bound reports the node there and whether it holds `key`. */
  lemma SearchEnd(cmp: Comparer, db: DB, nodes: seq<int>, key: Bytes, t: int, next: int, c: int)
    requires ValidComparer(cmp) && AllNodesOK(db, nodes)
    requires -1 <= t < |nodes| && t + 1 == NodeLB(cmp, db, nodes, key)
    requires next == (if t < 0 then First(nodes) else NextIn(nodes, t))
    requires c == (if next != 0 then cmp(KeyOf(db, next), key) else 1)
    ensures var b := NodeLB(cmp, db, nodes, key);
      && next == (if b < |nodes| then nodes[b] else 0)
      && (c == 0 <==> b < |nodes| && Entries(db, nodes)[b].key == key)
  {
    if t + 1 < |nodes| {
      EntryAt(db, nodes, t + 1);
    }
  }

  /** The level-0 split point is the node just before the lower bound. */
  lemma LowerNeighbour(cmp: Comparer, db: DB, nodes: seq<int>, key: Bytes)
    requires AllNodesOK(db, nodes)
    ensures var b := NodeLB(cmp, db, nodes, key);
      PrevAt(cmp, db, nodes, key, 0) == if b == 0 then 0 else nodes[b - 1]
  {
    var b := NodeLB(cmp, db, nodes, key);
    SliceNodesOK(db, nodes, 0, b);
    TallZero(db, nodes[..b]);
  }

  /** `findLT`: the last node whose key is below `key`, or 0 (the head) if
      there is none. */
  method FindLT(db: DB, cmp: Comparer, key: Bytes, ghost nodes: seq<int>) returns (node: int)
    requires ValidComparer(cmp) && Searchable(cmp, db, nodes)
    ensures var b := NodeLB(cmp, db, nodes, key);
      node == if b == 0 then 0 else nodes[b - 1]
  {
    node := 0;
    var h := db.maxHeight - 1;
    ghost var t := -1;
    while true
      invariant 0 <= h < db.maxHeight
      invariant -1 <= t < |Tall(db, nodes, h)|
      invariant node == if t < 0 then 0 else Tall(db, nodes, h)[t]
      invariant t >= 0 ==> cmp(KeyOf(db, node), key) < 0
      decreases h
    {
      var next, c;
      node, next, c, t := Walk(db, cmp, key, h, node, nodes, t);
      if h == 0 {
        break;
      }
      t := Descend(db, nodes, h, t);
      h := h - 1;
    }
    LowerNeighbour(cmp, db, nodes, key);
  }

  /** `findLast`: the last node of the list, or 0 (the head) if it is empty. */
  method FindLast(db: DB, ghost nodes: seq<int>) returns (node: int)
    requires HeadOK(db) && AllNodesOK(db, nodes) && Links(db, nodes)
    ensures node == Last(nodes)
  {
    node := 0;
    var h := db.maxHeight - 1;
    ghost var t := -1;
    while true
      invariant 0 <= h < db.maxHeight
      invariant -1 <= t < |Tall(db, nodes, h)|
      invariant node == if t < 0 then 0 else Tall(db, nodes, h)[t]
      decreases h, |Tall(db, nodes, h)| - t
    {
      LastStep(db, nodes, h, t);
      var next := db.nodeData[node + NNext + h];
      if next == 0 {
        if h == 0 {
          LastAtExit(db, nodes, t, node);
          break;
        }
        t := Descend(db, nodes, h, t);
        h := h - 1;
      } else {
        node := next;
        t := t + 1;
      }
    }
  }

  /** When `findLast` runs off the end of level 0 it stands on the last node. */
  lemma LastAtExit(db: DB, nodes: seq<int>, t: int, node: int)
    requires AllNodesOK(db, nodes) && -1 <= t < |Tall(db, nodes, 0)|
    requires node == (if t < 0 then 0 else Tall(db, nodes, 0)[t]) && t + 1 == |Tall(db, nodes, 0)|
    ensures node == Last(nodes)
  {
    TallZero(db, nodes);
  }

  /** One step of `findLast` at level `h`: a nonzero link is the next node
      of the level, and a zero one ends it. */
  lemma LastStep(db: DB, nodes: seq<int>, h: int, t: int)
    requires HeadOK(db) && AllNodesOK(db, nodes) && Links(db, nodes)
    requires 0 <= h < TMaxHeight && -1 <= t < |Tall(db, nodes, h)|
    ensures var l := Tall(db, nodes, h);
      var node := if t < 0 then 0 else l[t];
      && 0 <= node + NNext + h < |db.nodeData|
      && (db.nodeData[node + NNext + h] != 0 ==> t + 1 < |l| && l[t + 1] == db.nodeData[node + NNext + h])
      && (db.nodeData[node + NNext + h] == 0 ==> t + 1 == |l|)
  {
    LinkAt(db, nodes, h, t);
  }

  /** `Contains`: whether some live entry holds `key`. */
  method Contains(db: DB, cmp: Comparer, key: Bytes, ghost nodes: seq<int>) returns (r: bool)
    requires ValidComparer(cmp) && Valid(cmp, db, nodes)
    ensures r <==> SortedMap.Get(Contents(cmp, db, nodes), key).Some?
  {
    var _, _, exact := FindGE(db, cmp, key, false, nodes);
    GetAtLowerBound(cmp, Contents(cmp, db, nodes), key);
    return exact;
  }

  /** `Get`: the value stored under `key`, or `ErrNotFound`. */
  method Get(db: DB, cmp: Comparer, key: Bytes, ghost nodes: seq<int>) returns (r: Result<Bytes, MemError>)
    requires ValidComparer(cmp) && Valid(cmp, db, nodes)
    ensures r == match SortedMap.Get(Contents(cmp, db, nodes), key)
      case Some(v) => Ok(v)
      case None => Err(ErrNotFound)
  {
    var _, node, exact := FindGE(db, cmp, key, false, nodes);
    GetAtLowerBound(cmp, Contents(cmp, db, nodes), key);
    if exact {
      ghost var b := NodeLB(cmp, db, nodes, key);
      EntryAt(db, nodes, b);
      var o := db.nodeData[node + NKV] + db.nodeData[node + NKey];
      r := Ok(db.kvData[o..o + db.nodeData[node + NVal]]);
    } else {
      r := Err(ErrNotFound);
    }
  }

  /** What `Find` reports: the entry at the key's lower bound, if any. */
  ghost predicate FindResult(cmp: Comparer, db: DB, nodes: seq<int>, key: Bytes, r: Result<(Bytes, Bytes), MemError>)
    requires AllNodesOK(db, nodes)
  {
    var b := NodeLB(cmp, db, nodes, key);
    r == if b < |nodes| then Ok((KeyOf(db, nodes[b]), ValueOf(db, nodes[b]))) else Err(ErrNotFound)
  }

  /** The entry at the lower bound is the ceiling of the key. */
  lemma CeilingNode(cmp: Comparer, db: DB, nodes: seq<int>, key: Bytes, r: Result<(Bytes, Bytes), MemError>)
    requires ValidComparer(cmp) && AllNodesOK(db, nodes) && Sorted(cmp, Entries(db, nodes))
    requires FindResult(cmp, db, nodes, key, r)
    ensures var es := Contents(cmp, db, nodes);
      r.Err? <==> forall i :: 0 <= i < |es| ==> cmp(es[i].key, key) < 0
    ensures var es := Contents(cmp, db, nodes);
      r.Ok? ==>
        && SortedMap.Get(es, r.value.0) == Some(r.value.1)
        && cmp(r.value.0, key) >= 0
        && forall i :: 0 <= i < |es| && cmp(es[i].key, key) >= 0 ==> cmp(r.value.0, es[i].key) <= 0
  {
    var b := NodeLB(cmp, db, nodes, key);
    var es := Contents(cmp, db, nodes);
    Ceiling(cmp, es, key);
    if b < |nodes| {
      EntryAt(db, nodes, b);
    }
  }

  /** `Find`: the least entry whose key is at least `key`, or `ErrNotFound`
      when every key is below it. */
  method Find(db: DB, cmp: Comparer, key: Bytes, ghost nodes: seq<int>)
    returns (r: Result<(Bytes, Bytes), MemError>)
    requires ValidComparer(cmp) && Searchable(cmp, db, nodes)
    ensures var es := Contents(cmp, db, nodes);
      r.Err? <==> forall i :: 0 <= i < |es| ==> cmp(es[i].key, key) < 0
    ensures var es := Contents(cmp, db, nodes);
      r.Ok? ==>
        && SortedMap.Get(es, r.value.0) == Some(r.value.1)
        && cmp(r.value.0, key) >= 0
        && forall i :: 0 <= i < |es| && cmp(es[i].key, key) >= 0 ==> cmp(r.value.0, es[i].key) <= 0
    ensures r.Err? ==> r.error == ErrNotFound
  {
    var _, node, _ := FindGE(db, cmp, key, false, nodes);
    if node != 0 {
      var n := db.nodeData[node + NKV];
      var m := n + db.nodeData[node + NKey];
      r := Ok((db.kvData[n..m], db.kvData[m..m + db.nodeData[node + NVal]]));
    } else {
      r := Err(ErrNotFound);
    }
    CeilingNode(cmp, db, nodes, key, r);
  }
}

=== FILE: memdb_delete.dfy ===
/**
  `Delete`: a write-mode search, then the node holding the key is unlinked
  from each of its levels by pointing the recorded node of the level past
  it. The record itself and its bytes stay in the table and the arena; only
  the links, the count and the size change.
 */
module MemDbDelete {
  import opened Order
  import opened Wrappers
  import opened SortedMap
  import opened MemDbLayout
  import opened MemDbLevels
  import opened MemDbRecords
  import opened MemDbFrame
  import opened MemDbInsert
  import MemDb
  import MemDbPut

  /** `nd'` is `nd` with each of the first `h` slots named by `pn` set to
      link `j` of the record at `X`; nothing else changed. */
  ghost predicate Unspliced(nd: seq<int>, nd': seq<int>, pn: seq<int>, h: int, X: int)
    requires 0 <= h <= |pn|
  {
    && |nd'| == |nd|
    && (forall j :: 0 <= j < h ==>
          && 0 <= pn[j] + NNext + j < |nd| && 0 <= X + NNext + j < |nd|
          && nd'[pn[j] + NNext + j] == nd[X + NNext + j])
    && (forall x {:trigger NotSlot(pn, h, x)} :: 0 <= x < |nd| && NotSlot(pn, h, x) ==> nd'[x] == nd[x])
  }

  /** The node at the key's lower bound holds the key. */
  ghost predicate Present(cmp: Comparer, db: DB, nodes: seq<int>, key: Bytes)
    requires AllNodesOK(db, nodes)
  {
    var b := NodeLB(cmp, db, nodes, key);
    b < |nodes| && Entries(db, nodes)[b].key == key
  }

  /** The level-0 list after the delete. */
  ghost function RestNodes(cmp: Comparer, db: DB, nodes: seq<int>, key: Bytes): seq<int>
    requires AllNodesOK(db, nodes)
  {
    var b := NodeLB(cmp, db, nodes, key);
    if b < |nodes| then nodes[..b] + nodes[b + 1..] else nodes
  }

  /** A valid store in which a write-mode search for the present `key`
      recorded the first `h` levels, `h` being the height of the key's node. */
  ghost predicate Located(cmp: Comparer, db: DB, nodes: seq<int>, key: Bytes, h: int) {
    && ValidComparer(cmp) && Valid(cmp, db, nodes)
    && Present(cmp, db, nodes, key)
    && NodeOK(db, nodes[NodeLB(cmp, db, nodes, key)])
    && h == db.nodeData[nodes[NodeLB(cmp, db, nodes, key)] + NHeight]
    && Recorded(cmp, db, nodes, key, h)
  }

  /** The state `db'` the unlink leaves, relative to the located state `db`. */
  ghost predicate Removed(cmp: Comparer, db: DB, nodes: seq<int>, key: Bytes, h: int, db': DB) {
    && Located(cmp, db, nodes, key, h)
    && var X := nodes[NodeLB(cmp, db, nodes, key)];
    && db'.kvData == db.kvData
    && db'.maxHeight == db.maxHeight
    && |db'.prevNode| == TMaxHeight
    && Unspliced(db.nodeData, db'.nodeData, db.prevNode, h, X)
    && db'.n == db.n - 1
    && db'.kvSize == db.kvSize - db.nodeData[X + NKey] - db.nodeData[X + NVal]
  }

  /** No link of the record at `X` below `h` is one of the first `h`
      slots named by `pn`. */
  ghost predicate OwnLinksFree(pn: seq<int>, h: int, X: int)
    requires 0 <= h <= |pn|
  {
    forall x {:trigger NotSlot(pn, h, x)} :: X + NNext <= x < X + NNext + h ==> NotSlot(pn, h, x)
  }

  /** Every slot a search for a present key records below the height of
      the key's node points at that node. */
  lemma UnlinkTargets(cmp: Comparer, db: DB, nodes: seq<int>, key: Bytes, h: int)
    requires ValidComparer(cmp) && Valid(cmp, db, nodes) && Present(cmp, db, nodes, key)
    requires h == db.nodeData[nodes[NodeLB(cmp, db, nodes, key)] + NHeight]
    requires 0 <= h <= TMaxHeight && Recorded(cmp, db, nodes, key, h)
    ensures forall j :: 0 <= j < h ==>
      && 0 <= db.prevNode[j] + NNext + j < |db.nodeData|
      && db.nodeData[db.prevNode[j] + NNext + j] == nodes[NodeLB(cmp, db, nodes, key)]
  {
    var b := NodeLB(cmp, db, nodes, key);
    forall j | 0 <= j < h
      ensures 0 <= db.prevNode[j] + NNext + j < |db.nodeData| && db.nodeData[db.prevNode[j] + NNext + j] == nodes[b]
    {
      PrevLink(cmp, db, nodes, key, j);
      TallAround(db, nodes, b, j);
      assert nodes[b..][0] == nodes[b];
    }
  }

  /** The links of the key's node are none of the recorded slots: the
      recorded nodes are below the key. */
  lemma UnlinkOwn(cmp: Comparer, db: DB, nodes: seq<int>, key: Bytes, h: int)
    requires ValidComparer(cmp) && Valid(cmp, db, nodes) && Present(cmp, db, nodes, key)
    requires h == db.nodeData[nodes[NodeLB(cmp, db, nodes, key)] + NHeight]
    requires 0 <= h <= TMaxHeight && Recorded(cmp, db, nodes, key, h)
    ensures var X := nodes[NodeLB(cmp, db, nodes, key)];
      0 <= X && X + NNext + h <= |db.nodeData| && OwnLinksFree(db.prevNode, h, X)
  {
    var b := NodeLB(cmp, db, nodes, key);
    var X := nodes[b];
    assert NodeOK(db, X);
    EntryAt(db, nodes, b);
    assert KeyOf(db, X) == key;
    forall x | X + NNext <= x < X + NNext + h ensures NotSlot(db.prevNode, h, x) {
      var j := x - X - NNext;
      var _ := PrevRecord(cmp, db, nodes, key, j);
      assert db.prevNode[j] != X;
      OffSlot(cmp, db, nodes, key, h, X, b, x - X);
    }
  }

  /** The unlink loop: for each level below `h`, the recorded node's link
      takes the value of the link it points through. `X` is the node the
      recorded links point at. */
  method Unlink(nd: seq<int>, pn: seq<int>, h: int, ghost X: int) returns (nd': seq<int>)
    requires 0 <= h <= |pn|
    requires forall j :: 0 <= j < h ==> 0 <= pn[j] + NNext + j < |nd| && nd[pn[j] + NNext + j] == X
    requires 0 <= X && X + NNext + h <= |nd| && OwnLinksFree(pn, h, X)
    requires SlotsApart(pn, h)
    ensures Unspliced(nd, nd', pn, h, X)
  {
    nd' := nd;
    var i := 0;
    while i < h
      invariant 0 <= i <= h && |nd'| == |nd|
      invariant forall j :: 0 <= j < i ==> nd'[pn[j] + NNext + j] == nd[X + NNext + j]
      invariant forall x {:trigger NotSlot(pn, i, x)} :: 0 <= x < |nd| && NotSlot(pn, i, x) ==> nd'[x] == nd[x]
    {
      var m := pn[i] + NNext + i;
      assert NotSlot(pn, i, m);
      assert NotSlot(pn, h, X + NNext + i);
      assert NotSlot(pn, i, X + NNext + i);
      nd' := nd'[m := nd'[nd'[m] + NNext + i]];
      i := i + 1;
      forall x | 0 <= x < |nd| && NotSlot(pn, i, x) ensures nd'[x] == nd[x] {
        assert NotSlot(pn, i - 1, x);
      }
    }
  }

  /** Offset `k` of a record keeps its value unless it is a recorded slot. */
  lemma FieldStays(cmp: Comparer, db: DB, nodes: seq<int>, key: Bytes, h: int, db': DB, p: int, ip: int, k: int)
    requires Removed(cmp, db, nodes, key, h, db')
    requires RecordAt(nodes, p, ip) && 0 <= k < NNext + db.nodeData[p + NHeight]
    requires k >= NNext && k - NNext < h ==> db.prevNode[k - NNext] != p
    ensures 0 <= p + k < |db.nodeData| && db'.nodeData[p + k] == db.nodeData[p + k]
  {
    if p != 0 {
      assert NodeOK(db, nodes[ip]);
    }
    OffSlot(cmp, db, nodes, key, h, p, ip, k);
  }

  /** Every live node keeps its four fields. */
  lemma RemovedKept(cmp: Comparer, db: DB, nodes: seq<int>, key: Bytes, h: int, db': DB)
    requires Removed(cmp, db, nodes, key, h, db')
    ensures Grown(db, db') && AllKept(db, db', nodes)
  {
    assert db'.kvData[..|db.kvData|] == db.kvData;
    forall j | 0 <= j < |nodes| ensures FieldsKept(db, db', nodes[j]) {
      var p := nodes[j];
      assert NodeOK(db, p);
      FieldStays(cmp, db, nodes, key, h, db', p, j, NKV);
      FieldStays(cmp, db, nodes, key, h, db', p, j, NKey);
      FieldStays(cmp, db, nodes, key, h, db', p, j, NVal);
      FieldStays(cmp, db, nodes, key, h, db', p, j, NHeight);
    }
  }

  /** The level-`i` list after the unlink: the nodes before the key's node
      followed by the nodes after it. */
  lemma RemovedTall(cmp: Comparer, db: DB, nodes: seq<int>, key: Bytes, h: int, db': DB, i: int)
    requires Removed(cmp, db, nodes, key, h, db')
    ensures var b := NodeLB(cmp, db, nodes, key);
      && AllNodesOK(db, nodes[..b]) && AllNodesOK(db, nodes[b + 1..])
      && AllNodesOK(db', RestNodes(cmp, db, nodes, key))
      && Tall(db', RestNodes(cmp, db, nodes, key), i) == Tall(db, nodes[..b], i) + Tall(db, nodes[b + 1..], i)
  {
    RemovedKept(cmp, db, nodes, key, h, db');
    RemoveTall(db, db', nodes, NodeLB(cmp, db, nodes, key), i);
  }

  /** In a searchable table, the head's link `i` is the first node of
      level `i` with the node at `b` left out, unless that node is the
      first of the level. */
  lemma HeadAround(db: DB, nodes: seq<int>, b: int, i: int)
    requires HeadOK(db) && AllNodesOK(db, nodes) && Links(db, nodes)
    requires 0 <= b < |nodes| && 0 <= i < TMaxHeight && AllNodesOK(db, nodes[..b])
    requires i < db.nodeData[nodes[b] + NHeight] ==> Tall(db, nodes[..b], i) != []
    ensures AllNodesOK(db, nodes[b + 1..])
    ensures db.nodeData[NNext + i] == First(Tall(db, nodes[..b], i) + Tall(db, nodes[b + 1..], i))
  {
    TallAround(db, nodes, b, i);
    var P := Tall(db, nodes[..b], i);
    var S := Tall(db, nodes[b + 1..], i);
    NextInNew(P, nodes[b], S);
    LinkAt(db, nodes, i, -1);
    if i >= db.nodeData[nodes[b] + NHeight] {
      assert P + [] + S == P + S;
    }
  }

  /** When the node at `b` is the first of level `i`, its link `i` is the
      first node of the level with it left out. */
  lemma HeadBefore(db: DB, nodes: seq<int>, b: int, i: int)
    requires HeadOK(db) && AllNodesOK(db, nodes) && Links(db, nodes)
    requires 0 <= b < |nodes| && 0 <= i < db.nodeData[nodes[b] + NHeight] && i < TMaxHeight
    requires AllNodesOK(db, nodes[..b]) && Tall(db, nodes[..b], i) == []
    ensures AllNodesOK(db, nodes[b + 1..])
    ensures 0 <= nodes[b] + NNext + i < |db.nodeData|
    ensures db.nodeData[nodes[b] + NNext + i] == First(Tall(db, nodes[..b], i) + Tall(db, nodes[b + 1..], i))
  {
    TallAround(db, nodes, b, i);
    var P := Tall(db, nodes[..b], i);
    var S := Tall(db, nodes[b + 1..], i);
    assert Tall(db, nodes, i) == P + [nodes[b]] + S;
    LinkOfMiddle(db, nodes, i, P, nodes[b], S);
  }

  /** Otherwise the link `i` of the node at `b` is what follows the last
      node before it once it is left out. */
  lemma LastBefore(db: DB, nodes: seq<int>, b: int, i: int)
    requires HeadOK(db) && AllNodesOK(db, nodes) && Links(db, nodes)
    requires 0 <= b < |nodes| && 0 <= i < db.nodeData[nodes[b] + NHeight] && i < TMaxHeight
    requires AllNodesOK(db, nodes[..b]) && Tall(db, nodes[..b], i) != []
    ensures AllNodesOK(db, nodes[b + 1..])
    ensures 0 <= nodes[b] + NNext + i < |db.nodeData|
    ensures var P := Tall(db, nodes[..b], i);
      db.nodeData[nodes[b] + NNext + i] == NextIn(P + Tall(db, nodes[b + 1..], i), |P| - 1)
  {
    TallAround(db, nodes, b, i);
    var P := Tall(db, nodes[..b], i);
    var S := Tall(db, nodes[b + 1..], i);
    assert Tall(db, nodes, i) == P + [nodes[b]] + S;
    LinkOfMiddle(db, nodes, i, P, nodes[b], S);
  }

  /** The link `i` of a node of level `i` before the node at `b`, other
      than the last one when the node at `b` is on the level, is its
      successor once the node at `b` is left out. */
  lemma LinkBefore(db: DB, nodes: seq<int>, b: int, i: int, t: int)
    requires HeadOK(db) && AllNodesOK(db, nodes) && Links(db, nodes)
    requires 0 <= b < |nodes| && 0 <= i < TMaxHeight && AllNodesOK(db, nodes[..b])
    requires 0 <= t < |Tall(db, nodes[..b], i)|
    requires i < db.nodeData[nodes[b] + NHeight] ==> t + 1 < |Tall(db, nodes[..b], i)|
    ensures AllNodesOK(db, nodes[b + 1..])
    ensures var P := Tall(db, nodes[..b], i);
      && 0 <= P[t] + NNext + i < |db.nodeData|
      && db.nodeData[P[t] + NNext + i] == NextIn(P + Tall(db, nodes[b + 1..], i), t)
  {
    TallAround(db, nodes, b, i);
    var P := Tall(db, nodes[..b], i);
    var S := Tall(db, nodes[b + 1..], i);
    var x := if i < db.nodeData[nodes[b] + NHeight] then [nodes[b]] else [];
    assert Tall(db, nodes, i) == P + x + S;
    LinkBeforeMiddle(db, nodes, i, P, x, S, t);
  }

  /** The link `i` of a node of level `i` after the node at `b` is its
      successor once the node at `b` is left out. */
  lemma LinkAfter(db: DB, nodes: seq<int>, b: int, i: int, s: int)
    requires HeadOK(db) && AllNodesOK(db, nodes) && Links(db, nodes)
    requires 0 <= b < |nodes| && 0 <= i < TMaxHeight && AllNodesOK(db, nodes[b + 1..])
    requires 0 <= s < |Tall(db, nodes[b + 1..], i)|
    ensures AllNodesOK(db, nodes[..b])
    ensures var P := Tall(db, nodes[..b], i);
      var S := Tall(db, nodes[b + 1..], i);
      && 0 <= S[s] + NNext + i < |db.nodeData|
      && db.nodeData[S[s] + NNext + i] == NextIn(P + S, |P| + s)
  {
    TallAround(db, nodes, b, i);
    var P := Tall(db, nodes[..b], i);
    var S := Tall(db, nodes[b + 1..], i);
    var x := if i < db.nodeData[nodes[b] + NHeight] then [nodes[b]] else [];
    assert Tall(db, nodes, i) == P + x + S;
    LinkPastMiddle(db, nodes, i, P, x, S, s);
  }

  /** Position `s` of level `i` after the node at `b` is position `c` of
      level `i` from `b` on. */
  lemma AfterIndex(db: DB, nodes: seq<int>, b: int, i: int, s: int) returns (c: int)
    requires AllNodesOK(db, nodes) && 0 <= b < |nodes|
    requires AllNodesOK(db, nodes[b + 1..]) && 0 <= s < |Tall(db, nodes[b + 1..], i)|
    ensures AllNodesOK(db, nodes[b..])
    ensures 0 <= c < |Tall(db, nodes[b..], i)| && Tall(db, nodes[b..], i)[c] == Tall(db, nodes[b + 1..], i)[s]
  {
    TallAround(db, nodes, b, i);
    var x := if db.nodeData[nodes[b] + NHeight] > i then [nodes[b]] else [];
    c := |x| + s;
    assert (x + Tall(db, nodes[b + 1..], i))[c] == Tall(db, nodes[b + 1..], i)[s];
  }

  /** A node of level `i` after the key's node is never the recorded node
      of its level. */
  lemma SuffixRecord(cmp: Comparer, db: DB, nodes: seq<int>, key: Bytes, h: int, i: int, s: int) returns (ip: int)
    requires Located(cmp, db, nodes, key, h) && 0 <= i < TMaxHeight
    requires var b := NodeLB(cmp, db, nodes, key);
      AllNodesOK(db, nodes[b + 1..]) && 0 <= s < |Tall(db, nodes[b + 1..], i)|
    ensures var S := Tall(db, nodes[NodeLB(cmp, db, nodes, key) + 1..], i);
      && RecordAt(nodes, S[s], ip) && i < db.nodeData[S[s] + NHeight]
      && (i < h ==> db.prevNode[i] != S[s])
  {
    var b := NodeLB(cmp, db, nodes, key);
    var c := AfterIndex(db, nodes, b, i, s);
    ip := SuffixNode(cmp, db, nodes, key, h, i, c);
  }

  /** The head's link `i` after the unlink, when the head was the recorded
      node of level `i`. */
  lemma HeadLinkSkips(cmp: Comparer, db: DB, nodes: seq<int>, key: Bytes, h: int, db': DB, i: int)
    requires Removed(cmp, db, nodes, key, h, db') && 0 <= i < h && db.prevNode[i] == 0
    ensures AllNodesOK(db', RestNodes(cmp, db, nodes, key))
    ensures db'.nodeData[NNext + i] == First(Tall(db', RestNodes(cmp, db, nodes, key), i))
  {
    var b := NodeLB(cmp, db, nodes, key);
    RemovedTall(cmp, db, nodes, key, h, db', i);
    LastIsHead(db, Tall(db, nodes[..b], i));
    HeadBefore(db, nodes, b, i);
  }

  /** The head's link `i` after the unlink, otherwise. */
  lemma HeadLinkStays(cmp: Comparer, db: DB, nodes: seq<int>, key: Bytes, h: int, db': DB, i: int)
    requires Removed(cmp, db, nodes, key, h, db') && 0 <= i < TMaxHeight
    requires !(i < h && db.prevNode[i] == 0)
    ensures AllNodesOK(db', RestNodes(cmp, db, nodes, key))
    ensures db'.nodeData[NNext + i] == First(Tall(db', RestNodes(cmp, db, nodes, key), i))
  {
    var b := NodeLB(cmp, db, nodes, key);
    RemovedTall(cmp, db, nodes, key, h, db', i);
    var P := Tall(db, nodes[..b], i);
    LastIsHead(db, P);
    if i < h {
      assert db.prevNode[i] == PrevAt(cmp, db, nodes, key, i) == Last(P);
    }
    HeadAround(db, nodes, b, i);
    FieldStays(cmp, db, nodes, key, h, db', 0, 0, NNext + i);
  }

  /** Link `i` of the recorded node of level `i` after the unlink: what
      follows it once the key's node is left out. */
  lemma PrefixSkips(cmp: Comparer, db: DB, nodes: seq<int>, key: Bytes, h: int, db': DB, i: int)
    requires Removed(cmp, db, nodes, key, h, db') && 0 <= i < h
    requires var b := NodeLB(cmp, db, nodes, key);
      AllNodesOK(db, nodes[..b]) && |Tall(db, nodes[..b], i)| > 0
    ensures var b := NodeLB(cmp, db, nodes, key);
      var P := Tall(db, nodes[..b], i);
      && AllNodesOK(db, nodes[b + 1..])
      && 0 <= P[|P| - 1] + NNext + i < |db'.nodeData|
      && db'.nodeData[P[|P| - 1] + NNext + i] == NextIn(P + Tall(db, nodes[b + 1..], i), |P| - 1)
  {
    var b := NodeLB(cmp, db, nodes, key);
    var P := Tall(db, nodes[..b], i);
    var _ := PrefixNode(cmp, db, nodes, key, h, i, |P| - 1);
    LastBefore(db, nodes, b, i);
  }

  /** Link `i` of the recorded node of level `i`, in the level list after
      the unlink. */
  lemma PrefixLinkSkips(cmp: Comparer, db: DB, nodes: seq<int>, key: Bytes, h: int, db': DB, i: int)
    requires Removed(cmp, db, nodes, key, h, db') && 0 <= i < h
    requires var b := NodeLB(cmp, db, nodes, key);
      AllNodesOK(db, nodes[..b]) && |Tall(db, nodes[..b], i)| > 0
    ensures AllNodesOK(db', RestNodes(cmp, db, nodes, key))
    ensures var l := Tall(db', RestNodes(cmp, db, nodes, key), i);
      var t := |Tall(db, nodes[..NodeLB(cmp, db, nodes, key)], i)| - 1;
      t < |l| && Link(db', l[t], i) == NextIn(l, t)
  {
    var b := NodeLB(cmp, db, nodes, key);
    RemovedTall(cmp, db, nodes, key, h, db', i);
    var P := Tall(db, nodes[..b], i);
    var S := Tall(db, nodes[b + 1..], i);
    assert (P + S)[|P| - 1] == P[|P| - 1];
    PrefixSkips(cmp, db, nodes, key, h, db', i);
  }

  /** Link `i` of another node before the key, in the level list after the
      unlink. */
  lemma PrefixLinkStays(cmp: Comparer, db: DB, nodes: seq<int>, key: Bytes, h: int, db': DB, i: int, t: int)
    requires Removed(cmp, db, nodes, key, h, db') && 0 <= i < TMaxHeight
    requires var b := NodeLB(cmp, db, nodes, key);
      AllNodesOK(db, nodes[..b]) && 0 <= t < |Tall(db, nodes[..b], i)|
    requires i < h ==> t + 1 < |Tall(db, nodes[..NodeLB(cmp, db, nodes, key)], i)|
    ensures AllNodesOK(db', RestNodes(cmp, db, nodes, key))
    ensures var l := Tall(db', RestNodes(cmp, db, nodes, key), i);
      t < |l| && Link(db', l[t], i) == NextIn(l, t)
  {
    var b := NodeLB(cmp, db, nodes, key);
    RemovedTall(cmp, db, nodes, key, h, db', i);
    var P := Tall(db, nodes[..b], i);
    var S := Tall(db, nodes[b + 1..], i);
    assert (P + S)[t] == P[t];
    var ip := PrefixNode(cmp, db, nodes, key, h, i, t);
    LinkBefore(db, nodes, b, i, t);
    FieldStays(cmp, db, nodes, key, h, db', P[t], ip, NNext + i);
  }

  /** Link `i` of a node of level `i` after the key: unchanged by the
      unlink, and its successor once the key's node is left out. */
  lemma SuffixStays(cmp: Comparer, db: DB, nodes: seq<int>, key: Bytes, h: int, db': DB, i: int, s: int)
    requires Removed(cmp, db, nodes, key, h, db') && 0 <= i < TMaxHeight
    requires var b := NodeLB(cmp, db, nodes, key);
      AllNodesOK(db, nodes[b + 1..]) && 0 <= s < |Tall(db, nodes[b + 1..], i)|
    ensures var b := NodeLB(cmp, db, nodes, key);
      var S := Tall(db, nodes[b + 1..], i);
      && AllNodesOK(db, nodes[..b])
      && 0 <= S[s] + NNext + i < |db'.nodeData|
      && db'.nodeData[S[s] + NNext + i] == NextIn(Tall(db, nodes[..b], i) + S, |Tall(db, nodes[..b], i)| + s)
  {
    var b := NodeLB(cmp, db, nodes, key);
    var ip := SuffixRecord(cmp, db, nodes, key, h, i, s);
    LinkAfter(db, nodes, b, i, s);
    FieldStays(cmp, db, nodes, key, h, db', Tall(db, nodes[b + 1..], i)[s], ip, NNext + i);
  }

  /** Link `i` of a node after the key, in the level list after the unlink. */
  lemma SuffixLinkRemoved(cmp: Comparer, db: DB, nodes: seq<int>, key: Bytes, h: int, db': DB, i: int, s: int)
    requires Removed(cmp, db, nodes, key, h, db') && 0 <= i < TMaxHeight
    requires var b := NodeLB(cmp, db, nodes, key);
      AllNodesOK(db, nodes[b + 1..]) && 0 <= s < |Tall(db, nodes[b + 1..], i)|
    ensures AllNodesOK(db', RestNodes(cmp, db, nodes, key))
    ensures var b := NodeLB(cmp, db, nodes, key);
      var l := Tall(db', RestNodes(cmp, db, nodes, key), i);
      var t := |Tall(db, nodes[..b], i)| + s;
      && AllNodesOK(db, nodes[..b])
      && t < |l| && Link(db', l[t], i) == NextIn(l, t)
  {
    var b := NodeLB(cmp, db, nodes, key);
    RemovedTall(cmp, db, nodes, key, h, db', i);
    var P := Tall(db, nodes[..b], i);
    var S := Tall(db, nodes[b + 1..], i);
    assert (P + S)[|P| + s] == S[s];
    SuffixStays(cmp, db, nodes, key, h, db', i, s);
  }

  /** The links `i` of every node of level `i` after the unlink. */
  lemma LevelLinksRemoved(cmp: Comparer, db: DB, nodes: seq<int>, key: Bytes, h: int, db': DB, i: int)
    requires Removed(cmp, db, nodes, key, h, db') && 0 <= i < TMaxHeight
    ensures AllNodesOK(db', RestNodes(cmp, db, nodes, key))
    ensures var l := Tall(db', RestNodes(cmp, db, nodes, key), i);
      forall t :: 0 <= t < |l| ==> Link(db', l[t], i) == NextIn(l, t)
  {
    var b := NodeLB(cmp, db, nodes, key);
    RemovedTall(cmp, db, nodes, key, h, db', i);
    var l := Tall(db', RestNodes(cmp, db, nodes, key), i);
    var np := |Tall(db, nodes[..b], i)|;
    forall t | 0 <= t < |l| ensures Link(db', l[t], i) == NextIn(l, t) {
      if t >= np {
        SuffixLinkRemoved(cmp, db, nodes, key, h, db', i, t - np);
      } else if i < h && t == np - 1 {
        PrefixLinkSkips(cmp, db, nodes, key, h, db', i);
      } else {
        PrefixLinkStays(cmp, db, nodes, key, h, db', i, t);
      }
    }
  }

  /** Every link of the table after the unlink follows the new level lists. */
  lemma LinksRemoved(cmp: Comparer, db: DB, nodes: seq<int>, key: Bytes, h: int, db': DB)
    requires Removed(cmp, db, nodes, key, h, db')
    requires AllNodesOK(db', RestNodes(cmp, db, nodes, key))
    ensures HeadOK(db') && Links(db', RestNodes(cmp, db, nodes, key))
  {
    var l' := RestNodes(cmp, db, nodes, key);
    FieldStays(cmp, db, nodes, key, h, db', 0, 0, NHeight);
    forall i | 0 <= i < TMaxHeight ensures db'.nodeData[NNext + i] == First(Tall(db', l', i)) {
      if i < h && db.prevNode[i] == 0 {
        HeadLinkSkips(cmp, db, nodes, key, h, db', i);
      } else {
        HeadLinkStays(cmp, db, nodes, key, h, db', i);
      }
    }
    forall i, t | 0 <= i < TMaxHeight && 0 <= t < |Tall(db', l', i)|
      ensures Link(db', Tall(db', l', i)[t], i) == NextIn(Tall(db', l', i), t)
    {
      LevelLinksRemoved(cmp, db, nodes, key, h, db', i);
    }
  }

  /** The count and size after the unlink match the remaining entries. */
  lemma RemovedSize(cmp: Comparer, db: DB, nodes: seq<int>, key: Bytes, h: int, db': DB)
    requires Removed(cmp, db, nodes, key, h, db')
    ensures var b := NodeLB(cmp, db, nodes, key);
      var es := Entries(db, nodes);
      && db'.n == |nodes| - 1
      && db'.kvSize == TotalSize(es[..b] + es[b + 1..])
      && Sorted(cmp, es[..b] + es[b + 1..])
      && SortedMap.Remove(es, key) == es[..b] + es[b + 1..]
  {
    var b := NodeLB(cmp, db, nodes, key);
    var X := nodes[b];
    var es := Entries(db, nodes);
    EntryAt(db, nodes, b);
    SizeAfterRemove(cmp, es, key, b, db.kvSize, db'.kvSize, db.nodeData[X + NKey], db.nodeData[X + NVal]);
  }

  /** Taking the sizes of the entry at the lower bound of a present key
      out of the total leaves the total of the other entries. */
  lemma SizeAfterRemove(cmp: Comparer, es: seq<Entry>, key: Bytes, b: nat, kv: int, kv': int, kl: int, vl: int)
    requires ValidComparer(cmp) && Sorted(cmp, es)
    requires b == LowerBound(cmp, es, key) && b < |es| && es[b].key == key
    requires kv == TotalSize(es) && kl == |es[b].key| && vl == |es[b].value| && kv' == kv - kl - vl
    ensures kv' == TotalSize(es[..b] + es[b + 1..])
    ensures Sorted(cmp, es[..b] + es[b + 1..])
    ensures SortedMap.Remove(es, key) == es[..b] + es[b + 1..]
  {
    SortedMap.RemoveSplice(cmp, es, key);
    SortedMap.DeleteSorted(cmp, es, b);
    SortedMap.SpliceSize(es, b);
  }


  /** The unlink leaves a valid store for the level-0 list without the
      node, holding the reference `Remove`. */
  lemma RemovedValid(cmp: Comparer, db: DB, nodes: seq<int>, key: Bytes, h: int, db': DB)
    requires Removed(cmp, db, nodes, key, h, db')
    ensures Valid(cmp, db', RestNodes(cmp, db, nodes, key))
    ensures Entries(db', RestNodes(cmp, db, nodes, key)) == SortedMap.Remove(Entries(db, nodes), key)
  {
    var b := NodeLB(cmp, db, nodes, key);
    RemovedKept(cmp, db, nodes, key, h, db');
    RemoveEntries(db, db', nodes, b);
    LinksRemoved(cmp, db, nodes, key, h, db');
    RemoveDisjoint(db, db', nodes, b);
    RemovedSize(cmp, db, nodes, key, h, db');
  }

  /** The unlink path of `Delete`, after a write-mode search of the valid
      store `db` recorded every level and found `key` at `node`: unlink
      the node from each of its levels and take its key and value out of
      the count and the size. */
  method RemoveNode(db: DB, cmp: Comparer, key: Bytes, node: int, ghost nodes: seq<int>)
    returns (db': DB)
    requires ValidComparer(cmp) && Valid(cmp, db, nodes) && Present(cmp, db, nodes, key)
    requires node == nodes[NodeLB(cmp, db, nodes, key)]
    requires Recorded(cmp, db, nodes, key, db.maxHeight)
    ensures Valid(cmp, db', RestNodes(cmp, db, nodes, key))
    ensures Entries(db', RestNodes(cmp, db, nodes, key)) == SortedMap.Remove(Entries(db, nodes), key)
    ensures db'.kvData == db.kvData && db'.rngPos == db.rngPos
  {
    ghost var b := NodeLB(cmp, db, nodes, key);
    assert NodeOK(db, nodes[b]);
    var h := db.nodeData[node + NHeight];
    assert Recorded(cmp, db, nodes, key, h);
    UnlinkTargets(cmp, db, nodes, key, h);
    UnlinkOwn(cmp, db, nodes, key, h);
    RecordedSlots(cmp, db, nodes, key, h);
    var nd := Unlink(db.nodeData, db.prevNode, h, node);
    OffSlot(cmp, db, nodes, key, h, node, b, NKey);
    OffSlot(cmp, db, nodes, key, h, node, b, NVal);
    db' := db.(nodeData := nd, kvSize := db.kvSize - (nd[node + NKey] + nd[node + NVal]), n := db.n - 1);
    assert Located(cmp, db, nodes, key, h);
    RemovedValid(cmp, db, nodes, key, h, db');
  }

  /** `Delete`: remove the entry for `key`, or report `ErrNotFound` and
      change nothing a reader can see. */
  method Delete(db: DB, cmp: Comparer, key: Bytes, ghost nodes: seq<int>)
    returns (db': DB, err: Option<MemDb.MemError>, ghost nodes': seq<int>)
    requires ValidComparer(cmp) && Valid(cmp, db, nodes)
    ensures Valid(cmp, db', nodes')
    ensures Contents(cmp, db', nodes') == SortedMap.Remove(Contents(cmp, db, nodes), key)
    ensures err.None? <==> SortedMap.Get(Contents(cmp, db, nodes), key).Some?
    ensures err.Some? ==> err.value == MemDb.ErrNotFound && Contents(cmp, db', nodes') == Contents(cmp, db, nodes)
    ensures db'.kvData == db.kvData && db'.rngPos == db.rngPos
  {
    var db0, node, exact := MemDb.FindGE(db, cmp, key, true, nodes);
    GetAtLowerBound(cmp, Entries(db, nodes), key);
    RemoveSplice(cmp, Entries(db, nodes), key);
    MemDbPut.Raised(cmp, db, nodes, key, db.maxHeight, db0);
    if !exact {
      return db0, Some(MemDb.ErrNotFound), nodes;
    }
    db' := RemoveNode(db0, cmp, key, node, nodes);
    err := None;
    nodes' := RestNodes(cmp, db0, nodes, key);
  }
}

=== FILE: memdb_frame.dfy ===
/**
  Frame facts for the writers: a table that only appended to the arena and
  left a node's four fields alone still describes the same node, with the
  same key, value and height.
 */
module MemDbFrame {
  import opened Order
  import opened SortedMap
  import opened MemDbLayout
  import opened MemDbLevels

  /** `db'` only appended to the arena, only grew the table and did not
      lower `maxHeight`. */
  ghost predicate Grown(db: DB, db': DB) {
    && |db.kvData| <= |db'.kvData| && db'.kvData[..|db.kvData|] == db.kvData
    && |db.nodeData| <= |db'.nodeData|
    && db.maxHeight <= db'.maxHeight
  }

  /** The four fields of the record at `p` are the same in both tables. */
  ghost predicate FieldsKept(db: DB, db': DB, p: int) {
    && 0 <= p && p + NNext <= |db.nodeData| && p + NNext <= |db'.nodeData|
    && db'.nodeData[p + NKV] == db.nodeData[p + NKV]
    && db'.nodeData[p + NKey] == db.nodeData[p + NKey]
    && db'.nodeData[p + NVal] == db.nodeData[p + NVal]
    && db'.nodeData[p + NHeight] == db.nodeData[p + NHeight]
  }

  lemma NodeKept(db: DB, db': DB, p: int)
    requires Grown(db, db') && NodeOK(db, p) && FieldsKept(db, db', p)
    ensures NodeOK(db', p)
    ensures KeyOf(db', p) == KeyOf(db, p) && ValueOf(db', p) == ValueOf(db, p)
  {
    var a := db.nodeData[p + NKV];
    var m := a + db.nodeData[p + NKey];
    var e := m + db.nodeData[p + NVal];
    var k := |db.kvData|;
    assert db'.kvData[a..m] == db'.kvData[..k][a..m];
    assert db'.kvData[m..e] == db'.kvData[..k][m..e];
  }

  /** A list of kept nodes keeps its entries and its level lists. */
  lemma ListKept(db: DB, db': DB, l: seq<int>)
    requires Grown(db, db') && AllNodesOK(db, l)
    requires forall j :: 0 <= j < |l| ==> FieldsKept(db, db', l[j])
    ensures AllNodesOK(db', l)
    ensures Entries(db', l) == Entries(db, l)
    ensures forall i :: Tall(db', l, i) == Tall(db, l, i)
  {
    forall j | 0 <= j < |l| ensures NodeOK(db', l[j]) {
      NodeKept(db, db', l[j]);
    }
    forall j | 0 <= j < |l| ensures Entries(db', l)[j] == Entries(db, l)[j] {
      NodeKept(db, db', l[j]);
    }
    forall i ensures Tall(db', l, i) == Tall(db, l, i) {
      TallFrame(db, db', l, i);
    }
  }

  /** A slice of a list whose nodes are all kept. */
  lemma SliceKept(db: DB, db': DB, l: seq<int>, a: int, b: int)
    requires Grown(db, db') && AllNodesOK(db, l) && 0 <= a <= b <= |l|
    requires forall j :: 0 <= j < |l| ==> FieldsKept(db, db', l[j])
    ensures AllNodesOK(db, l[a..b]) && AllNodesOK(db', l[a..b])
    ensures Entries(db', l[a..b]) == Entries(db, l[a..b])
    ensures forall i :: Tall(db', l[a..b], i) == Tall(db, l[a..b], i)
  {
    SliceNodesOK(db, l, a, b);
    forall j | 0 <= j < b - a ensures FieldsKept(db, db', l[a..b][j]) {
      assert l[a..b][j] == l[a + j];
    }
    ListKept(db, db', l[a..b]);
  }

  /** Every node of `l` keeps its fields. */
  ghost predicate AllKept(db: DB, db': DB, l: seq<int>) {
    forall j :: 0 <= j < |l| ==> FieldsKept(db, db', l[j])
  }

  /** Placing a new node `X` at position `b` of a list of kept nodes
      places its entry at `b` of the entries. */
  lemma InsertEntries(db: DB, db': DB, l: seq<int>, b: int, X: int)
    requires Grown(db, db') && AllNodesOK(db, l) && AllKept(db, db', l)
    requires NodeOK(db', X) && 0 <= b <= |l|
    ensures AllNodesOK(db', l[..b] + [X] + l[b..])
    ensures Entries(db', l[..b] + [X] + l[b..]) ==
      Entries(db, l)[..b] + [Entry(KeyOf(db', X), ValueOf(db', X))] + Entries(db, l)[b..]
  {
    var l' := l[..b] + [X] + l[b..];
    var es := Entries(db, l);
    ListKept(db, db', l);
    forall j | 0 <= j < |l'| ensures NodeOK(db', l'[j]) {
      if j < b {
        assert l'[j] == l[j];
      } else if j > b {
        assert l'[j] == l[j - 1];
      }
    }
    var r := es[..b] + [Entry(KeyOf(db', X), ValueOf(db', X))] + es[b..];
    forall j | 0 <= j < b ensures Entries(db', l')[j] == r[j] {
      assert l'[j] == l[j] && r[j] == es[j];
      NodeKept(db, db', l[j]);
    }
    forall j | b < j < |l'| ensures Entries(db', l')[j] == r[j] {
      assert l'[j] == l[j - 1] && r[j] == es[j - 1];
      NodeKept(db, db', l[j - 1]);
    }
    assert Entries(db', l')[b] == r[b];
  }

  /** The level lists of the list with `X` placed at `b`: `X` sits between
      the two halves at the levels below its height. */
  lemma InsertTall(db: DB, db': DB, l: seq<int>, b: int, X: int, i: int)
    requires Grown(db, db') && AllNodesOK(db, l) && AllKept(db, db', l)
    requires NodeOK(db', X) && 0 <= b <= |l|
    ensures AllNodesOK(db, l[..b]) && AllNodesOK(db, l[b..])
    ensures AllNodesOK(db', l[..b] + [X] + l[b..])
    ensures Tall(db', l[..b] + [X] + l[b..], i) ==
      Tall(db, l[..b], i) + (if i < db'.nodeData[X + NHeight] then [X] else []) + Tall(db, l[b..], i)
  {
    SliceKept(db, db', l, 0, b);
    SliceKept(db, db', l, b, |l|);
    assert l[0..b] == l[..b] && l[b..|l|] == l[b..];
    assert AllNodesOK(db', [X]);
    TallAppend(db', l[..b], [X], i);
    TallAppend(db', l[..b] + [X], l[b..], i);
    assert Tall(db', [X], i) == (if i < db'.nodeData[X + NHeight] then [X] else []) by {
      assert [X][1..] == [];
      assert TallRec(db', [], i) == [];
      assert TallRec(db', [X], i) == (if i < db'.nodeData[X + NHeight] then [X] else []) + TallRec(db', [X][1..], i);
    }
  }

  /** Position `j` of `l` with `X` placed at `b` is `X` or an old position. */
  lemma PlacedAt(l: seq<int>, b: int, X: int, j: int) returns (o: int)
    requires 0 <= b <= |l| && 0 <= j <= |l|
    ensures var l' := l[..b] + [X] + l[b..];
      && |l'| == |l| + 1
      && (j == b ==> l'[j] == X)
      && (j != b ==> 0 <= o < |l| && l'[j] == l[o])
  {
    o := if j < b then j else j - 1;
  }

  /** Records stay apart after placing a new node `X` past the end of the
      old table. */
  lemma InsertDisjoint(db: DB, db': DB, l: seq<int>, b: int, X: int)
    requires Grown(db, db') && AllNodesOK(db, l) && AllKept(db, db', l) && Disjoint(db, l)
    requires 0 <= b <= |l| && |db.nodeData| <= X
    requires AllNodesOK(db', l[..b] + [X] + l[b..])
    ensures Disjoint(db', l[..b] + [X] + l[b..])
  {
    var l' := l[..b] + [X] + l[b..];
    forall j, k | 0 <= j < |l'| && 0 <= k < |l'| && l'[j] < l'[k]
      ensures l'[j] + NNext + db'.nodeData[l'[j] + NHeight] <= l'[k]
    {
      InsertApart(db, db', l, b, X, j, k);
    }
  }

  /** One pair of records of the list with `X` placed in it. */
  lemma InsertApart(db: DB, db': DB, l: seq<int>, b: int, X: int, j: int, k: int)
    requires Grown(db, db') && AllNodesOK(db, l) && AllKept(db, db', l) && Disjoint(db, l)
    requires 0 <= b <= |l| && |db.nodeData| <= X
    requires AllNodesOK(db', l[..b] + [X] + l[b..])
    requires var l' := l[..b] + [X] + l[b..];
      0 <= j < |l'| && 0 <= k < |l'| && l'[j] < l'[k]
    ensures var l' := l[..b] + [X] + l[b..];
      l'[j] + NNext + db'.nodeData[l'[j] + NHeight] <= l'[k]
  {
    var oj := PlacedAt(l, b, X, j);
    var ok := PlacedAt(l, b, X, k);
    if k == b {
      assert NodeOK(db, l[oj]) && FieldsKept(db, db', l[oj]);
    } else {
      assert NodeOK(db, l[ok]);
      assert FieldsKept(db, db', l[oj]);
    }
  }


  /** The links of a list survive a change that keeps its level lists and
      the link slots of the head and of every listed node. */
  lemma LinksFrame(db: DB, db': DB, l: seq<int>)
    requires HeadOK(db) && AllNodesOK(db, l) && Links(db, l)
    requires HeadOK(db') && AllNodesOK(db', l)
    requires forall i :: Tall(db', l, i) == Tall(db, l, i)
    requires forall i :: 0 <= i < TMaxHeight ==> Link(db', 0, i) == Link(db, 0, i)
    requires forall i, t :: 0 <= i < TMaxHeight && 0 <= t < |Tall(db, l, i)| ==>
      Link(db', Tall(db, l, i)[t], i) == Link(db, Tall(db, l, i)[t], i)
    ensures Links(db', l)
  {
    forall i | 0 <= i < TMaxHeight ensures db'.nodeData[NNext + i] == First(Tall(db', l, i)) {
      assert Link(db', 0, i) == Link(db, 0, i);
      assert Tall(db', l, i) == Tall(db, l, i);
    }
    forall i, t | 0 <= i < TMaxHeight && 0 <= t < |Tall(db', l, i)|
      ensures Link(db', Tall(db', l, i)[t], i) == NextIn(Tall(db', l, i), t)
    {
      assert Tall(db', l, i) == Tall(db, l, i);
      assert Link(db, Tall(db, l, i)[t], i) == NextIn(Tall(db, l, i), t);
    }
  }

  /** Records of a list stay apart when their heights are kept. */
  lemma DisjointFrame(db: DB, db': DB, l: seq<int>)
    requires AllNodesOK(db, l) && AllNodesOK(db', l) && Disjoint(db, l)
    requires forall j :: 0 <= j < |l| ==> db'.nodeData[l[j] + NHeight] == db.nodeData[l[j] + NHeight]
    ensures Disjoint(db', l)
  {
  }

  /** Position `j` of `l` with the node at `b` dropped is an old position. */
  lemma DroppedAt(l: seq<int>, b: int, j: int) returns (o: int)
    requires 0 <= b < |l| && 0 <= j < |l| - 1
    ensures var l' := l[..b] + l[b + 1..];
      && |l'| == |l| - 1 && 0 <= o < |l| && o != b && l'[j] == l[o]
      && (j < b ==> o == j) && (j >= b ==> o == j + 1)
  {
    o := if j < b then j else j + 1;
  }

  /** Dropping the node at `b` from a list of kept nodes drops its entry. */
  lemma RemoveEntries(db: DB, db': DB, l: seq<int>, b: int)
    requires Grown(db, db') && AllNodesOK(db, l) && AllKept(db, db', l) && 0 <= b < |l|
    ensures AllNodesOK(db', l[..b] + l[b + 1..])
    ensures Entries(db', l[..b] + l[b + 1..]) == Entries(db, l)[..b] + Entries(db, l)[b + 1..]
  {
    var l' := l[..b] + l[b + 1..];
    var es := Entries(db, l);
    var r := es[..b] + es[b + 1..];
    forall j | 0 <= j < |l'| ensures NodeOK(db', l'[j]) && Entries(db', l')[j] == r[j] {
      var o := DroppedAt(l, b, j);
      assert r[j] == es[o];
      NodeKept(db, db', l[o]);
    }
  }

  /** The level lists of the list with the node at `b` dropped. */
  lemma RemoveTall(db: DB, db': DB, l: seq<int>, b: int, i: int)
    requires Grown(db, db') && AllNodesOK(db, l) && AllKept(db, db', l) && 0 <= b < |l|
    ensures AllNodesOK(db, l[..b]) && AllNodesOK(db, l[b + 1..])
    ensures AllNodesOK(db', l[..b] + l[b + 1..])
    ensures Tall(db', l[..b] + l[b + 1..], i) == Tall(db, l[..b], i) + Tall(db, l[b + 1..], i)
  {
    SliceKept(db, db', l, 0, b);
    SliceKept(db, db', l, b + 1, |l|);
    assert l[0..b] == l[..b] && l[b + 1..|l|] == l[b + 1..];
    TallAppend(db', l[..b], l[b + 1..], i);
  }

  /** Records of a list stay apart after dropping one of them. */
  lemma RemoveDisjoint(db: DB, db': DB, l: seq<int>, b: int)
    requires Grown(db, db') && AllNodesOK(db, l) && AllKept(db, db', l) && Disjoint(db, l)
    requires 0 <= b < |l| && AllNodesOK(db', l[..b] + l[b + 1..])
    ensures Disjoint(db', l[..b] + l[b + 1..])
  {
    var l' := l[..b] + l[b + 1..];
    forall j, k | 0 <= j < |l'| && 0 <= k < |l'| && l'[j] < l'[k]
      ensures l'[j] + NNext + db'.nodeData[l'[j] + NHeight] <= l'[k]
    {
      var oj := DroppedAt(l, b, j);
      var ok := DroppedAt(l, b, k);
      assert FieldsKept(db, db', l[oj]);
    }
  }
}

=== FILE: memdb_insert.dfy ===
/**
  The insert path of `Put`: a new node `X` is appended to the table and
  spliced into the first `h` levels right after the nodes a write-mode
  search recorded in `prevNode`. The lemmas here show that the table left
  behind is valid for the level-0 list with `X` placed at the key's lower
  bound.
 */
module MemDbInsert {
  import opened Order
  import opened SortedMap
  import opened MemDbLayout
  import opened MemDbLevels
  import opened MemDbRecords
  import opened MemDbFrame

  /** `x` is none of the first `k` link slots named by `pn` (slot `j` is
      link `j` of the record `pn[j]`). */
  ghost predicate NotSlot(pn: seq<int>, k: int, x: int)
    requires 0 <= k <= |pn|
  {
    forall j :: 0 <= j < k ==> x != pn[j] + NNext + j
  }

  /** The first `h` slots named by `pn` are pairwise different. */
  ghost predicate SlotsApart(pn: seq<int>, h: int)
    requires 0 <= h <= |pn|
  {
    forall j, k :: 0 <= j < k < h ==> pn[j] + NNext + j != pn[k] + NNext + k
  }

  /** `nd'` is `nd` with a record of height `h` appended at `|nd|` whose
      links take over the first `h` slots named by `pn`, each of which
      now points at the new record; nothing else changed. */
  ghost predicate Spliced(nd: seq<int>, nd': seq<int>, pn: seq<int>, h: int)
    requires 0 <= h <= |pn|
  {
    && |nd'| == |nd| + NNext + h
    && (forall j :: 0 <= j < h ==>
          && 0 <= pn[j] + NNext + j < |nd|
          && nd'[pn[j] + NNext + j] == |nd|
          && nd'[|nd| + NNext + j] == nd[pn[j] + NNext + j])
    && (forall x {:trigger NotSlot(pn, h, x)} :: 0 <= x < |nd| && NotSlot(pn, h, x) ==> nd'[x] == nd[x])
  }

  /** No entry at the lower bound holds `key`. */
  ghost predicate Absent(cmp: Comparer, db: DB, nodes: seq<int>, key: Bytes)
    requires AllNodesOK(db, nodes)
  {
    var b := NodeLB(cmp, db, nodes, key);
    !(b < |nodes| && Entries(db, nodes)[b].key == key)
  }

  /** `prevNode` holds what a write-mode search for `key` records, for the
      first `h` levels. */
  ghost predicate Recorded(cmp: Comparer, db: DB, nodes: seq<int>, key: Bytes, h: int)
    requires AllNodesOK(db, nodes) && 0 <= h <= |db.prevNode|
  {
    forall j :: 0 <= j < h ==> db.prevNode[j] == PrevAt(cmp, db, nodes, key, j)
  }

  /** The state `db'` the insert path leaves, relative to the valid state
      `db` after the search (with `maxHeight` already raised to `h`). */
  ghost predicate Inserted(cmp: Comparer, db: DB, nodes: seq<int>, key: Bytes, value: Bytes, h: int, db': DB) {
    && ValidComparer(cmp) && Valid(cmp, db, nodes)
    && 1 <= h <= db.maxHeight
    && Absent(cmp, db, nodes, key)
    && Recorded(cmp, db, nodes, key, h)
    && db'.kvData == db.kvData + key + value
    && db'.maxHeight == db.maxHeight
    && |db'.prevNode| == TMaxHeight
    && Spliced(db.nodeData, db'.nodeData, db.prevNode, h)
    && db'.nodeData[|db.nodeData| + NKV] == |db.kvData|
    && db'.nodeData[|db.nodeData| + NKey] == |key|
    && db'.nodeData[|db.nodeData| + NVal] == |value|
    && db'.nodeData[|db.nodeData| + NHeight] == h
    && db'.n == db.n + 1
    && db'.kvSize == db.kvSize + |key| + |value|
  }

  /** The level-0 list after the insert. */
  ghost function NewNodes(cmp: Comparer, db: DB, nodes: seq<int>, key: Bytes): seq<int>
    requires AllNodesOK(db, nodes)
  {
    var b := NodeLB(cmp, db, nodes, key);
    nodes[..b] + [|db.nodeData|] + nodes[b..]
  }

  /** The slots a search recorded lie inside their records, below the end
      of the table, and never coincide. */
  lemma RecordedSlots(cmp: Comparer, db: DB, nodes: seq<int>, key: Bytes, h: int)
    requires ValidComparer(cmp) && Valid(cmp, db, nodes) && 0 <= h <= TMaxHeight
    requires Recorded(cmp, db, nodes, key, h)
    ensures forall j :: 0 <= j < h ==> 0 <= db.prevNode[j] + NNext + j < |db.nodeData|
    ensures SlotsApart(db.prevNode, h)
  {
    var pn := db.prevNode;
    forall j | 0 <= j < h ensures 0 <= pn[j] + NNext + j < |db.nodeData| {
      var _ := PrevRecord(cmp, db, nodes, key, j);
    }
    forall j, k | 0 <= j < k < h ensures pn[j] + NNext + j != pn[k] + NNext + k {
      var ij := PrevRecord(cmp, db, nodes, key, j);
      var ik := PrevRecord(cmp, db, nodes, key, k);
      if pn[j] != pn[k] {
        RecordsApart(db, nodes, pn[j], ij, pn[k], ik);
      }
    }
  }

  /** Offset `k` of a record (a field, or a link that is not one of the
      recorded slots of this record) is not a recorded slot. */
  lemma OffSlot(cmp: Comparer, db: DB, nodes: seq<int>, key: Bytes, h: int, p: int, ip: int, k: int)
    requires ValidComparer(cmp) && Valid(cmp, db, nodes) && 0 <= h <= TMaxHeight
    requires Recorded(cmp, db, nodes, key, h)
    requires RecordAt(nodes, p, ip) && 0 <= k < NNext + db.nodeData[p + NHeight]
    requires k >= NNext && k - NNext < h ==> db.prevNode[k - NNext] != p
    ensures NotSlot(db.prevNode, h, p + k)
  {
    var pn := db.prevNode;
    if p != 0 {
      assert NodeOK(db, nodes[ip]);
    }
    forall j | 0 <= j < h ensures p + k != pn[j] + NNext + j {
      var iq := PrevRecord(cmp, db, nodes, key, j);
      if pn[j] != p {
        RecordsApart(db, nodes, p, ip, pn[j], iq);
      }
    }
  }

  /** A field of a record keeps its value. */
  lemma FieldKept(cmp: Comparer, db: DB, nodes: seq<int>, key: Bytes, value: Bytes, h: int, db': DB, p: int, ip: int, k: int)
    requires Inserted(cmp, db, nodes, key, value, h, db')
    requires RecordAt(nodes, p, ip) && 0 <= k < NNext
    ensures 0 <= p + k < |db.nodeData| && db'.nodeData[p + k] == db.nodeData[p + k]
  {
    if p != 0 {
      assert NodeOK(db, nodes[ip]);
    }
    OffSlot(cmp, db, nodes, key, h, p, ip, k);
  }

  /** Link `i` of a record keeps its value unless the record is the one
      recorded for level `i`. */
  lemma LinkKept(cmp: Comparer, db: DB, nodes: seq<int>, key: Bytes, value: Bytes, h: int, db': DB, p: int, ip: int, i: int)
    requires Inserted(cmp, db, nodes, key, value, h, db')
    requires RecordAt(nodes, p, ip) && 0 <= i < db.nodeData[p + NHeight]
    requires i < h ==> db.prevNode[i] != p
    ensures 0 <= p + NNext + i < |db.nodeData| && db'.nodeData[p + NNext + i] == db.nodeData[p + NNext + i]
  {
    if p != 0 {
      assert NodeOK(db, nodes[ip]);
    }
    OffSlot(cmp, db, nodes, key, h, p, ip, NNext + i);
  }

  /** The old nodes keep their fields, so their entries and levels. */
  lemma OldNodesKept(cmp: Comparer, db: DB, nodes: seq<int>, key: Bytes, value: Bytes, h: int, db': DB)
    requires Inserted(cmp, db, nodes, key, value, h, db')
    ensures Grown(db, db') && AllKept(db, db', nodes)
  {
    assert db'.kvData[..|db.kvData|] == db.kvData;
    forall j | 0 <= j < |nodes| ensures FieldsKept(db, db', nodes[j]) {
      var p := nodes[j];
      assert NodeOK(db, p);
      FieldKept(cmp, db, nodes, key, value, h, db', p, j, NKV);
      FieldKept(cmp, db, nodes, key, value, h, db', p, j, NKey);
      FieldKept(cmp, db, nodes, key, value, h, db', p, j, NVal);
      FieldKept(cmp, db, nodes, key, value, h, db', p, j, NHeight);
    }
  }

  /** The new node is a well-formed record holding `key` and `value`. */
  lemma NewNodeOK(cmp: Comparer, db: DB, nodes: seq<int>, key: Bytes, value: Bytes, h: int, db': DB)
    requires Inserted(cmp, db, nodes, key, value, h, db')
    ensures NodeOK(db', |db.nodeData|)
    ensures KeyOf(db', |db.nodeData|) == key && ValueOf(db', |db.nodeData|) == value
  {
    var kv := db.kvData;
    assert db'.kvData[|kv|..|kv| + |key|] == key;
    assert db'.kvData[|kv| + |key|..|kv| + |key| + |value|] == value;
  }

  /** The entries after the insert: the new entry at the lower bound. */
  lemma InsertedEntries(cmp: Comparer, db: DB, nodes: seq<int>, key: Bytes, value: Bytes, h: int, db': DB)
    requires Inserted(cmp, db, nodes, key, value, h, db')
    ensures AllNodesOK(db', NewNodes(cmp, db, nodes, key))
    ensures var b := NodeLB(cmp, db, nodes, key);
      var es := Entries(db, nodes);
      Entries(db', NewNodes(cmp, db, nodes, key)) == es[..b] + [Entry(key, value)] + es[b..]
  {
    OldNodesKept(cmp, db, nodes, key, value, h, db');
    NewNodeOK(cmp, db, nodes, key, value, h, db');
    InsertEntries(db, db', nodes, NodeLB(cmp, db, nodes, key), |db.nodeData|);
  }

  /** The level-`i` list after the insert: the new node sits between the
      nodes below the key and the rest when it is tall enough. */
  lemma InsertedTall(cmp: Comparer, db: DB, nodes: seq<int>, key: Bytes, value: Bytes, h: int, db': DB, i: int)
    requires Inserted(cmp, db, nodes, key, value, h, db')
    ensures var b := NodeLB(cmp, db, nodes, key);
      && AllNodesOK(db, nodes[..b]) && AllNodesOK(db, nodes[b..])
      && AllNodesOK(db', NewNodes(cmp, db, nodes, key))
      && Tall(db', NewNodes(cmp, db, nodes, key), i) ==
         Tall(db, nodes[..b], i) + (if i < h then [|db.nodeData|] else []) + Tall(db, nodes[b..], i)
  {
    OldNodesKept(cmp, db, nodes, key, value, h, db');
    NewNodeOK(cmp, db, nodes, key, value, h, db');
    InsertTall(db, db', nodes, NodeLB(cmp, db, nodes, key), |db.nodeData|, i);
  }

  /** A node of level `i` before the key: where it is in `nodes`, and
      that it is the recorded node of its level only when it is the last
      node there. */
  lemma PrefixNode(cmp: Comparer, db: DB, nodes: seq<int>, key: Bytes, h: int, i: int, t: int) returns (ip: int)
    requires ValidComparer(cmp) && Valid(cmp, db, nodes) && 0 <= h <= TMaxHeight
    requires Recorded(cmp, db, nodes, key, h) && 0 <= i < TMaxHeight
    requires var b := NodeLB(cmp, db, nodes, key);
      AllNodesOK(db, nodes[..b]) && 0 <= t < |Tall(db, nodes[..b], i)|
    ensures var P := Tall(db, nodes[..NodeLB(cmp, db, nodes, key)], i);
      && RecordAt(nodes, P[t], ip) && i < db.nodeData[P[t] + NHeight]
      && (i < h ==> (db.prevNode[i] == P[t] <==> t == |P| - 1))
  {
    var b := NodeLB(cmp, db, nodes, key);
    var P := Tall(db, nodes[..b], i);
    ip := TallIndex(db, nodes[..b], i, t);
    assert nodes[..b][ip] == nodes[ip];
    if i < h {
      SortedDistinct(cmp, db, nodes);
      SliceDistinct(nodes, 0, b);
      assert nodes[0..b] == nodes[..b];
      TallDistinct(db, nodes[..b], i);
      assert db.prevNode[i] == P[|P| - 1];
    }
  }

  /** A node of level `i` at or after the key: where it is in `nodes`, and
      that it is never the recorded node of its level. */
  lemma SuffixNode(cmp: Comparer, db: DB, nodes: seq<int>, key: Bytes, h: int, i: int, s: int) returns (ip: int)
    requires ValidComparer(cmp) && Valid(cmp, db, nodes) && 0 <= h <= TMaxHeight
    requires Recorded(cmp, db, nodes, key, h) && 0 <= i < TMaxHeight
    requires var b := NodeLB(cmp, db, nodes, key);
      AllNodesOK(db, nodes[b..]) && 0 <= s < |Tall(db, nodes[b..], i)|
    ensures var S := Tall(db, nodes[NodeLB(cmp, db, nodes, key)..], i);
      && RecordAt(nodes, S[s], ip) && i < db.nodeData[S[s] + NHeight]
      && (i < h ==> db.prevNode[i] != S[s])
  {
    var b := NodeLB(cmp, db, nodes, key);
    TallSplit(cmp, db, nodes, key, i);
    var S := Tall(db, nodes[b..], i);
    var j := TallIndex(db, nodes[b..], i, s);
    assert nodes[b..][j] == nodes[b + j];
    ip := b + j;
    if i < h {
      var _ := PrevRecord(cmp, db, nodes, key, i);
      assert cmp(KeyOf(db, S[s]), key) >= 0;
    }
  }

  /** A link that the new table copied from the old one, read in the new
      level list. */
  lemma CarryMiddle(db: DB, db': DB, l: seq<int>, all: seq<int>, P: seq<int>, x: seq<int>, S: seq<int>, i: int, s: int)
    requires l == P + x + S && all == P + S && 0 <= s < |S|
    requires 0 <= S[s] + NNext + i < |db'.nodeData|
    requires db'.nodeData[S[s] + NNext + i] == NextIn(all, |P| + s)
    ensures |P| + |x| + s < |l| && Link(db', l[|P| + |x| + s], i) == NextIn(l, |P| + |x| + s)
  {
    NextInMiddle(P, x, S, s);
  }

  /** The same for a node before the new one. */
  lemma CarryFront(db: DB, db': DB, l: seq<int>, all: seq<int>, P: seq<int>, x: seq<int>, S: seq<int>, i: int, t: int)
    requires l == P + x + S && all == P + S && 0 <= t < |P|
    requires t + 1 < |P| || |x| == 0
    requires 0 <= P[t] + NNext + i < |db'.nodeData|
    requires db'.nodeData[P[t] + NNext + i] == NextIn(all, t)
    ensures t < |l| && Link(db', l[t], i) == NextIn(l, t)
  {
    NextInFront(P, x, S, t);
  }

  /** The head's link `i` after the insert, when the head was the
      recorded node of level `i`: it now points at the new node. */
  lemma HeadLinkMoved(cmp: Comparer, db: DB, nodes: seq<int>, key: Bytes, value: Bytes, h: int, db': DB, i: int)
    requires Inserted(cmp, db, nodes, key, value, h, db') && 0 <= i < h && db.prevNode[i] == 0
    requires AllNodesOK(db', NewNodes(cmp, db, nodes, key))
    ensures db'.nodeData[NNext + i] == First(Tall(db', NewNodes(cmp, db, nodes, key), i))
  {
    var b := NodeLB(cmp, db, nodes, key);
    InsertedTall(cmp, db, nodes, key, value, h, db', i);
    var P := Tall(db, nodes[..b], i);
    var S := Tall(db, nodes[b..], i);
    NextInNew(P, |db.nodeData|, S);
    LastIsHead(db, P);
    assert P == [];
    assert db'.nodeData[db.prevNode[i] + NNext + i] == |db.nodeData|;
  }

  /** The head's link `i` after the insert, otherwise: unchanged, and
      still the first node of the level. */
  lemma HeadLinkKept(cmp: Comparer, db: DB, nodes: seq<int>, key: Bytes, value: Bytes, h: int, db': DB, i: int)
    requires Inserted(cmp, db, nodes, key, value, h, db') && 0 <= i < TMaxHeight
    requires !(i < h && db.prevNode[i] == 0)
    requires AllNodesOK(db', NewNodes(cmp, db, nodes, key))
    ensures db'.nodeData[NNext + i] == First(Tall(db', NewNodes(cmp, db, nodes, key), i))
  {
    var b := NodeLB(cmp, db, nodes, key);
    InsertedTall(cmp, db, nodes, key, value, h, db', i);
    TallSplitEq(cmp, db, nodes, key, i);
    var P := Tall(db, nodes[..b], i);
    var S := Tall(db, nodes[b..], i);
    NextInNew(P, |db.nodeData|, S);
    LastIsHead(db, P);
    LinkAt(db, nodes, i, -1);
    LinkKept(cmp, db, nodes, key, value, h, db', 0, 0, i);
  }

  /** Link `i` of a node of level `i` before the key, other than the
      recorded one: the insert leaves it alone. */
  lemma PrefixKept(cmp: Comparer, db: DB, nodes: seq<int>, key: Bytes, value: Bytes, h: int, db': DB, i: int, t: int)
    requires Inserted(cmp, db, nodes, key, value, h, db') && 0 <= i < TMaxHeight
    requires var b := NodeLB(cmp, db, nodes, key);
      AllNodesOK(db, nodes[..b]) && 0 <= t < |Tall(db, nodes[..b], i)|
    requires i < h ==> t != |Tall(db, nodes[..NodeLB(cmp, db, nodes, key)], i)| - 1
    ensures var b := NodeLB(cmp, db, nodes, key);
      var P := Tall(db, nodes[..b], i);
      && AllNodesOK(db, nodes[b..]) && Tall(db, nodes, i) == P + Tall(db, nodes[b..], i)
      && 0 <= P[t] + NNext + i < |db'.nodeData|
      && db'.nodeData[P[t] + NNext + i] == NextIn(Tall(db, nodes, i), t)
  {
    var b := NodeLB(cmp, db, nodes, key);
    TallSplitEq(cmp, db, nodes, key, i);
    var P := Tall(db, nodes[..b], i);
    var ip := PrefixNode(cmp, db, nodes, key, h, i, t);
    assert Tall(db, nodes, i)[t] == P[t];
    NodeLinkAt(db, nodes, i, t);
    LinkKept(cmp, db, nodes, key, value, h, db', P[t], ip, i);
  }

  /** Link `i` of a node of the new level list `i`, for a node that came
      before the key. */
  lemma PrefixLinkInserted(cmp: Comparer, db: DB, nodes: seq<int>, key: Bytes, value: Bytes, h: int, db': DB, i: int, t: int)
    requires Inserted(cmp, db, nodes, key, value, h, db') && 0 <= i < TMaxHeight
    requires AllNodesOK(db', NewNodes(cmp, db, nodes, key))
    requires var b := NodeLB(cmp, db, nodes, key);
      AllNodesOK(db, nodes[..b]) && 0 <= t < |Tall(db, nodes[..b], i)|
    ensures var l := Tall(db', NewNodes(cmp, db, nodes, key), i);
      t < |l| && Link(db', l[t], i) == NextIn(l, t)
  {
    var b := NodeLB(cmp, db, nodes, key);
    InsertedTall(cmp, db, nodes, key, value, h, db', i);
    TallSplitEq(cmp, db, nodes, key, i);
    var P := Tall(db, nodes[..b], i);
    var S := Tall(db, nodes[b..], i);
    var x := if i < h then [|db.nodeData|] else [];
    NextInFront(P, x, S, t);
    if i < h && t == |P| - 1 {
      assert db.prevNode[i] == P[t];
      assert db'.nodeData[db.prevNode[i] + NNext + i] == |db.nodeData|;
    } else {
      PrefixKept(cmp, db, nodes, key, value, h, db', i, t);
      CarryFront(db, db', Tall(db', NewNodes(cmp, db, nodes, key), i), Tall(db, nodes, i), P, x, S, i, t);
    }
  }

  /** Link `i` of the new node: the first node of level `i` not below the key. */
  lemma NewLinkInserted(cmp: Comparer, db: DB, nodes: seq<int>, key: Bytes, value: Bytes, h: int, db': DB, i: int)
    requires Inserted(cmp, db, nodes, key, value, h, db') && 0 <= i < h
    requires AllNodesOK(db', NewNodes(cmp, db, nodes, key))
    ensures var b := NodeLB(cmp, db, nodes, key);
      var l := Tall(db', NewNodes(cmp, db, nodes, key), i);
      && AllNodesOK(db, nodes[..b])
      && |Tall(db, nodes[..b], i)| < |l|
      && Link(db', l[|Tall(db, nodes[..b], i)|], i) == NextIn(l, |Tall(db, nodes[..b], i)|)
  {
    var b := NodeLB(cmp, db, nodes, key);
    InsertedTall(cmp, db, nodes, key, value, h, db', i);
    PrevLink(cmp, db, nodes, key, i);
    NextInNew(Tall(db, nodes[..b], i), |db.nodeData|, Tall(db, nodes[b..], i));
  }

  /** Link `i` of a node of level `i` at or after the key: the insert
      leaves it alone. */
  lemma SuffixKept(cmp: Comparer, db: DB, nodes: seq<int>, key: Bytes, value: Bytes, h: int, db': DB, i: int, s: int)
    requires Inserted(cmp, db, nodes, key, value, h, db') && 0 <= i < TMaxHeight
    requires var b := NodeLB(cmp, db, nodes, key);
      AllNodesOK(db, nodes[b..]) && 0 <= s < |Tall(db, nodes[b..], i)|
    ensures var b := NodeLB(cmp, db, nodes, key);
      var S := Tall(db, nodes[b..], i);
      && AllNodesOK(db, nodes[..b]) && Tall(db, nodes, i) == Tall(db, nodes[..b], i) + S
      && 0 <= S[s] + NNext + i < |db'.nodeData|
      && db'.nodeData[S[s] + NNext + i] == NextIn(Tall(db, nodes, i), |Tall(db, nodes[..b], i)| + s)
  {
    var b := NodeLB(cmp, db, nodes, key);
    TallSplitEq(cmp, db, nodes, key, i);
    var P := Tall(db, nodes[..b], i);
    var S := Tall(db, nodes[b..], i);
    var ip := SuffixNode(cmp, db, nodes, key, h, i, s);
    assert Tall(db, nodes, i)[|P| + s] == S[s];
    NodeLinkAt(db, nodes, i, |P| + s);
    LinkKept(cmp, db, nodes, key, value, h, db', S[s], ip, i);
  }

  /** Link `i` of a node of the new level list `i` at or after the key. */
  lemma SuffixLinkInserted(cmp: Comparer, db: DB, nodes: seq<int>, key: Bytes, value: Bytes, h: int, db': DB, i: int, s: int)
    requires Inserted(cmp, db, nodes, key, value, h, db') && 0 <= i < TMaxHeight
    requires AllNodesOK(db', NewNodes(cmp, db, nodes, key))
    requires var b := NodeLB(cmp, db, nodes, key);
      AllNodesOK(db, nodes[b..]) && 0 <= s < |Tall(db, nodes[b..], i)|
    ensures var b := NodeLB(cmp, db, nodes, key);
      var l := Tall(db', NewNodes(cmp, db, nodes, key), i);
      var t := |Tall(db, nodes[..b], i)| + (if i < h then 1 else 0) + s;
      && AllNodesOK(db, nodes[..b])
      && t < |l| && Link(db', l[t], i) == NextIn(l, t)
  {
    var b := NodeLB(cmp, db, nodes, key);
    InsertedTall(cmp, db, nodes, key, value, h, db', i);
    TallSplitEq(cmp, db, nodes, key, i);
    var P := Tall(db, nodes[..b], i);
    var S := Tall(db, nodes[b..], i);
    var x := if i < h then [|db.nodeData|] else [];
    assert |x| == (if i < h then 1 else 0);
    SuffixKept(cmp, db, nodes, key, value, h, db', i, s);
    CarryMiddle(db, db', Tall(db', NewNodes(cmp, db, nodes, key), i), Tall(db, nodes, i), P, x, S, i, s);
  }

  /** Every link of the new table follows the new level lists. */
  lemma LinksInserted(cmp: Comparer, db: DB, nodes: seq<int>, key: Bytes, value: Bytes, h: int, db': DB)
    requires Inserted(cmp, db, nodes, key, value, h, db')
    requires HeadOK(db') && AllNodesOK(db', NewNodes(cmp, db, nodes, key))
    ensures Links(db', NewNodes(cmp, db, nodes, key))
  {
    var b := NodeLB(cmp, db, nodes, key);
    var l' := NewNodes(cmp, db, nodes, key);
    forall i | 0 <= i < TMaxHeight ensures db'.nodeData[NNext + i] == First(Tall(db', l', i)) {
      if i < h && db.prevNode[i] == 0 {
        HeadLinkMoved(cmp, db, nodes, key, value, h, db', i);
      } else {
        HeadLinkKept(cmp, db, nodes, key, value, h, db', i);
      }
    }
    forall i, t | 0 <= i < TMaxHeight && 0 <= t < |Tall(db', l', i)|
      ensures Link(db', Tall(db', l', i)[t], i) == NextIn(Tall(db', l', i), t)
    {
      InsertedTall(cmp, db, nodes, key, value, h, db', i);
      var np := |Tall(db, nodes[..b], i)|;
      var d := if i < h then 1 else 0;
      if t < np {
        PrefixLinkInserted(cmp, db, nodes, key, value, h, db', i, t);
      } else if t < np + d {
        NewLinkInserted(cmp, db, nodes, key, value, h, db', i);
      } else {
        SuffixLinkInserted(cmp, db, nodes, key, value, h, db', i, t - np - d);
      }
    }
  }
}

=== FILE: memdb_iter.dfy ===
/**
  The range-bounded iterator `dbIter_` over a valid store.

  An iterator reads the level-0 list through a window of the sorted
  contents: the entries at or above `Start` and below `Limit`. Because the
  contents are sorted, the window is the index range `[Lo, Hi)`, and every
  positioning call lands on a single index of it (or parks the iterator,
  with no key and no value). Each call is given the store as it is then:
  the store may change between calls, since `Put` and `Delete` may run
  while an iterator is open.
 */
module MemDbIter {
  import opened Order
  import opened Wrappers
  import opened SortedMap
  import opened MemDbLayout
  import opened MemDbLevels
  import MemDb

  /** `util.Range`; a `None` bound is Go's nil, meaning unbounded. */
  datatype Range = Range(start: Option<Bytes>, limit: Option<Bytes>)

  datatype IterError = ErrIterReleased

  /** `dbIter_`. `slice` is `None` for a nil range, `key` and `value` are
      `None` for Go's nil slices; the store `p` is passed to every call. */
  datatype Iter = Iter(
    slice: Option<Range>,
    node: int,
    forward: bool,
    key: Option<Bytes>,
    value: Option<Bytes>,
    err: Option<IterError>,
    released: bool)

  /** `k` is at or above the range's start. */
  predicate AtOrAboveStart(cmp: Comparer, slice: Option<Range>, k: Bytes) {
    !(slice.Some? && slice.value.start.Some? && cmp(k, slice.value.start.value) < 0)
  }

  /** `k` is below the range's limit. */
  predicate BelowLimit(cmp: Comparer, slice: Option<Range>, k: Bytes) {
    !(slice.Some? && slice.value.limit.Some? && cmp(k, slice.value.limit.value) >= 0)
  }

  /** The first index of the window. */
  function Lo(cmp: Comparer, es: seq<Entry>, slice: Option<Range>): nat {
    if slice.Some? && slice.value.start.Some? then LowerBound(cmp, es, slice.value.start.value) else 0
  }

  /** One past the last index of the window. */
  function Hi(cmp: Comparer, es: seq<Entry>, slice: Option<Range>): nat {
    if slice.Some? && slice.value.limit.Some? then LowerBound(cmp, es, slice.value.limit.value) else |es|
  }

  /** Position `p` of the level-0 list, or 0 (no node) off either end. */
  function NodeAt(nodes: seq<int>, p: int): int {
    if 0 <= p < |nodes| then nodes[p] else 0
  }

  /** The iterator is on no node and holds no key and no value. */
  predicate Parked(it: Iter) {
    it.node == 0 && it.key.None? && it.value.None?
  }

  /** The iterator is on the node at position `p` and holds its entry. */
  ghost predicate At(db: DB, nodes: seq<int>, it: Iter, p: int)
    requires AllNodesOK(db, nodes)
  {
    && 0 <= p < |nodes|
    && it.node == nodes[p]
    && it.key == Some(Entries(db, nodes)[p].key)
    && it.value == Some(Entries(db, nodes)[p].value)
  }

  /** The iterator invariant: parked, or on position `p` of the window. */
  ghost predicate IterOK(cmp: Comparer, db: DB, nodes: seq<int>, it: Iter, p: int)
    requires AllNodesOK(db, nodes)
  {
    var es := Entries(db, nodes);
    Parked(it) || (Lo(cmp, es, it.slice) <= p < Hi(cmp, es, it.slice) && At(db, nodes, it, p))
  }

  /** The outcome of a positioning call aimed at position `p`: it reports
      `true` exactly when `p` is in the window, and then sits on `p`;
      otherwise it is parked. */
  ghost predicate Landed(cmp: Comparer, db: DB, nodes: seq<int>, it: Iter, r: bool, p: int)
    requires AllNodesOK(db, nodes)
  {
    var es := Entries(db, nodes);
    && (r <==> Lo(cmp, es, it.slice) <= p < Hi(cmp, es, it.slice))
    && (r ==> At(db, nodes, it, p))
    && (!r ==> Parked(it))
  }

  /** Only the position and the direction changed. */
  predicate Moved(it: Iter, it': Iter, forward: bool) {
    it' == it.(node := it'.node, key := it'.key, value := it'.value, forward := forward)
  }

  /** An entry is below the start exactly when it comes before the window. */
  lemma StartWindow(cmp: Comparer, es: seq<Entry>, slice: Option<Range>, p: int)
    requires ValidComparer(cmp) && Sorted(cmp, es) && 0 <= p < |es|
    ensures AtOrAboveStart(cmp, slice, es[p].key) <==> Lo(cmp, es, slice) <= p
  {
    if slice.Some? && slice.value.start.Some? {
      LowerBoundBelow(cmp, es, slice.value.start.value);
      LowerBoundAbove(cmp, es, slice.value.start.value);
    }
  }

  /** An entry is below the limit exactly when it comes before the end of
      the window. */
  lemma LimitWindow(cmp: Comparer, es: seq<Entry>, slice: Option<Range>, p: int)
    requires ValidComparer(cmp) && Sorted(cmp, es) && 0 <= p < |es|
    ensures BelowLimit(cmp, slice, es[p].key) <==> p < Hi(cmp, es, slice)
  {
    if slice.Some? && slice.value.limit.Some? {
      LowerBoundBelow(cmp, es, slice.value.limit.value);
      LowerBoundAbove(cmp, es, slice.value.limit.value);
    }
  }

  /** The window is exactly the entries inside the range: an entry is in
      `[Start, Limit)` if and only if its index is in `[Lo, Hi)`. */
  lemma RangeWindow(cmp: Comparer, es: seq<Entry>, slice: Option<Range>)
    requires ValidComparer(cmp) && Sorted(cmp, es)
    ensures Hi(cmp, es, slice) <= |es|
    ensures forall p :: 0 <= p < |es| ==>
      (AtOrAboveStart(cmp, slice, es[p].key) && BelowLimit(cmp, slice, es[p].key) <==>
       Lo(cmp, es, slice) <= p < Hi(cmp, es, slice))
  {
    forall p | 0 <= p < |es|
      ensures AtOrAboveStart(cmp, slice, es[p].key) && BelowLimit(cmp, slice, es[p].key) <==>
        Lo(cmp, es, slice) <= p < Hi(cmp, es, slice)
    {
      StartWindow(cmp, es, slice, p);
      LimitWindow(cmp, es, slice, p);
    }
  }

  /** `NewIterator`: a fresh iterator is parked and satisfies the iterator
      invariant. */
  function NewIterator(slice: Option<Range>): (it: Iter)
    ensures Parked(it) && !it.released && it.err.None? && it.slice == slice
    ensures forall cmp, db, nodes, p :: AllNodesOK(db, nodes) ==> IterOK(cmp, db, nodes, it, p)
  {
    Iter(slice, 0, false, None, None, None, false)
  }

  /** `fill`: read the entry of the current node, dropping to no node when
      the key fails a bound that is checked. `p` is the position of the
      current node. */
  method Fill(it: Iter, db: DB, cmp: Comparer, checkStart: bool, checkLimit: bool, ghost nodes: seq<int>, ghost p: int)
    returns (it': Iter, r: bool)
    requires ValidComparer(cmp) && Valid(cmp, db, nodes) && it.node == NodeAt(nodes, p)
    ensures var es := Entries(db, nodes);
      (r <==> (0 <= p < |nodes|
        && (checkStart ==> Lo(cmp, es, it.slice) <= p)
        && (checkLimit ==> p < Hi(cmp, es, it.slice))))
    ensures r ==> At(db, nodes, it', p)
    ensures !r ==> Parked(it')
    ensures Moved(it, it', it.forward)
  {
    ghost var es := Entries(db, nodes);
    if it.node != 0 {
      LastIsHead(db, nodes);
      assert 0 <= p < |nodes| && NodeOK(db, nodes[p]);
      EntryAt(db, nodes, p);
      var n := db.nodeData[it.node + NKV];
      var m := n + db.nodeData[it.node + NKey];
      var key := db.kvData[n..m];
      if it.slice.Some? {
        var rng := it.slice.value;
        StartWindow(cmp, es, it.slice, p);
        LimitWindow(cmp, es, it.slice, p);
        if (checkLimit && rng.limit.Some? && cmp(key, rng.limit.value) >= 0)
          || (checkStart && rng.start.Some? && cmp(key, rng.start.value) < 0)
        {
          return it.(node := 0, key := None, value := None), false;
        }
      }
      var value := db.kvData[m..m + db.nodeData[it.node + NVal]];
      return it.(key := Some(key), value := Some(value)), true;
    }
    return it.(key := None, value := None), false;
  }

  /** Where `Seek(key)` aims: the lower bound of `key`, raised to the start
      of the range when `key` is below it. */
  ghost function SeekPos(cmp: Comparer, es: seq<Entry>, slice: Option<Range>, key: Bytes): nat {
    if slice.Some? && slice.value.start.Some? && cmp(key, slice.value.start.value) < 0
    then LowerBound(cmp, es, slice.value.start.value)
    else LowerBound(cmp, es, key)
  }

  /** A lower bound never decreases as the key grows. */
  lemma LowerBoundMono(cmp: Comparer, es: seq<Entry>, a: Bytes, b: Bytes)
    requires ValidComparer(cmp) && Sorted(cmp, es) && cmp(a, b) <= 0
    ensures LowerBound(cmp, es, a) <= LowerBound(cmp, es, b)
  {
    var la, lb := LowerBound(cmp, es, a), LowerBound(cmp, es, b);
    if lb < la {
      LowerBoundBelow(cmp, es, a);
      LowerBoundAbove(cmp, es, b);
      assert false;
    }
  }

  /** `Seek(key)` aims at the first entry of the window whose key is at
      least `key`: the aimed index is in or above the window's start, every
      window entry before it is below `key`, and the entry there (if any)
      is not. */
  lemma SeekCeiling(cmp: Comparer, es: seq<Entry>, slice: Option<Range>, key: Bytes)
    requires ValidComparer(cmp) && Sorted(cmp, es)
    ensures var p := SeekPos(cmp, es, slice, key);
      && Lo(cmp, es, slice) <= p <= |es|
      && (forall i :: Lo(cmp, es, slice) <= i < p ==> cmp(es[i].key, key) < 0)
      && (p < |es| ==> cmp(es[p].key, key) >= 0)
  {
    var p := SeekPos(cmp, es, slice, key);
    LowerBoundBelow(cmp, es, key);
    LowerBoundAbove(cmp, es, key);
    if slice.Some? && slice.value.start.Some? {
      var st := slice.value.start.value;
      if cmp(key, st) < 0 {
        LowerBoundMono(cmp, es, key, st);
        LowerBoundAbove(cmp, es, st);
        if p < |es| {
          assert cmp(es[p].key, st) >= 0;
        }
      } else {
        LowerBoundMono(cmp, es, st, key);
      }
    }
  }

  /** The level-0 list's first node, read from the head. */
  lemma HeadFirst(db: DB, nodes: seq<int>)
    requires HeadOK(db) && AllNodesOK(db, nodes) && Links(db, nodes)
    ensures 0 <= NNext < |db.nodeData| && db.nodeData[NNext] == NodeAt(nodes, 0)
  {
    LinkAt(db, nodes, 0, -1);
    TallZero(db, nodes);
  }

  /** `First`: move to the first entry of the window. */
  method First(it: Iter, db: DB, cmp: Comparer, ghost nodes: seq<int>) returns (it': Iter, r: bool)
    requires ValidComparer(cmp) && Valid(cmp, db, nodes)
    ensures it.released ==> !r && it' == it.(err := Some(ErrIterReleased))
    ensures !it.released ==>
      Moved(it, it', true) && Landed(cmp, db, nodes, it', r, Lo(cmp, Entries(db, nodes), it.slice))
  {
    if it.released {
      return it.(err := Some(ErrIterReleased)), false;
    }
    ghost var es := Entries(db, nodes);
    ghost var p := Lo(cmp, es, it.slice);
    var node;
    if it.slice.Some? && it.slice.value.start.Some? {
      var _, n, _ := MemDb.FindGE(db, cmp, it.slice.value.start.value, false, nodes);
      node := n;
    } else {
      HeadFirst(db, nodes);
      node := db.nodeData[NNext];
    }
    it', r := Fill(it.(forward := true, node := node), db, cmp, false, true, nodes, p);
  }

  /** `Last`: move to the last entry of the window. */
  method Last(it: Iter, db: DB, cmp: Comparer, ghost nodes: seq<int>) returns (it': Iter, r: bool)
    requires ValidComparer(cmp) && Valid(cmp, db, nodes)
    ensures it.released ==> !r && it' == it.(err := Some(ErrIterReleased))
    ensures !it.released ==>
      Moved(it, it', false) && Landed(cmp, db, nodes, it', r, Hi(cmp, Entries(db, nodes), it.slice) - 1)
  {
    if it.released {
      return it.(err := Some(ErrIterReleased)), false;
    }
    ghost var es := Entries(db, nodes);
    ghost var p := Hi(cmp, es, it.slice) - 1;
    var node;
    if it.slice.Some? && it.slice.value.limit.Some? {
      node := MemDb.FindLT(db, cmp, it.slice.value.limit.value, nodes);
    } else {
      node := MemDb.FindLast(db, nodes);
    }
    it', r := Fill(it.(forward := false, node := node), db, cmp, true, false, nodes, p);
  }

  /** `Seek`: move to the first entry of the window at or above `key`. */
  method Seek(it: Iter, db: DB, cmp: Comparer, key: Bytes, ghost nodes: seq<int>) returns (it': Iter, r: bool)
    requires ValidComparer(cmp) && Valid(cmp, db, nodes)
    ensures it.released ==> !r && it' == it.(err := Some(ErrIterReleased))
    ensures !it.released ==>
      Moved(it, it', true) && Landed(cmp, db, nodes, it', r, SeekPos(cmp, Entries(db, nodes), it.slice, key))
  {
    if it.released {
      return it.(err := Some(ErrIterReleased)), false;
    }
    ghost var es := Entries(db, nodes);
    ghost var p := SeekPos(cmp, es, it.slice, key);
    SeekCeiling(cmp, es, it.slice, key);
    var k := key;
    if it.slice.Some? && it.slice.value.start.Some? && cmp(key, it.slice.value.start.value) < 0 {
      k := it.slice.value.start.value;
    }
    var _, node, _ := MemDb.FindGE(db, cmp, k, false, nodes);
    it', r := Fill(it.(forward := true, node := node), db, cmp, false, true, nodes, p);
  }

  /** `Next`: from the node at position `j` of the level-0 list, move to
      position `j + 1`, which succeeds while that position is below the
      window's end; a parked iterator that was moving backward restarts at
      the first entry, one that was moving forward stays parked. Only the
      current node's link is read, so the store may have changed since the
      iterator reached that node, as long as the node is still linked. */
  method Next(it: Iter, db: DB, cmp: Comparer, ghost nodes: seq<int>, ghost j: int) returns (it': Iter, r: bool)
    requires ValidComparer(cmp) && Valid(cmp, db, nodes)
    requires !it.released && it.node != 0 ==> 0 <= j < |nodes| && it.node == nodes[j]
    ensures it.released ==> !r && it' == it.(err := Some(ErrIterReleased))
    ensures !it.released && it.node == 0 && it.forward ==> !r && it' == it
    ensures !it.released && it.node == 0 && !it.forward ==>
      Moved(it, it', true) && Landed(cmp, db, nodes, it', r, Lo(cmp, Entries(db, nodes), it.slice))
    ensures !it.released && it.node != 0 ==>
      && Moved(it, it', true)
      && (r <==> j + 1 < Hi(cmp, Entries(db, nodes), it.slice))
      && (r ==> At(db, nodes, it', j + 1))
      && (!r ==> Parked(it'))
    ensures !it.released && it.node != 0 && Lo(cmp, Entries(db, nodes), it.slice) <= j ==>
      Landed(cmp, db, nodes, it', r, j + 1)
  {
    if it.released {
      return it.(err := Some(ErrIterReleased)), false;
    }
    if it.node == 0 {
      if !it.forward {
        it', r := First(it, db, cmp, nodes);
        return;
      }
      return it, false;
    }
    TallZero(db, nodes);
    NodeLinkAt(db, nodes, 0, j);
    var node := db.nodeData[it.node + NNext];
    it', r := Fill(it.(forward := true, node := node), db, cmp, false, true, nodes, j + 1);
  }

  /** The key `Prev` searches below. The iterator holds a key whenever it is
      on a node; Go's nil key compares as the empty key. */
  function KeyOrEmpty(it: Iter): Bytes {
    if it.key.Some? then it.key.value else []
  }

  /** Where `Prev` aims, one below the lower bound of the current key, is
      below the window's end while the key is below the limit, and is the
      position before `j` when the iterator is on entry `j`. */
  lemma PrevTarget(cmp: Comparer, db: DB, nodes: seq<int>, it: Iter, j: int)
    requires ValidComparer(cmp) && Valid(cmp, db, nodes)
    ensures var es := Entries(db, nodes);
      BelowLimit(cmp, it.slice, KeyOrEmpty(it)) ==> LowerBound(cmp, es, KeyOrEmpty(it)) <= Hi(cmp, es, it.slice)
    ensures var es := Entries(db, nodes);
      it.node != 0 && IterOK(cmp, db, nodes, it, j) ==>
        LowerBound(cmp, es, KeyOrEmpty(it)) == j && Lo(cmp, es, it.slice) <= j < Hi(cmp, es, it.slice)
  {
    var es := Entries(db, nodes);
    var key := KeyOrEmpty(it);
    if it.slice.Some? && it.slice.value.limit.Some? && cmp(key, it.slice.value.limit.value) < 0 {
      LowerBoundMono(cmp, es, key, it.slice.value.limit.value);
    }
    if it.node != 0 && IterOK(cmp, db, nodes, it, j) {
      LowerBoundUnique(cmp, es, es[j].key, j);
    }
  }

  /** `Prev`: move to the last entry below the current key, which succeeds
      while that entry is at or above the window's start; a parked iterator
      that was moving forward restarts at the last entry, one that was
      moving backward stays parked. The list is searched again from the
      key, so the store may have changed since the iterator reached it. */
  method Prev(it: Iter, db: DB, cmp: Comparer, ghost nodes: seq<int>, ghost j: int) returns (it': Iter, r: bool)
    requires ValidComparer(cmp) && Valid(cmp, db, nodes)
    ensures it.released ==> !r && it' == it.(err := Some(ErrIterReleased))
    ensures !it.released && it.node == 0 && !it.forward ==> !r && it' == it
    ensures !it.released && it.node == 0 && it.forward ==>
      Moved(it, it', false) && Landed(cmp, db, nodes, it', r, Hi(cmp, Entries(db, nodes), it.slice) - 1)
    ensures !it.released && it.node != 0 ==>
      var es := Entries(db, nodes);
      var p := LowerBound(cmp, es, KeyOrEmpty(it)) - 1;
      && Moved(it, it', false)
      && (r <==> Lo(cmp, es, it.slice) <= p)
      && (r ==> At(db, nodes, it', p))
      && (!r ==> Parked(it'))
    ensures !it.released && it.node != 0 && BelowLimit(cmp, it.slice, KeyOrEmpty(it)) ==>
      Landed(cmp, db, nodes, it', r, LowerBound(cmp, Entries(db, nodes), KeyOrEmpty(it)) - 1)
    ensures !it.released && it.node != 0 && IterOK(cmp, db, nodes, it, j) ==>
      Landed(cmp, db, nodes, it', r, j - 1)
  {
    if it.released {
      return it.(err := Some(ErrIterReleased)), false;
    }
    if it.node == 0 {
      if it.forward {
        it', r := Last(it, db, cmp, nodes);
        return;
      }
      return it, false;
    }
    var key := KeyOrEmpty(it);
    PrevTarget(cmp, db, nodes, it, j);
    var node := MemDb.FindLT(db, cmp, key, nodes);
    it', r := Fill(it.(forward := false, node := node), db, cmp, true, false, nodes, LowerBound(cmp, Entries(db, nodes), key) - 1);
  }

  /** `Valid`: the iterator is on a node. When it is in a consistent state
      at `j`, that means it is on entry `j`, which is one of the window's. */
  function IsValid(it: Iter, ghost cmp: Comparer, ghost db: DB, ghost nodes: seq<int>, ghost j: int): (r: bool)
    requires AllNodesOK(db, nodes)
    ensures r <==> it.node != 0
    ensures IterOK(cmp, db, nodes, it, j) ==>
      var es := Entries(db, nodes);
      (r <==> Lo(cmp, es, it.slice) <= j < Hi(cmp, es, it.slice) && At(db, nodes, it, j))
  {
    it.node != 0
  }

  /** `Release`: the first release parks the iterator and marks it
      released; releasing again changes nothing. */
  function Release(it: Iter): (it': Iter)
    ensures it'.released
    ensures it' == it.(node := it'.node, key := it'.key, value := it'.value, released := true)
    ensures !it.released ==> Parked(it')
    ensures it.released ==> it' == it
  {
    if it.released then it else it.(node := 0, key := None, value := None, released := true)
  }

  /** The entries an iterator over `slice` can reach, in order. */
  ghost function Window(cmp: Comparer, es: seq<Entry>, slice: Option<Range>): seq<Entry> {
    var lo, hi := Lo(cmp, es, slice), Hi(cmp, es, slice);
    if lo < hi then es[lo..hi] else []
  }

  /** A slice of a sorted list is sorted. */
  lemma SliceSorted(cmp: Comparer, es: seq<Entry>, lo: int, hi: int)
    requires Sorted(cmp, es) && 0 <= lo <= hi <= |es|
    ensures Sorted(cmp, es[lo..hi])
  {
    forall i, j | 0 <= i < j < hi - lo
      ensures cmp(es[lo..hi][i].key, es[lo..hi][j].key) < 0
    {
      assert es[lo..hi][i] == es[lo + i] && es[lo..hi][j] == es[lo + j];
    }
  }

  /** The window holds exactly the entries whose keys are in the range, in
      increasing key order. */
  lemma WindowIsRange(cmp: Comparer, es: seq<Entry>, slice: Option<Range>)
    requires ValidComparer(cmp) && Sorted(cmp, es)
    ensures Sorted(cmp, Window(cmp, es, slice))
    ensures forall e :: e in Window(cmp, es, slice) <==>
      e in es && AtOrAboveStart(cmp, slice, e.key) && BelowLimit(cmp, slice, e.key)
  {
    WindowComplete(cmp, es, slice);
    WindowSound(cmp, es, slice);
  }

  /** Every entry whose key is in the range is in the window. */
  lemma WindowComplete(cmp: Comparer, es: seq<Entry>, slice: Option<Range>)
    requires ValidComparer(cmp) && Sorted(cmp, es)
    ensures forall e :: e in es && AtOrAboveStart(cmp, slice, e.key) && BelowLimit(cmp, slice, e.key) ==>
      e in Window(cmp, es, slice)
  {
    forall e | e in es && AtOrAboveStart(cmp, slice, e.key) && BelowLimit(cmp, slice, e.key)
      ensures e in Window(cmp, es, slice)
    {
      var i :| 0 <= i < |es| && es[i] == e;
      InWindow(cmp, es, slice, i);
    }
  }

  /** The window is sorted and holds only entries whose keys are in the
      range. */
  lemma WindowSound(cmp: Comparer, es: seq<Entry>, slice: Option<Range>)
    requires ValidComparer(cmp) && Sorted(cmp, es)
    ensures Sorted(cmp, Window(cmp, es, slice))
    ensures forall e :: e in Window(cmp, es, slice) ==>
      e in es && AtOrAboveStart(cmp, slice, e.key) && BelowLimit(cmp, slice, e.key)
  {
    var lo, hi := Lo(cmp, es, slice), Hi(cmp, es, slice);
    if lo < hi {
      var w := es[lo..hi];
      assert Window(cmp, es, slice) == w;
      SliceSorted(cmp, es, lo, hi);
      forall e | e in w
        ensures e in es && AtOrAboveStart(cmp, slice, e.key) && BelowLimit(cmp, slice, e.key)
      {
        var i :| 0 <= i < |w| && w[i] == e;
        InWindow(cmp, es, slice, lo + i);
      }
    }
  }


  /** Entry `p` is in the range exactly when it is in the window, and then
      it is the window's entry `p - Lo`. */
  lemma InWindow(cmp: Comparer, es: seq<Entry>, slice: Option<Range>, p: int)
    requires ValidComparer(cmp) && Sorted(cmp, es) && 0 <= p < |es|
    ensures var lo, hi := Lo(cmp, es, slice), Hi(cmp, es, slice);
      && (AtOrAboveStart(cmp, slice, es[p].key) && BelowLimit(cmp, slice, es[p].key) <==> lo <= p < hi)
      && (lo <= p < hi ==> Window(cmp, es, slice)[p - lo] == es[p] && es[p] in Window(cmp, es, slice))
  {
    StartWindow(cmp, es, slice, p);
    LimitWindow(cmp, es, slice, p);
  }

  /** Growing a slice by one element at its end. */
  lemma SliceSnoc<T>(s: seq<T>, lo: int, j: int)
    requires 0 <= lo <= j < |s|
    ensures s[lo..j + 1] == s[lo..j] + [s[j]]
  {
  }

  /** A pass that stopped at `j` has collected the window. */
  lemma WindowEnd(cmp: Comparer, es: seq<Entry>, slice: Option<Range>, j: int)
    requires var lo, hi := Lo(cmp, es, slice), Hi(cmp, es, slice);
      lo <= j && (lo < hi ==> j == hi) && (lo >= hi ==> j == lo)
    ensures j <= |es| && es[Lo(cmp, es, slice)..j] == Window(cmp, es, slice)
  {
  }

  /** An iterator on an entry is on a real node, not the head. */
  lemma AtNode(db: DB, nodes: seq<int>, it: Iter, p: int)
    requires AllNodesOK(db, nodes) && At(db, nodes, it, p)
    ensures it.node != 0 && it.key.Some? && it.value.Some?
    ensures Entry(it.key.value, it.value.value) == Entries(db, nodes)[p]
  {
    assert NodeOK(db, nodes[p]);
  }

  /** A full forward pass, `First` and then `Next` until it reports false,
      visits exactly the window, in order, and ends parked. */
  method Scan(it: Iter, db: DB, cmp: Comparer, ghost nodes: seq<int>) returns (it': Iter, out: seq<Entry>)
    requires ValidComparer(cmp) && Valid(cmp, db, nodes) && !it.released
    ensures out == Window(cmp, Entries(db, nodes), it.slice)
    ensures Parked(it') && it'.slice == it.slice && it'.err == it.err
  {
    ghost var es := Entries(db, nodes);
    ghost var lo, hi := Lo(cmp, es, it.slice), Hi(cmp, es, it.slice);
    var r;
    it', r := First(it, db, cmp, nodes);
    out := [];
    ghost var j := lo;
    while r
      invariant Moved(it, it', true) && Landed(cmp, db, nodes, it', r, j)
      invariant lo <= j && (lo < hi ==> j <= hi) && (lo >= hi ==> j == lo)
      invariant out == es[lo..j]
      decreases hi - j
    {
      AtNode(db, nodes, it', j);
      assert IterOK(cmp, db, nodes, it', j);
      SliceSnoc(es, lo, j);
      out := out + [Entry(it'.key.value, it'.value.value)];
      ghost var prev := it';
      it', r := Next(it', db, cmp, nodes, j);
      assert Moved(prev, it', true) && Landed(cmp, db, nodes, it', r, j + 1);
      j := j + 1;
    }
    WindowEnd(cmp, es, it.slice, j);
  }
}

=== FILE: memdb_layout.dfy ===
/**
  Layout of the skip-list memtable `DB_` and its representation invariant.

  Keys and values live back to back in the append-only arena `kvData`.
  Every node is a run of integers in the flat table `nodeData`:

      [kvOffset, keyLen, valLen, height, next[0], ..., next[height-1]]

  Node 0 is the head sentinel with height `TMaxHeight`, and a link value 0
  means "no next node". The invariant is stated against a ghost list `nodes`, the nodes linked
  at level 0 in order; the level-`i` list is the sublist of nodes taller
  than `i`.
 */
module MemDbLayout {
  import opened Order
  import opened SortedMap

  /** Maximum tower height: goleveldb's `tMaxHeight`, 12. */
  const TMaxHeight: int := 12

  /** Field offsets inside a node. */
  const NKV: int := 0
  const NKey: int := 1
  const NVal: int := 2
  const NHeight: int := 3
  const NNext: int := 4

  /** Size of the head node: four fields plus `TMaxHeight` links. */
  const HeadSize: int := NNext + TMaxHeight

  /** The store. `rngPos` counts the draws taken from the seeded random
      stream; `prevNode` is the scratch array filled by write-mode searches. */
  datatype DB = DB(
    kvData: Bytes,
    nodeData: seq<int>,
    prevNode: seq<int>,
    maxHeight: int,
    n: int,
    kvSize: int,
    rngPos: nat)

  /** The key/value fields of the node at `p` describe bytes inside the arena. */
  predicate KVInBounds(db: DB, p: int) {
    && 0 <= p && p + NNext <= |db.nodeData|
    && 0 <= db.nodeData[p + NKV] && 0 <= db.nodeData[p + NKey] && 0 <= db.nodeData[p + NVal]
    && db.nodeData[p + NKV] + db.nodeData[p + NKey] + db.nodeData[p + NVal] <= |db.kvData|
  }

  function KeyOf(db: DB, p: int): Bytes
    requires KVInBounds(db, p)
  {
    db.kvData[db.nodeData[p + NKV]..db.nodeData[p + NKV] + db.nodeData[p + NKey]]
  }

  function ValueOf(db: DB, p: int): Bytes
    requires KVInBounds(db, p)
  {
    var m := db.nodeData[p + NKV] + db.nodeData[p + NKey];
    db.kvData[m..m + db.nodeData[p + NVal]]
  }

  /** A live node: past the head, fields in bounds, height in `[1, maxHeight]`, links in the table. */
  ghost predicate NodeOK(db: DB, p: int) {
    && HeadSize <= p
    && p + NNext <= |db.nodeData|
    && KVInBounds(db, p)
    && 1 <= db.nodeData[p + NHeight] <= db.maxHeight
    && p + NNext + db.nodeData[p + NHeight] <= |db.nodeData|
  }

  ghost predicate HeadOK(db: DB) {
    && HeadSize <= |db.nodeData|
    && db.nodeData[NHeight] == TMaxHeight
    && 1 <= db.maxHeight <= TMaxHeight
    && |db.prevNode| == TMaxHeight
  }

  /** First node of a level list, or 0. */
  function First(l: seq<int>): int {
    if |l| == 0 then 0 else l[0]
  }

  /** Successor of position `t` in a level list, or 0. */
  function NextIn(l: seq<int>, t: int): int
    requires 0 <= t < |l|
  {
    if t + 1 < |l| then l[t + 1] else 0
  }

  /** The abstract key/value pairs of a list of nodes. */
  ghost function Entries(db: DB, l: seq<int>): (es: seq<Entry>)
    requires forall j :: 0 <= j < |l| ==> KVInBounds(db, l[j])
    ensures |es| == |l|
  {
    seq(|l|, j requires 0 <= j < |l| => Entry(KeyOf(db, l[j]), ValueOf(db, l[j])))
  }

  ghost predicate AllNodesOK(db: DB, l: seq<int>) {
    forall j :: 0 <= j < |l| ==> NodeOK(db, l[j])
  }

  ghost function TallRec(db: DB, l: seq<int>, i: int): seq<int>
    requires AllNodesOK(db, l)
  {
    if |l| == 0 then []
    else
      assert AllNodesOK(db, l[1..]) by {
        forall j | 0 <= j < |l| - 1 ensures NodeOK(db, l[1..][j]) {
          assert l[1..][j] == l[j + 1];
        }
      }
      (if db.nodeData[l[0] + NHeight] > i then [l[0]] else []) + TallRec(db, l[1..], i)
  }

  lemma {:induction false} TallRecFacts(db: DB, l: seq<int>, i: int)
    requires AllNodesOK(db, l)
    ensures AllNodesOK(db, TallRec(db, l, i)) && |TallRec(db, l, i)| <= |l|
    ensures forall t :: 0 <= t < |TallRec(db, l, i)| ==> db.nodeData[TallRec(db, l, i)[t] + NHeight] > i
  {
    if |l| > 0 {
      assert AllNodesOK(db, l[1..]) by {
        forall j | 0 <= j < |l| - 1 ensures NodeOK(db, l[1..][j]) {
          assert l[1..][j] == l[j + 1];
        }
      }
      TallRecFacts(db, l[1..], i);
      var x := if db.nodeData[l[0] + NHeight] > i then [l[0]] else [];
      assert TallRec(db, l, i) == x + TallRec(db, l[1..], i);
    }
  }

  ghost function Tall(db: DB, l: seq<int>, i: int): (r: seq<int>)
    requires AllNodesOK(db, l)
    ensures AllNodesOK(db, r) && |r| <= |l|
    ensures forall t :: 0 <= t < |r| ==> db.nodeData[r[t] + NHeight] > i
  {
    TallRecFacts(db, l, i);
    TallRec(db, l, i)
  }

  /** Node records never overlap. */
  ghost predicate Disjoint(db: DB, l: seq<int>)
    requires AllNodesOK(db, l)
  {
    forall j, k :: 0 <= j < |l| && 0 <= k < |l| && l[j] < l[k] ==>
      l[j] + NNext + db.nodeData[l[j] + NHeight] <= l[k]
  }

  /** Link `i` of the record at `p` (0 outside the table). */
  function Link(db: DB, p: int, i: int): int {
    if 0 <= p + NNext + i < |db.nodeData| then db.nodeData[p + NNext + i] else 0
  }

  /** The head's and every node's `next[i]` follow the level-`i` list. The
      second quantifier fires on `Link` terms only, so that following a
      link does not by itself instantiate the next one. */
  ghost predicate Links(db: DB, nodes: seq<int>)
    requires HeadOK(db) && AllNodesOK(db, nodes)
  {
    && (forall i :: 0 <= i < TMaxHeight ==> db.nodeData[NNext + i] == First(Tall(db, nodes, i)))
    && (forall i, t {:trigger Link(db, Tall(db, nodes, i)[t], i)} ::
          0 <= i < TMaxHeight && 0 <= t < |Tall(db, nodes, i)| ==>
          Link(db, Tall(db, nodes, i)[t], i) == NextIn(Tall(db, nodes, i), t))
  }

  /** The part of the invariant a search relies on: the level-0 list is
      sorted and every level's links follow it. */
  ghost predicate Searchable(cmp: Comparer, db: DB, nodes: seq<int>) {
    && HeadOK(db)
    && AllNodesOK(db, nodes)
    && Sorted(cmp, Entries(db, nodes))
    && Links(db, nodes)
  }

  /** The representation invariant, for the level-0 list `nodes`. */
  ghost predicate Valid(cmp: Comparer, db: DB, nodes: seq<int>) {
    && Searchable(cmp, db, nodes)
    && Disjoint(db, nodes)
    && db.n == |nodes|
    && db.kvSize == TotalSize(Entries(db, nodes))
  }

  /** The abstract sorted map held by a valid store. */
  ghost function Contents(cmp: Comparer, db: DB, nodes: seq<int>): seq<Entry>
    requires AllNodesOK(db, nodes)
  {
    Entries(db, nodes)
  }

  /** Position of the first live entry at or above `key`. */
  ghost function NodeLB(cmp: Comparer, db: DB, nodes: seq<int>, key: Bytes): (b: nat)
    requires AllNodesOK(db, nodes)
    ensures b <= |nodes|
  {
    LowerBound(cmp, Entries(db, nodes), key)
  }

  /** Last element of a list, or 0 (the head) when empty. */
  function Last(l: seq<int>): int {
    if |l| == 0 then 0 else l[|l| - 1]
  }

  /** What a write-mode search records for level `i`: the last node there
      whose key is below `key`, or the head. */
  ghost function PrevAt(cmp: Comparer, db: DB, nodes: seq<int>, key: Bytes, i: int): int
    requires AllNodesOK(db, nodes)
  {
    var b := NodeLB(cmp, db, nodes, key);
    assert AllNodesOK(db, nodes[..b]) by {
      forall j | 0 <= j < b ensures NodeOK(db, nodes[..b][j]) {
        assert nodes[..b][j] == nodes[j];
      }
    }
    Last(Tall(db, nodes[..b], i))
  }
}

=== FILE: memdb_levels.dfy ===
/**
  Facts about the level lists of the skip list: the level-`i` list is the
  sublist of level-0 nodes taller than `i` (`Tall`), and a search that
  stops between two neighbours of a level has found the level's split
  point for the searched key.
 */
module MemDbLevels {
  import opened Order
  import opened SortedMap
  import opened MemDbLayout

  lemma SliceNodesOK(db: DB, l: seq<int>, a: int, b: int)
    requires AllNodesOK(db, l) && 0 <= a <= b <= |l|
    ensures AllNodesOK(db, l[a..b])
  {
    forall j | 0 <= j < b - a ensures NodeOK(db, l[a..b][j]) {
      assert l[a..b][j] == l[a + j];
    }
  }

  /** Every position of a level list comes from a position at or after it in `l`. */
  lemma {:induction false} TallIndex(db: DB, l: seq<int>, i: int, t: int) returns (j: int)
    requires AllNodesOK(db, l) && 0 <= t < |Tall(db, l, i)|
    ensures t <= j < |l| && l[j] == Tall(db, l, i)[t]
  {
    SliceNodesOK(db, l, 1, |l|);
    var x := if db.nodeData[l[0] + NHeight] > i then [l[0]] else [];
    assert Tall(db, l, i) == x + Tall(db, l[1..], i);
    if |x| == 1 && t == 0 {
      j := 0;
    } else {
      var j' := TallIndex(db, l[1..], i, t - |x|);
      j := j' + 1;
    }
  }

  /** Every node of `l` taller than `i` is listed at level `i`. */
  lemma {:induction false} TallContains(db: DB, l: seq<int>, i: int, j: int) returns (t: int)
    requires AllNodesOK(db, l) && 0 <= j < |l| && db.nodeData[l[j] + NHeight] > i
    ensures 0 <= t <= j && t < |Tall(db, l, i)| && Tall(db, l, i)[t] == l[j]
  {
    SliceNodesOK(db, l, 1, |l|);
    var x := if db.nodeData[l[0] + NHeight] > i then [l[0]] else [];
    assert Tall(db, l, i) == x + Tall(db, l[1..], i);
    if j == 0 {
      t := 0;
    } else {
      assert l[1..][j - 1] == l[j];
      var t' := TallContains(db, l[1..], i, j - 1);
      t := t' + |x|;
    }
  }

  lemma AppendNodesOK(db: DB, a: seq<int>, b: seq<int>)
    requires AllNodesOK(db, a) && AllNodesOK(db, b)
    ensures AllNodesOK(db, a + b)
  {
    forall j | 0 <= j < |a + b| ensures NodeOK(db, (a + b)[j]) {
      if j < |a| {
        assert (a + b)[j] == a[j];
      } else {
        assert (a + b)[j] == b[j - |a|];
      }
    }
  }

  /** Filtering distributes over concatenation. */
  lemma {:induction false} TallAppend(db: DB, a: seq<int>, b: seq<int>, i: int)
    requires AllNodesOK(db, a) && AllNodesOK(db, b)
    ensures AllNodesOK(db, a + b)
    ensures Tall(db, a + b, i) == Tall(db, a, i) + Tall(db, b, i)
  {
    AppendNodesOK(db, a, b);
    if |a| > 0 {
      SliceNodesOK(db, a, 1, |a|);
      assert (a + b)[1..] == a[1..] + b;
      assert (a + b)[0] == a[0];
      TallAppend(db, a[1..], b, i);
      var x := if db.nodeData[a[0] + NHeight] > i then [a[0]] else [];
      calc {
        Tall(db, a + b, i);
        x + Tall(db, a[1..] + b, i);
        x + (Tall(db, a[1..], i) + Tall(db, b, i));
        (x + Tall(db, a[1..], i)) + Tall(db, b, i);
        Tall(db, a, i) + Tall(db, b, i);
      }
    } else {
      assert a + b == b;
    }
  }

  /** Every live node has height at least 1, so level 0 lists them all. */
  lemma {:induction false} TallZero(db: DB, l: seq<int>)
    requires AllNodesOK(db, l)
    ensures Tall(db, l, 0) == l
  {
    if |l| > 0 {
      SliceNodesOK(db, l, 1, |l|);
      TallZero(db, l[1..]);
    }
  }

  /** Level lists only depend on the heights of their nodes. */
  lemma {:induction false} TallFrame(db: DB, db': DB, l: seq<int>, i: int)
    requires AllNodesOK(db, l) && AllNodesOK(db', l)
    requires forall j :: 0 <= j < |l| ==> db'.nodeData[l[j] + NHeight] == db.nodeData[l[j] + NHeight]
    ensures Tall(db', l, i) == Tall(db, l, i)
  {
    if |l| > 0 {
      SliceNodesOK(db, l, 1, |l|);
      SliceNodesOK(db', l, 1, |l|);
      TallFrame(db, db', l[1..], i);
    }
  }

  /** Entries of a node list read the node's key and value. */
  lemma EntryAt(db: DB, l: seq<int>, j: int)
    requires AllNodesOK(db, l) && 0 <= j < |l|
    ensures Entries(db, l)[j] == Entry(KeyOf(db, l[j]), ValueOf(db, l[j]))
  {
  }

  /** Level `h` is the level list of the nodes before the lower bound
      followed by that of the rest. */
  lemma TallSplitEq(cmp: Comparer, db: DB, nodes: seq<int>, key: Bytes, h: int)
    requires AllNodesOK(db, nodes)
    ensures var b := NodeLB(cmp, db, nodes, key);
      && AllNodesOK(db, nodes[..b]) && AllNodesOK(db, nodes[b..])
      && Tall(db, nodes, h) == Tall(db, nodes[..b], h) + Tall(db, nodes[b..], h)
  {
    var b := NodeLB(cmp, db, nodes, key);
    SliceNodesOK(db, nodes, 0, b);
    SliceNodesOK(db, nodes, b, |nodes|);
    assert nodes == nodes[..b] + nodes[b..];
    TallAppend(db, nodes[..b], nodes[b..], h);
  }

  /** Level `h` splits at the key's level-0 lower bound `b`: the nodes
      taken from before `b` are below the key and the rest are not. */
  lemma TallSplit(cmp: Comparer, db: DB, nodes: seq<int>, key: Bytes, h: int)
    requires ValidComparer(cmp) && AllNodesOK(db, nodes) && Sorted(cmp, Entries(db, nodes))
    ensures var b := NodeLB(cmp, db, nodes, key);
      && AllNodesOK(db, nodes[..b]) && AllNodesOK(db, nodes[b..])
      && Tall(db, nodes, h) == Tall(db, nodes[..b], h) + Tall(db, nodes[b..], h)
      && (forall q :: 0 <= q < |Tall(db, nodes[..b], h)| ==>
            cmp(KeyOf(db, Tall(db, nodes[..b], h)[q]), key) < 0)
      && (forall q :: 0 <= q < |Tall(db, nodes[b..], h)| ==>
            cmp(KeyOf(db, Tall(db, nodes[b..], h)[q]), key) >= 0)
  {
    var b := NodeLB(cmp, db, nodes, key);
    var es := Entries(db, nodes);
    TallSplitEq(cmp, db, nodes, key, h);
    LowerBoundBelow(cmp, es, key);
    LowerBoundAbove(cmp, es, key);
    var p := Tall(db, nodes[..b], h);
    var s := Tall(db, nodes[b..], h);
    forall q | 0 <= q < |p| ensures cmp(KeyOf(db, p[q]), key) < 0 {
      var j := TallIndex(db, nodes[..b], h, q);
      assert nodes[..b][j] == nodes[j];
      EntryAt(db, nodes, j);
    }
    forall q | 0 <= q < |s| ensures cmp(KeyOf(db, s[q]), key) >= 0 {
      var j := TallIndex(db, nodes[b..], h, q);
      assert nodes[b..][j] == nodes[b + j];
      EntryAt(db, nodes, b + j);
    }
  }

  /** A search at level `h` that stops after position `t` (or at the head,
      `t == -1`) because the next node is not below `key` has found what a
      write-mode search must record for that level. */
  lemma SplitPoint(cmp: Comparer, db: DB, nodes: seq<int>, key: Bytes, h: int, t: int)
    requires ValidComparer(cmp) && AllNodesOK(db, nodes) && Sorted(cmp, Entries(db, nodes))
    requires -1 <= t < |Tall(db, nodes, h)|
    requires t >= 0 ==> cmp(KeyOf(db, Tall(db, nodes, h)[t]), key) < 0
    requires t + 1 < |Tall(db, nodes, h)| ==> cmp(KeyOf(db, Tall(db, nodes, h)[t + 1]), key) >= 0
    ensures PrevAt(cmp, db, nodes, key, h) == (if t < 0 then 0 else Tall(db, nodes, h)[t])
    ensures var b := NodeLB(cmp, db, nodes, key);
      t + 1 == |Tall(db, nodes[..b], h)|
  {
    var b := NodeLB(cmp, db, nodes, key);
    TallSplit(cmp, db, nodes, key, h);
    var all := Tall(db, nodes, h);
    var p := Tall(db, nodes[..b], h);
    var s := Tall(db, nodes[b..], h);
    forall q | |p| <= q < |all| ensures cmp(KeyOf(db, all[q]), key) >= 0 {
      assert all[q] == s[q - |p|];
    }
    forall q | 0 <= q < |p| ensures cmp(KeyOf(db, all[q]), key) < 0 {
      assert all[q] == p[q];
    }
  }

  /** A node of any level that holds exactly `key` is the level-0 node at
      the key's lower bound. */
  lemma ExactPoint(cmp: Comparer, db: DB, nodes: seq<int>, key: Bytes, h: int, t: int)
    requires ValidComparer(cmp) && AllNodesOK(db, nodes) && Sorted(cmp, Entries(db, nodes))
    requires 0 <= t < |Tall(db, nodes, h)| && KeyOf(db, Tall(db, nodes, h)[t]) == key
    ensures var b := NodeLB(cmp, db, nodes, key);
      b < |nodes| && nodes[b] == Tall(db, nodes, h)[t] && Entries(db, nodes)[b].key == key
  {
    var j := TallIndex(db, nodes, h, t);
    var es := Entries(db, nodes);
    EntryAt(db, nodes, j);
    if j > 0 {
      assert cmp(es[j - 1].key, es[j].key) < 0;
    }
    LowerBoundUnique(cmp, es, key, j);
  }

  /** A node listed at level `h` is listed at level `h - 1`; the head
      (position -1) stays the head. */
  lemma Descend(db: DB, nodes: seq<int>, h: int, t: int) returns (t': int)
    requires AllNodesOK(db, nodes) && 0 < h && -1 <= t < |Tall(db, nodes, h)|
    ensures -1 <= t' < |Tall(db, nodes, h - 1)| && (t' < 0 <==> t < 0)
    ensures t >= 0 ==> Tall(db, nodes, h - 1)[t'] == Tall(db, nodes, h)[t]
  {
    if t < 0 {
      t' := -1;
    } else {
      var j := TallIndex(db, nodes, h, t);
      t' := TallContains(db, nodes, h - 1, j);
    }
  }

  /** In a valid store the link `h` of a level-`h` node (or of the head,
      `t == -1`) is its successor in the level list. */
  lemma LinkAt(db: DB, nodes: seq<int>, h: int, t: int)
    requires HeadOK(db) && AllNodesOK(db, nodes) && Links(db, nodes)
    requires 0 <= h < TMaxHeight && -1 <= t < |Tall(db, nodes, h)|
    ensures var l := Tall(db, nodes, h);
      var node := if t < 0 then 0 else l[t];
      && 0 <= node + NNext + h < |db.nodeData|
      && db.nodeData[node + NNext + h] == (if t < 0 then First(l) else NextIn(l, t))
      && (t + 1 < |l| ==> NodeOK(db, l[t + 1]))
  {
    if t >= 0 {
      assert Link(db, Tall(db, nodes, h)[t], h) == NextIn(Tall(db, nodes, h), t);
    }
  }

  /** Positions after a middle part `x`: inserting or dropping `x` keeps
      the node and its successor. */
  lemma NextInMiddle(P: seq<int>, x: seq<int>, S: seq<int>, s: int)
    requires 0 <= s < |S|
    ensures (P + x + S)[|P| + |x| + s] == S[s] && (P + S)[|P| + s] == S[s]
    ensures NextIn(P + x + S, |P| + |x| + s) == NextIn(P + S, |P| + s)
  {
    if s + 1 < |S| {
      assert (P + x + S)[|P| + |x| + s + 1] == S[s + 1] && (P + S)[|P| + s + 1] == S[s + 1];
    }
  }

  /** Positions before a middle part `x`: only the last one sees `x`. */
  lemma NextInFront(P: seq<int>, x: seq<int>, S: seq<int>, t: int)
    requires 0 <= t < |P|
    ensures (P + x + S)[t] == P[t] && (P + S)[t] == P[t]
    ensures t + 1 < |P| || |x| == 0 ==> NextIn(P + x + S, t) == NextIn(P + S, t)
    ensures t + 1 == |P| && |x| > 0 ==> NextIn(P + x + S, t) == x[0]
  {
    if t + 1 < |P| {
      assert (P + x + S)[t + 1] == P[t + 1] && (P + S)[t + 1] == P[t + 1];
    } else if |x| == 0 && |S| > 0 {
      assert (P + x + S)[t + 1] == S[0] && (P + S)[t + 1] == S[0];
    } else if |x| > 0 {
      assert (P + x + S)[t + 1] == x[0];
    }
  }

  /** A single node between `P` and `S` is followed by the first of `S`. */
  lemma NextInNew(P: seq<int>, X: int, S: seq<int>)
    ensures (P + [X] + S)[|P|] == X && NextIn(P + [X] + S, |P|) == First(S)
    ensures First(P + [X] + S) == if |P| == 0 then X else P[0]
    ensures First(P + S) == if |P| == 0 then First(S) else P[0]
  {
    if |S| > 0 {
      assert (P + [X] + S)[|P| + 1] == S[0];
    }
  }

  /** Live nodes are never the head, so a level list ends at the head
      exactly when it is empty. */
  lemma LastIsHead(db: DB, l: seq<int>)
    requires AllNodesOK(db, l)
    ensures Last(l) == 0 <==> |l| == 0
    ensures First(l) == 0 <==> |l| == 0
  {
    if |l| > 0 {
      assert NodeOK(db, l[|l| - 1]) && NodeOK(db, l[0]);
    }
  }

  /** `LinkAt` for a node (not the head) of level `h`. */
  lemma NodeLinkAt(db: DB, nodes: seq<int>, h: int, t: int)
    requires HeadOK(db) && AllNodesOK(db, nodes) && Links(db, nodes)
    requires 0 <= h < TMaxHeight && 0 <= t < |Tall(db, nodes, h)|
    ensures 0 <= Tall(db, nodes, h)[t] + NNext + h < |db.nodeData|
    ensures db.nodeData[Tall(db, nodes, h)[t] + NNext + h] == NextIn(Tall(db, nodes, h), t)
  {
    assert Link(db, Tall(db, nodes, h)[t], h) == NextIn(Tall(db, nodes, h), t);
    assert NodeOK(db, Tall(db, nodes, h)[t]);
  }

  /** With the middle node gone, the last node of `P` is followed by the
      first of `S`. */
  lemma NextInLast(P: seq<int>, S: seq<int>)
    requires |P| > 0
    ensures (P + S)[|P| - 1] == P[|P| - 1] && NextIn(P + S, |P| - 1) == First(S)
  {
    if |S| > 0 {
      assert (P + S)[|P|] == S[0];
    }
  }

  /** The level lists of a non-empty list: its first node, when tall
      enough, then the level list of the rest. */
  lemma TallCons(db: DB, l: seq<int>, i: int)
    requires AllNodesOK(db, l) && |l| > 0
    ensures AllNodesOK(db, l[1..])
    ensures Tall(db, l, i) == (if db.nodeData[l[0] + NHeight] > i then [l[0]] else []) + Tall(db, l[1..], i)
  {
    SliceNodesOK(db, l, 1, |l|);
    assert TallRec(db, l, i) == (if db.nodeData[l[0] + NHeight] > i then [l[0]] else []) + TallRec(db, l[1..], i);
  }

  /** Level `i` around position `b`: the level list of the nodes before
      `b`, the node at `b` when it is taller than `i`, and the level list
      of the nodes after it. */
  lemma TallAround(db: DB, l: seq<int>, b: int, i: int)
    requires AllNodesOK(db, l) && 0 <= b < |l|
    ensures AllNodesOK(db, l[..b]) && AllNodesOK(db, l[b..]) && AllNodesOK(db, l[b + 1..])
    ensures Tall(db, l[b..], i) == (if db.nodeData[l[b] + NHeight] > i then [l[b]] else []) + Tall(db, l[b + 1..], i)
    ensures Tall(db, l, i) ==
      Tall(db, l[..b], i) + (if db.nodeData[l[b] + NHeight] > i then [l[b]] else []) + Tall(db, l[b + 1..], i)
  {
    SliceNodesOK(db, l, 0, b);
    SliceNodesOK(db, l, b, |l|);
    assert l[0..b] == l[..b] && l[b..|l|] == l[b..];
    assert l == l[..b] + l[b..];
    TallAppend(db, l[..b], l[b..], i);
    TallCons(db, l[b..], i);
    assert l[b..][1..] == l[b + 1..];
  }

  /** The link of a node after a middle part `x` of level `h` is its
      successor in the level with `x` left out. */
  lemma LinkPastMiddle(db: DB, nodes: seq<int>, h: int, P: seq<int>, x: seq<int>, S: seq<int>, s: int)
    requires HeadOK(db) && AllNodesOK(db, nodes) && Links(db, nodes) && 0 <= h < TMaxHeight
    requires Tall(db, nodes, h) == P + x + S && 0 <= s < |S|
    ensures 0 <= S[s] + NNext + h < |db.nodeData| && db.nodeData[S[s] + NNext + h] == NextIn(P + S, |P| + s)
  {
    NextInMiddle(P, x, S, s);
    NodeLinkAt(db, nodes, h, |P| + |x| + s);
  }

  /** The link of a node before a middle part `x` of level `h`, other than
      the last one when `x` is not empty, is its successor in the level
      with `x` left out. */
  lemma LinkBeforeMiddle(db: DB, nodes: seq<int>, h: int, P: seq<int>, x: seq<int>, S: seq<int>, t: int)
    requires HeadOK(db) && AllNodesOK(db, nodes) && Links(db, nodes) && 0 <= h < TMaxHeight
    requires Tall(db, nodes, h) == P + x + S && 0 <= t < |P| && (t + 1 < |P| || |x| == 0)
    ensures 0 <= P[t] + NNext + h < |db.nodeData| && db.nodeData[P[t] + NNext + h] == NextIn(P + S, t)
  {
    NextInFront(P, x, S, t);
    NodeLinkAt(db, nodes, h, t);
  }

  /** The link of a single middle node `X` of level `h` is the first node
      after it, which is what follows the end of `P` once `X` is left out. */
  lemma LinkOfMiddle(db: DB, nodes: seq<int>, h: int, P: seq<int>, X: int, S: seq<int>)
    requires HeadOK(db) && AllNodesOK(db, nodes) && Links(db, nodes) && 0 <= h < TMaxHeight
    requires Tall(db, nodes, h) == P + [X] + S
    ensures 0 <= X + NNext + h < |db.nodeData| && db.nodeData[X + NNext + h] == First(S)
    ensures |P| > 0 ==> NextIn(P + S, |P| - 1) == First(S)
    ensures |P| == 0 ==> First(P + S) == First(S)
  {
    NextInNew(P, X, S);
    NodeLinkAt(db, nodes, h, |P|);
    if |P| > 0 {
      NextInLast(P, S);
    }
  }
}

=== FILE: memdb_put.dfy ===
/**
  `Put`: a write-mode search, then either an overwrite of the node that
  already holds the key or the insert of a new node of random height. Both
  paths leave a valid store whose contents are the reference `Put` of the
  old contents.
 */
module MemDbPut {
  import opened Order
  import opened SortedMap
  import opened MemDbLayout
  import opened MemDbLevels
  import opened MemDbRecords
  import opened MemDbFrame
  import opened MemDbInsert
  import MemDb

  /** The loop that raises `maxHeight` to `h`: the levels that open up have
      no node yet, so the head is what the search would have recorded. */
  method Raise(db: DB, h: int) returns (db': DB)
    requires |db.prevNode| == TMaxHeight && 0 <= db.maxHeight && h <= TMaxHeight
    ensures db' == db.(prevNode := db'.prevNode, maxHeight := db'.maxHeight)
    ensures db'.maxHeight == if h > db.maxHeight then h else db.maxHeight
    ensures |db'.prevNode| == TMaxHeight
    ensures forall i :: 0 <= i < TMaxHeight ==>
      db'.prevNode[i] == if db.maxHeight <= i < h then 0 else db.prevNode[i]
  {
    db' := db;
    if h > db.maxHeight {
      var pn := db.prevNode;
      var i := db.maxHeight;
      while i < h
        invariant db.maxHeight <= i <= h && |pn| == TMaxHeight
        invariant forall j :: 0 <= j < TMaxHeight ==>
          pn[j] == if db.maxHeight <= j < i then 0 else db.prevNode[j]
      {
        pn := pn[i := 0];
        i := i + 1;
      }
      db' := db.(prevNode := pn, maxHeight := h);
    }
  }

  /** After the search and the raise, the store is still valid for the
      same nodes, and `prevNode` holds what a search would record for the
      first `h` levels. */
  lemma Raised(cmp: Comparer, db: DB, nodes: seq<int>, key: Bytes, h: int, db1: DB)
    requires ValidComparer(cmp) && Valid(cmp, db, nodes) && 1 <= h <= TMaxHeight
    requires db1 == db.(prevNode := db1.prevNode, maxHeight := db1.maxHeight)
    requires db1.maxHeight == if h > db.maxHeight then h else db.maxHeight
    requires |db1.prevNode| == TMaxHeight
    requires forall i :: 0 <= i < db.maxHeight ==> db1.prevNode[i] == PrevAt(cmp, db, nodes, key, i)
    requires forall i :: db.maxHeight <= i < h ==> db1.prevNode[i] == 0
    ensures Valid(cmp, db1, nodes) && Entries(db1, nodes) == Entries(db, nodes)
    ensures NodeLB(cmp, db1, nodes, key) == NodeLB(cmp, db, nodes, key)
    ensures h <= db1.maxHeight && Recorded(cmp, db1, nodes, key, h)
  {
    ListKept(db, db1, nodes);
    forall i, t | 0 <= i < TMaxHeight && 0 <= t < |Tall(db1, nodes, i)|
      ensures Link(db1, Tall(db1, nodes, i)[t], i) == NextIn(Tall(db1, nodes, i), t)
    {
      assert Link(db, Tall(db, nodes, i)[t], i) == NextIn(Tall(db, nodes, i), t);
    }
    var b := NodeLB(cmp, db, nodes, key);
    SliceKept(db, db1, nodes, 0, b);
    assert nodes[0..b] == nodes[..b];
    forall j | 0 <= j < h ensures db1.prevNode[j] == PrevAt(cmp, db1, nodes, key, j) {
      if j >= db.maxHeight {
        TallAbove(db, nodes[..b], j);
      }
    }
  }

  /** The loop that appends the new node: its four fields, then for each
      level below `h` the link taken over from the recorded node, whose
      link is turned to the new node. */
  method LinkNew(nd: seq<int>, pn: seq<int>, h: int, kvOff: int, keyLen: int, valLen: int)
    returns (nd': seq<int>)
    requires 0 <= h <= |pn|
    requires forall j :: 0 <= j < h ==> 0 <= pn[j] + NNext + j < |nd|
    requires SlotsApart(pn, h)
    ensures Spliced(nd, nd', pn, h)
    ensures nd'[|nd| + NKV] == kvOff && nd'[|nd| + NKey] == keyLen
    ensures nd'[|nd| + NVal] == valLen && nd'[|nd| + NHeight] == h
  {
    nd' := nd + [kvOff, keyLen, valLen, h];
    var i := 0;
    while i < h
      invariant 0 <= i <= h && |nd'| == |nd| + NNext + i
      invariant nd'[|nd| + NKV] == kvOff && nd'[|nd| + NKey] == keyLen
      invariant nd'[|nd| + NVal] == valLen && nd'[|nd| + NHeight] == h
      invariant forall j :: 0 <= j < i ==>
        nd'[pn[j] + NNext + j] == |nd| && nd'[|nd| + NNext + j] == nd[pn[j] + NNext + j]
      invariant forall x {:trigger NotSlot(pn, i, x)} :: 0 <= x < |nd| && NotSlot(pn, i, x) ==> nd'[x] == nd[x]
    {
      var m := pn[i] + NNext + i;
      assert NotSlot(pn, i, m);
      nd' := nd' + [nd'[m]];
      nd' := nd'[m := |nd|];
      i := i + 1;
      forall x | 0 <= x < |nd| && NotSlot(pn, i, x) ensures nd'[x] == nd[x] {
        assert NotSlot(pn, i - 1, x);
      }
    }
  }

  /** The insert path leaves a valid store for the level-0 list with the
      new node at the key's lower bound, holding the reference `Put`. */
  lemma InsertedValid(cmp: Comparer, db: DB, nodes: seq<int>, key: Bytes, value: Bytes, h: int, db': DB)
    requires Inserted(cmp, db, nodes, key, value, h, db')
    ensures Valid(cmp, db', NewNodes(cmp, db, nodes, key))
    ensures Entries(db', NewNodes(cmp, db, nodes, key)) == SortedMap.Put(cmp, Entries(db, nodes), key, value)
  {
    var b := NodeLB(cmp, db, nodes, key);
    var es := Entries(db, nodes);
    InsertedEntries(cmp, db, nodes, key, value, h, db');
    OldNodesKept(cmp, db, nodes, key, value, h, db');
    NewNodeOK(cmp, db, nodes, key, value, h, db');
    OffSlot(cmp, db, nodes, key, h, 0, 0, NHeight);
    assert HeadOK(db');
    LinksInserted(cmp, db, nodes, key, value, h, db');
    InsertDisjoint(db, db', nodes, b, |db.nodeData|);
    InsertAtLowerBound(cmp, es, key, value);
  }

  /** A link slot of the head or of a live node is never the key-offset or
      value-length field of the node at `b`. */
  lemma NotField(cmp: Comparer, db: DB, nodes: seq<int>, b: int, p: int, ip: int, k: int)
    requires ValidComparer(cmp) && Valid(cmp, db, nodes) && 0 <= b < |nodes|
    requires RecordAt(nodes, p, ip) && NNext <= k < NNext + db.nodeData[p + NHeight]
    ensures p + k != nodes[b] + NKV && p + k != nodes[b] + NVal
  {
    assert NodeOK(db, nodes[b]);
    if p != nodes[b] {
      RecordsApart(db, nodes, p, ip, nodes[b], b);
    }
  }

  /** The same for link `i` of the node at position `t` of level `i`. */
  lemma ListedNotField(cmp: Comparer, db: DB, nodes: seq<int>, b: int, i: int, t: int)
    requires ValidComparer(cmp) && Valid(cmp, db, nodes) && 0 <= b < |nodes|
    requires 0 <= i < TMaxHeight && 0 <= t < |Tall(db, nodes, i)|
    ensures var p := Tall(db, nodes, i)[t];
      && 0 <= p + NNext + i < |db.nodeData|
      && p + NNext + i != nodes[b] + NKV && p + NNext + i != nodes[b] + NVal
  {
    var p := Tall(db, nodes, i)[t];
    var ip := TallIndex(db, nodes, i, t);
    assert NodeOK(db, p);
    NotField(cmp, db, nodes, b, p, ip, NNext + i);
  }

  /** The fields of a node other than the one at `b` are not the two
      fields the overwrite changes. */
  lemma OtherFields(cmp: Comparer, db: DB, nodes: seq<int>, b: int, j: int, k: int)
    requires ValidComparer(cmp) && Valid(cmp, db, nodes) && 0 <= b < |nodes|
    requires 0 <= j < |nodes| && j != b && 0 <= k < NNext
    ensures nodes[j] + k != nodes[b] + NKV && nodes[j] + k != nodes[b] + NVal
  {
    SortedDistinct(cmp, db, nodes);
    assert nodes[j] != nodes[b] by {
      if j < b {
        assert nodes[j] != nodes[b];
      } else {
        assert nodes[b] != nodes[j];
      }
    }
    RecordsApart(db, nodes, nodes[j], j, nodes[b], b);
    assert NodeOK(db, nodes[j]) && NodeOK(db, nodes[b]);
  }

  /** The state the overwrite path leaves: the key and value appended to
      the arena, and the node at the lower bound pointed at them. */
  ghost predicate Overwritten(cmp: Comparer, db: DB, nodes: seq<int>, key: Bytes, value: Bytes, db': DB) {
    && ValidComparer(cmp) && Valid(cmp, db, nodes)
    && var b := NodeLB(cmp, db, nodes, key);
    && b < |nodes| && Entries(db, nodes)[b].key == key
    && var X := nodes[b];
    && X + NNext <= |db.nodeData|
    && db'.kvData == db.kvData + key + value
    && db'.nodeData == db.nodeData[X + NKV := |db.kvData|][X + NVal := |value|]
    && db'.kvSize == db.kvSize + |value| - db.nodeData[X + NVal]
    && db'.maxHeight == db.maxHeight && db'.n == db.n
    && |db'.prevNode| == TMaxHeight
  }

  /** The overwritten node now reads the new key and value. */
  lemma OverwrittenTarget(cmp: Comparer, db: DB, nodes: seq<int>, key: Bytes, value: Bytes, db': DB)
    requires Overwritten(cmp, db, nodes, key, value, db')
    ensures var X := nodes[NodeLB(cmp, db, nodes, key)];
      && NodeOK(db', X) && KeyOf(db', X) == key && ValueOf(db', X) == value
      && db'.nodeData[X + NHeight] == db.nodeData[X + NHeight]
  {
    var b := NodeLB(cmp, db, nodes, key);
    EntryAt(db, nodes, b);
    assert NodeOK(db, nodes[b]);
    assert db'.kvData[|db.kvData|..|db.kvData| + |key|] == key;
    assert db'.kvData[|db.kvData| + |key|..|db.kvData| + |key| + |value|] == value;
  }

  /** Every other node keeps its fields. */
  lemma OverwrittenOthers(cmp: Comparer, db: DB, nodes: seq<int>, key: Bytes, value: Bytes, db': DB)
    requires Overwritten(cmp, db, nodes, key, value, db')
    ensures Grown(db, db')
    ensures forall j :: 0 <= j < |nodes| && j != NodeLB(cmp, db, nodes, key) ==>
      FieldsKept(db, db', nodes[j])
  {
    var b := NodeLB(cmp, db, nodes, key);
    forall j | 0 <= j < |nodes| && j != b ensures FieldsKept(db, db', nodes[j]) {
      assert NodeOK(db, nodes[j]);
      OtherFields(cmp, db, nodes, b, j, NKV);
      OtherFields(cmp, db, nodes, b, j, NKey);
      OtherFields(cmp, db, nodes, b, j, NVal);
      OtherFields(cmp, db, nodes, b, j, NHeight);
    }
  }

  /** The overwrite keeps every node and its height, and changes only the
      entry at the lower bound. */
  lemma OverwrittenNodes(cmp: Comparer, db: DB, nodes: seq<int>, key: Bytes, value: Bytes, db': DB)
    requires Overwritten(cmp, db, nodes, key, value, db')
    ensures AllNodesOK(db', nodes)
    ensures var b := NodeLB(cmp, db, nodes, key);
      Entries(db', nodes) == Entries(db, nodes)[b := Entry(key, value)]
    ensures forall j :: 0 <= j < |nodes| ==>
      db'.nodeData[nodes[j] + NHeight] == db.nodeData[nodes[j] + NHeight]
  {
    var b := NodeLB(cmp, db, nodes, key);
    OverwrittenTarget(cmp, db, nodes, key, value, db');
    OverwrittenOthers(cmp, db, nodes, key, value, db');
    var r := Entries(db, nodes)[b := Entry(key, value)];
    forall j | 0 <= j < |nodes|
      ensures NodeOK(db', nodes[j]) && Entries(db', nodes)[j] == r[j]
      ensures db'.nodeData[nodes[j] + NHeight] == db.nodeData[nodes[j] + NHeight]
    {
      EntryAt(db, nodes, j);
      if j != b {
        NodeKept(db, db', nodes[j]);
      }
    }
  }

  /** The overwrite keeps link `i` of every node listed at level `i`. */
  lemma OverwrittenListedLinks(cmp: Comparer, db: DB, nodes: seq<int>, key: Bytes, value: Bytes, db': DB)
    requires Overwritten(cmp, db, nodes, key, value, db')
    ensures forall i, t :: 0 <= i < TMaxHeight && 0 <= t < |Tall(db, nodes, i)| ==>
      Link(db', Tall(db, nodes, i)[t], i) == Link(db, Tall(db, nodes, i)[t], i)
  {
    var b := NodeLB(cmp, db, nodes, key);
    forall i, t | 0 <= i < TMaxHeight && 0 <= t < |Tall(db, nodes, i)|
      ensures Link(db', Tall(db, nodes, i)[t], i) == Link(db, Tall(db, nodes, i)[t], i)
    {
      ListedNotField(cmp, db, nodes, b, i, t);
    }
  }

  /** The overwrite keeps the head's fields and links. */
  lemma OverwrittenHead(cmp: Comparer, db: DB, nodes: seq<int>, key: Bytes, value: Bytes, db': DB)
    requires Overwritten(cmp, db, nodes, key, value, db')
    ensures HeadOK(db')
    ensures forall i :: 0 <= i < TMaxHeight ==> Link(db', 0, i) == Link(db, 0, i)
  {
    var b := NodeLB(cmp, db, nodes, key);
    assert NodeOK(db, nodes[b]);
  }

  /** The overwrite keeps the links of the head and of every live node. */
  lemma OverwrittenLinks(cmp: Comparer, db: DB, nodes: seq<int>, key: Bytes, value: Bytes, db': DB)
    requires Overwritten(cmp, db, nodes, key, value, db')
    requires AllNodesOK(db', nodes)
    requires forall i :: Tall(db', nodes, i) == Tall(db, nodes, i)
    ensures HeadOK(db') && Links(db', nodes)
  {
    OverwrittenListedLinks(cmp, db, nodes, key, value, db');
    OverwrittenHead(cmp, db, nodes, key, value, db');
    LinksFrame(db, db', nodes);
  }

  /** The overwrite path leaves a valid store for the same nodes, holding
      the reference `Put`. */
  lemma OverwrittenValid(cmp: Comparer, db: DB, nodes: seq<int>, key: Bytes, value: Bytes, db': DB)
    requires Overwritten(cmp, db, nodes, key, value, db')
    ensures Valid(cmp, db', nodes)
    ensures Entries(db', nodes) == SortedMap.Put(cmp, Entries(db, nodes), key, value)
  {
    var b := NodeLB(cmp, db, nodes, key);
    var es := Entries(db, nodes);
    var e := Entry(key, value);
    OverwrittenNodes(cmp, db, nodes, key, value, db');
    forall i ensures Tall(db', nodes, i) == Tall(db, nodes, i) {
      TallFrame(db, db', nodes, i);
    }
    OverwrittenLinks(cmp, db, nodes, key, value, db');
    DisjointFrame(db, db', nodes);
    OverwriteAtLowerBound(cmp, es, key, value);
  }

  /** The overwrite path of `Put`: append the key and value to the arena
      and point the node holding the key at them. */
  method Overwrite(db: DB, cmp: Comparer, key: Bytes, value: Bytes, node: int, ghost nodes: seq<int>)
    returns (db': DB)
    requires ValidComparer(cmp) && Valid(cmp, db, nodes)
    requires var b := NodeLB(cmp, db, nodes, key);
      b < |nodes| && node == nodes[b] && Entries(db, nodes)[b].key == key
    ensures Valid(cmp, db', nodes)
    ensures Entries(db', nodes) == SortedMap.Put(cmp, Entries(db, nodes), key, value)
    ensures db'.kvData == db.kvData + key + value && db'.rngPos == db.rngPos
  {
    ghost var b := NodeLB(cmp, db, nodes, key);
    assert NodeOK(db, nodes[b]);
    var kvOffset := |db.kvData|;
    var nd := db.nodeData[node + NKV := kvOffset];
    var m := nd[node + NVal];
    nd := nd[node + NVal := |value|];
    db' := db.(kvData := db.kvData + key + value, nodeData := nd, kvSize := db.kvSize + |value| - m);
    OverwrittenValid(cmp, db, nodes, key, value, db');
  }

  /** After an insert of `key` into `db`: the height drawn from the stream
      at `db.rngPos` is the new node's, `maxHeight` is raised to it when it
      is higher, and the stream has moved past the draws. The new node is
      appended at the end of the node table and sits at the key's lower
      bound in the level-0 list. */
  ghost predicate NewNode(cmp: Comparer, rnd: nat -> nat, db: DB, nodes: seq<int>, key: Bytes, db': DB, nodes': seq<int>)
    requires AllNodesOK(db, nodes)
  {
    var (h, pos) := MemDb.Draw(rnd, db.rngPos, 1);
    var x := |db.nodeData|;
    && db'.rngPos == pos
    && db'.maxHeight == (if h > db.maxHeight then h else db.maxHeight)
    && x + NHeight < |db'.nodeData| && db'.nodeData[x + NHeight] == h
    && NodeLB(cmp, db, nodes, key) < |nodes'| && nodes'[NodeLB(cmp, db, nodes, key)] == x
  }

  /** The insert path of `Put`, after a write-mode search of the valid
      store `db` left `db0` and found no entry for `key`: draw a height,
      raise `maxHeight` if needed, append the key, value and node, and
      splice the node into its levels. */
  method Insert(db: DB, db0: DB, cmp: Comparer, rnd: nat -> nat, key: Bytes, value: Bytes, ghost nodes: seq<int>)
    returns (db': DB, ghost nodes': seq<int>)
    requires ValidComparer(cmp) && Valid(cmp, db, nodes) && Absent(cmp, db, nodes, key)
    requires db0 == db.(prevNode := db0.prevNode) && |db0.prevNode| == TMaxHeight
    requires forall i :: 0 <= i < db.maxHeight ==> db0.prevNode[i] == PrevAt(cmp, db, nodes, key, i)
    ensures Valid(cmp, db', nodes')
    ensures Entries(db', nodes') == SortedMap.Put(cmp, Entries(db, nodes), key, value)
    ensures db'.kvData == db.kvData + key + value
    ensures NewNode(cmp, rnd, db, nodes, key, db', nodes')
  {
    var h, pos := MemDb.RandHeight(rnd, db0.rngPos);
    var db1 := Raise(db0, h);
    Raised(cmp, db, nodes, key, h, db1);
    RecordedSlots(cmp, db1, nodes, key, h);
    var nd := LinkNew(db1.nodeData, db1.prevNode, h, |db1.kvData|, |key|, |value|);
    db' := db1.(kvData := db1.kvData + key + value, nodeData := nd,
                kvSize := db1.kvSize + |key| + |value|, n := db1.n + 1, rngPos := pos);
    nodes' := NewNodes(cmp, db1, nodes, key);
    assert Valid(cmp, db1, nodes) && Absent(cmp, db1, nodes, key);
    assert Spliced(db1.nodeData, db'.nodeData, db1.prevNode, h);
    InsertedValid(cmp, db1, nodes, key, value, h, db');
  }

  /** `Put`: store `value` under `key`, overwriting the value of an existing
      entry. The key and value are always appended to the arena; only a new
      key draws a height from the random stream. */
  method Put(db: DB, cmp: Comparer, rnd: nat -> nat, key: Bytes, value: Bytes, ghost nodes: seq<int>)
    returns (db': DB, ghost nodes': seq<int>)
    requires ValidComparer(cmp) && Valid(cmp, db, nodes)
    ensures Valid(cmp, db', nodes')
    ensures Contents(cmp, db', nodes') == SortedMap.Put(cmp, Contents(cmp, db, nodes), key, value)
    ensures db'.kvData == db.kvData + key + value
    ensures SortedMap.Get(Contents(cmp, db, nodes), key).Some? ==> db'.rngPos == db.rngPos
    ensures SortedMap.Get(Contents(cmp, db, nodes), key).None? ==> NewNode(cmp, rnd, db, nodes, key, db', nodes')
  {
    var db0, node, exact := MemDb.FindGE(db, cmp, key, true, nodes);
    GetAtLowerBound(cmp, Entries(db, nodes), key);
    if exact {
      Raised(cmp, db, nodes, key, 1, db0);
      db' := Overwrite(db0, cmp, key, value, node, nodes);
      nodes' := nodes;
    } else {
      db', nodes' := Insert(db, db0, cmp, rnd, key, value, nodes);
    }
  }
}

=== FILE: memdb_records.dfy ===
/**
  Facts about where node records sit in the table, used by the writers:
  distinct records never overlap, the live nodes are pairwise distinct, and
  the node a write-mode search records for a level owns the link that a
  new node must take over.
 */
module MemDbRecords {
  import opened Order
  import opened SortedMap
  import opened MemDbLayout
  import opened MemDbLevels

  /** `p` is the head (0) or the node at position `ip` of `nodes`. */
  ghost predicate RecordAt(nodes: seq<int>, p: int, ip: int) {
    p == 0 || (0 <= ip < |nodes| && nodes[ip] == p)
  }

  /** No value occurs twice. */
  ghost predicate Distinct(s: seq<int>) {
    forall a, b :: 0 <= a < b < |s| ==> s[a] != s[b]
  }

  /** Two different records (head or live nodes) occupy disjoint ranges. */
  lemma RecordsApart(db: DB, nodes: seq<int>, p: int, ip: int, q: int, iq: int)
    requires HeadOK(db) && AllNodesOK(db, nodes) && Disjoint(db, nodes)
    requires RecordAt(nodes, p, ip) && RecordAt(nodes, q, iq) && p != q
    ensures p + NNext + db.nodeData[p + NHeight] <= q || q + NNext + db.nodeData[q + NHeight] <= p
  {
    if p != 0 && q != 0 {
      assert NodeOK(db, nodes[ip]) && NodeOK(db, nodes[iq]);
    } else if p != 0 {
      assert NodeOK(db, nodes[ip]);
    } else {
      assert NodeOK(db, nodes[iq]);
    }
  }

  /** Keys of a sorted list are distinct, so its nodes are too. */
  lemma SortedDistinct(cmp: Comparer, db: DB, nodes: seq<int>)
    requires ValidComparer(cmp) && AllNodesOK(db, nodes) && Sorted(cmp, Entries(db, nodes))
    ensures Distinct(nodes)
  {
    var es := Entries(db, nodes);
    forall a, b | 0 <= a < b < |nodes| ensures nodes[a] != nodes[b] {
      EntryAt(db, nodes, a);
      EntryAt(db, nodes, b);
      assert cmp(es[a].key, es[b].key) < 0;
    }
  }

  lemma SliceDistinct(s: seq<int>, a: int, b: int)
    requires Distinct(s) && 0 <= a <= b <= |s|
    ensures Distinct(s[a..b])
  {
    forall x, y | 0 <= x < y < b - a ensures s[a..b][x] != s[a..b][y] {
      assert s[a..b][x] == s[a + x] && s[a..b][y] == s[a + y];
    }
  }

  /** A level list of distinct nodes has distinct nodes. */
  lemma {:induction false} TallDistinct(db: DB, l: seq<int>, i: int)
    requires AllNodesOK(db, l) && Distinct(l)
    ensures Distinct(Tall(db, l, i))
  {
    if |l| > 0 {
      SliceNodesOK(db, l, 1, |l|);
      SliceDistinct(l, 1, |l|);
      TallDistinct(db, l[1..], i);
      var rest := Tall(db, l[1..], i);
      var x := if db.nodeData[l[0] + NHeight] > i then [l[0]] else [];
      assert Tall(db, l, i) == x + rest;
      forall t | 0 <= t < |rest| ensures rest[t] != l[0] {
        var j := TallIndex(db, l[1..], i, t);
        assert l[1..][j] == l[j + 1];
      }
      var r := x + rest;
      forall a, b | 0 <= a < b < |r| ensures r[a] != r[b] {
        if a < |x| {
          assert r[a] == l[0] && r[b] == rest[b - |x|];
        } else {
          assert r[a] == rest[a - |x|] && r[b] == rest[b - |x|];
        }
      }
    }
  }

  /** The node recorded for level `j` by a write-mode search for `key` is
      the head or a node before the lower bound, below `key` and tall
      enough to have a link `j`. */
  lemma PrevRecord(cmp: Comparer, db: DB, nodes: seq<int>, key: Bytes, j: int) returns (ip: int)
    requires ValidComparer(cmp) && HeadOK(db) && AllNodesOK(db, nodes) && Sorted(cmp, Entries(db, nodes))
    requires 0 <= j < TMaxHeight
    ensures var p := PrevAt(cmp, db, nodes, key, j);
      && RecordAt(nodes, p, ip) && (p != 0 ==> ip < NodeLB(cmp, db, nodes, key))
      && j < db.nodeData[p + NHeight] && p + NNext + j < |db.nodeData|
      && (p != 0 ==> cmp(KeyOf(db, p), key) < 0)
  {
    var b := NodeLB(cmp, db, nodes, key);
    TallSplit(cmp, db, nodes, key, j);
    var pre := Tall(db, nodes[..b], j);
    if |pre| == 0 {
      ip := 0;
    } else {
      ip := TallIndex(db, nodes[..b], j, |pre| - 1);
      assert nodes[..b][ip] == nodes[ip];
      assert NodeOK(db, pre[|pre| - 1]);
    }
  }

  /** Link `j` of the node recorded for level `j` points at the first node
      of level `j` that is not below `key`. */
  lemma PrevLink(cmp: Comparer, db: DB, nodes: seq<int>, key: Bytes, j: int)
    requires ValidComparer(cmp) && Searchable(cmp, db, nodes) && 0 <= j < TMaxHeight
    ensures var b := NodeLB(cmp, db, nodes, key);
      var p := PrevAt(cmp, db, nodes, key, j);
      && AllNodesOK(db, nodes[b..])
      && 0 <= p + NNext + j < |db.nodeData|
      && db.nodeData[p + NNext + j] == First(Tall(db, nodes[b..], j))
  {
    var b := NodeLB(cmp, db, nodes, key);
    TallSplit(cmp, db, nodes, key, j);
    LastLink(db, nodes, j, Tall(db, nodes[..b], j), Tall(db, nodes[b..], j));
  }

  /** When level `j` splits in two, link `j` of the last node of the first
      part (the head when it is empty) points at the first node of the
      second. */
  lemma LastLink(db: DB, nodes: seq<int>, j: int, pre: seq<int>, suf: seq<int>)
    requires HeadOK(db) && AllNodesOK(db, nodes) && Links(db, nodes) && 0 <= j < TMaxHeight
    requires Tall(db, nodes, j) == pre + suf
    ensures 0 <= Last(pre) + NNext + j < |db.nodeData|
    ensures db.nodeData[Last(pre) + NNext + j] == First(suf)
  {
    if |pre| == 0 {
      assert pre + suf == suf;
      LinkAt(db, nodes, j, -1);
    } else {
      NextAcross(pre, suf, Tall(db, nodes, j));
      NodeLinkAt(db, nodes, j, |pre| - 1);
    }
  }

  /** In a level split in two, the last node of the first part is followed
      by the first node of the second. */
  lemma NextAcross(pre: seq<int>, suf: seq<int>, all: seq<int>)
    requires all == pre + suf && |pre| > 0
    ensures all[|pre| - 1] == pre[|pre| - 1]
    ensures NextIn(all, |pre| - 1) == First(suf)
  {
    if |suf| > 0 {
      assert all[|pre|] == suf[0];
    }
  }

  /** Tall lists above the current height are empty. */
  lemma {:induction false} TallAbove(db: DB, l: seq<int>, i: int)
    requires AllNodesOK(db, l) && i >= db.maxHeight
    ensures Tall(db, l, i) == []
  {
    if |l| > 0 {
      assert NodeOK(db, l[0]);
      SliceNodesOK(db, l, 1, |l|);
      TallAbove(db, l[1..], i);
    }
  }
}

=== FILE: order.dfy ===
/**
  Bytes, keys and the ordering policy shared by the memtable and the batch.

  The comparator is a collaborator of the store: it is passed in as a
  function value and is only ever assumed to be a strict total order whose
  "equal" answer coincides with byte equality.
 */
module Order {

  /** One byte of a Go `[]byte`. */
  type byte = x: int | 0 <= x < 256

  /** A Go byte slice; `nil` and the empty slice are both `[]`. */
  type Bytes = seq<byte>

  /** The ranges of Go's 32- and 64-bit unsigned integers. */
  const Two32: nat := 0x1_0000_0000
  const Two64: nat := 0x1_0000_0000_0000_0000

  /** `Compare(a, b)`: negative, zero or positive. */
  type Comparer = (Bytes, Bytes) -> int

  /** The comparator is a strict total order and reports 0 exactly on equal
      keys. The triggers only fire on comparisons already present, so the
      order facts never generate new comparisons by themselves. */
  ghost predicate ValidComparer(cmp: Comparer) {
    && (forall a, b {:trigger cmp(a, b)} :: cmp(a, b) == 0 <==> a == b)
    && (forall a, b {:trigger cmp(a, b), cmp(b, a)} :: cmp(a, b) < 0 <==> cmp(b, a) > 0)
    && (forall a, b, c {:trigger cmp(a, b), cmp(b, c), cmp(a, c)} ::
          cmp(a, b) < 0 && cmp(b, c) < 0 ==> cmp(a, c) < 0)
  }
}

=== FILE: sorted_map.dfy ===
/**
  The abstract view of the memtable: a finite map from keys to values kept
  as an association list sorted strictly by the comparator.

  `Put`, `Remove` and `Get` here are reference definitions written by plain
  recursion over the list; the skip list in `MemDb` is proved to behave
  exactly like them.
 */
module SortedMap {
  import opened Order
  import opened Wrappers

  datatype Entry = Entry(key: Bytes, value: Bytes)

  /** Keys strictly increase along the list (so they are also distinct). */
  ghost predicate Sorted(cmp: Comparer, es: seq<Entry>) {
    forall i, j :: 0 <= i < j < |es| ==> cmp(es[i].key, es[j].key) < 0
  }

  /** The number of leading entries whose key is below `k`: the position of
      the first entry whose key is at least `k`. */
  function LowerBound(cmp: Comparer, es: seq<Entry>, k: Bytes): (b: nat)
    ensures b <= |es|
    ensures b < |es| ==> cmp(es[b].key, k) >= 0
  {
    if |es| == 0 || cmp(es[0].key, k) >= 0 then 0
    else 1 + LowerBound(cmp, es[1..], k)
  }

  /** Lookup by key equality. */
  function Get(es: seq<Entry>, k: Bytes): Option<Bytes> {
    if |es| == 0 then None
    else if es[0].key == k then Some(es[0].value)
    else Get(es[1..], k)
  }

  /** Insert `k` with `v`, or overwrite the value of `k`, keeping the order. */
  function Put(cmp: Comparer, es: seq<Entry>, k: Bytes, v: Bytes): seq<Entry> {
    if |es| == 0 then [Entry(k, v)]
    else if cmp(es[0].key, k) < 0 then [es[0]] + Put(cmp, es[1..], k, v)
    else if es[0].key == k then [Entry(k, v)] + es[1..]
    else [Entry(k, v)] + es
  }

  /** Drop the entry for `k`, if any. */
  function Remove(es: seq<Entry>, k: Bytes): seq<Entry> {
    if |es| == 0 then []
    else if es[0].key == k then es[1..]
    else [es[0]] + Remove(es[1..], k)
  }

  /** Sum of key and value lengths: what the memtable reports as `Size`. */
  function TotalSize(es: seq<Entry>): nat {
    if |es| == 0 then 0 else |es[0].key| + |es[0].value| + TotalSize(es[1..])
  }

  /** The finite map the list denotes (earlier entries win, which only
      matters for unsorted lists). */
  function ToMap(es: seq<Entry>): map<Bytes, Bytes> {
    if |es| == 0 then map[] else ToMap(es[1..])[es[0].key := es[0].value]
  }

  // ---------------------------------------------------------------------
  // Lemmas relating the reference operations to each other.

  lemma SortedTail(cmp: Comparer, es: seq<Entry>)
    requires Sorted(cmp, es) && |es| > 0
    ensures Sorted(cmp, es[1..])
  {
    var tail := es[1..];
    forall i, j | 0 <= i < j < |tail| ensures cmp(tail[i].key, tail[j].key) < 0 {
      assert tail[i] == es[i + 1] && tail[j] == es[j + 1];
    }
  }

  /** Every entry before the lower bound has a key below `k`. */
  lemma {:induction false} LowerBoundBelow(cmp: Comparer, es: seq<Entry>, k: Bytes)
    ensures forall i :: 0 <= i < LowerBound(cmp, es, k) ==> cmp(es[i].key, k) < 0
  {
    if |es| > 0 && cmp(es[0].key, k) < 0 {
      LowerBoundBelow(cmp, es[1..], k);
      assert forall i :: 1 <= i < LowerBound(cmp, es, k) ==> es[i] == es[1..][i - 1];
    }
  }

  /** Every entry from the lower bound on has a key at least `k`. */
  lemma LowerBoundAbove(cmp: Comparer, es: seq<Entry>, k: Bytes)
    requires ValidComparer(cmp) && Sorted(cmp, es)
    ensures forall i :: LowerBound(cmp, es, k) <= i < |es| ==> cmp(es[i].key, k) >= 0
  {
    var b := LowerBound(cmp, es, k);
    forall i | b < i < |es|
      ensures cmp(es[i].key, k) >= 0
    {
      assert cmp(es[b].key, es[i].key) < 0;
      assert cmp(es[b].key, k) >= 0;
    }
  }

  /** The lower bound is the only split point of a sorted list. */
  lemma LowerBoundUnique(cmp: Comparer, es: seq<Entry>, k: Bytes, t: int)
    requires ValidComparer(cmp) && Sorted(cmp, es)
    requires 0 <= t <= |es|
    requires t > 0 ==> cmp(es[t - 1].key, k) < 0
    requires t < |es| ==> cmp(es[t].key, k) >= 0
    ensures LowerBound(cmp, es, k) == t
  {
    var b := LowerBound(cmp, es, k);
    LowerBoundAbove(cmp, es, k);
    LowerBoundBelow(cmp, es, k);
    if t > 0 {
      assert cmp(es[t - 1].key, k) < 0;
    }
    if t < |es| {
      assert cmp(es[t].key, k) >= 0;
    }
  }

  /** The entry at the lower bound is the ceiling of `k`: the least entry
      whose key is at least `k`; there is none exactly when every key is
      below `k`. */
  lemma Ceiling(cmp: Comparer, es: seq<Entry>, k: Bytes)
    requires ValidComparer(cmp) && Sorted(cmp, es)
    ensures var b := LowerBound(cmp, es, k);
      && (b == |es| <==> forall i :: 0 <= i < |es| ==> cmp(es[i].key, k) < 0)
      && (b < |es| ==> Get(es, es[b].key) == Some(es[b].value))
      && (b < |es| ==> forall i :: 0 <= i < |es| && cmp(es[i].key, k) >= 0 ==>
            cmp(es[b].key, es[i].key) <= 0)
  {
    var b := LowerBound(cmp, es, k);
    LowerBoundBelow(cmp, es, k);
    if b < |es| {
      forall i | 0 <= i < |es| && cmp(es[i].key, k) >= 0 ensures cmp(es[b].key, es[i].key) <= 0 {
        if i > b {
          assert cmp(es[b].key, es[i].key) < 0;
        } else if i == b {
          assert cmp(es[b].key, es[i].key) == 0;
        }
      }
      forall j | 0 <= j < b ensures es[j].key != es[b].key {
        assert cmp(es[j].key, es[b].key) < 0;
      }
      GetFirst(es, es[b].key, b);
    }
  }

  /** `Get` returns the value of the first entry holding `k`. */
  lemma {:induction false} GetFirst(es: seq<Entry>, k: Bytes, i: nat)
    requires i < |es| && es[i].key == k
    requires forall j :: 0 <= j < i ==> es[j].key != k
    ensures Get(es, k) == Some(es[i].value)
  {
    if i > 0 {
      assert forall j :: 0 <= j < i - 1 ==> es[1..][j] == es[j + 1];
      GetFirst(es[1..], k, i - 1);
    }
  }

  /** `Get` of a key no entry holds is `None`. */
  lemma {:induction false} GetAbsent(es: seq<Entry>, k: Bytes)
    requires forall j :: 0 <= j < |es| ==> es[j].key != k
    ensures Get(es, k) == None
  {
    if |es| > 0 {
      assert forall j :: 0 <= j < |es| - 1 ==> es[1..][j] == es[j + 1];
      GetAbsent(es[1..], k);
    }
  }

  /** `Get` finds `k` exactly at the lower bound, if anywhere. */
  lemma GetAtLowerBound(cmp: Comparer, es: seq<Entry>, k: Bytes)
    requires ValidComparer(cmp) && Sorted(cmp, es)
    ensures var b := LowerBound(cmp, es, k);
      Get(es, k) == if b < |es| && es[b].key == k then Some(es[b].value) else None
  {
    var b := LowerBound(cmp, es, k);
    LowerBoundBelow(cmp, es, k);
    LowerBoundAbove(cmp, es, k);
    forall j | 0 <= j < b ensures es[j].key != k {
      assert cmp(es[j].key, k) < 0;
    }
    if b < |es| && es[b].key == k {
      GetFirst(es, k, b);
    } else {
      forall j | b < j < |es| ensures es[j].key != k {
        assert cmp(es[b].key, es[j].key) < 0;
        assert cmp(es[b].key, k) >= 0;
      }
      GetAbsent(es, k);
    }
  }

  /** Put is an insertion at the lower bound, or an overwrite there. */
  lemma {:induction false} PutSplice(cmp: Comparer, es: seq<Entry>, k: Bytes, v: Bytes)
    ensures var b := LowerBound(cmp, es, k);
      Put(cmp, es, k, v) ==
        if b < |es| && es[b].key == k then es[b := Entry(k, v)]
        else es[..b] + [Entry(k, v)] + es[b..]
  {
    if |es| > 0 && cmp(es[0].key, k) < 0 {
      var tail := es[1..];
      PutSplice(cmp, tail, k, v);
      var b := LowerBound(cmp, tail, k);
      assert es == [es[0]] + tail;
      if b < |tail| && tail[b].key == k {
        ConsUpdate(es[0], tail, b, Entry(k, v));
      } else {
        ConsSplice(es[0], tail, b, Entry(k, v));
      }
    } else if |es| > 0 && es[0].key != k {
      assert es[..0] + [Entry(k, v)] + es[0..] == [Entry(k, v)] + es;
    }
  }

  /** Remove drops the first entry holding `k`. */
  lemma {:induction false} RemoveFirst(es: seq<Entry>, k: Bytes, i: nat)
    requires i < |es| && es[i].key == k
    requires forall j :: 0 <= j < i ==> es[j].key != k
    ensures Remove(es, k) == es[..i] + es[i + 1..]
  {
    if i > 0 {
      var tail := es[1..];
      assert forall j :: 0 <= j < i - 1 ==> tail[j] == es[j + 1];
      RemoveFirst(tail, k, i - 1);
      assert [es[0]] + (tail[..i - 1] + tail[i..]) == es[..i] + es[i + 1..];
    }
  }

  /** Remove of a key no entry holds changes nothing. */
  lemma {:induction false} RemoveAbsent(es: seq<Entry>, k: Bytes)
    requires forall j :: 0 <= j < |es| ==> es[j].key != k
    ensures Remove(es, k) == es
  {
    if |es| > 0 {
      assert forall j :: 0 <= j < |es| - 1 ==> es[1..][j] == es[j + 1];
      RemoveAbsent(es[1..], k);
      assert [es[0]] + es[1..] == es;
    }
  }

  /** Remove deletes exactly the entry at the lower bound, when it holds `k`. */
  lemma RemoveSplice(cmp: Comparer, es: seq<Entry>, k: Bytes)
    requires ValidComparer(cmp) && Sorted(cmp, es)
    ensures var b := LowerBound(cmp, es, k);
      Remove(es, k) ==
        if b < |es| && es[b].key == k then es[..b] + es[b + 1..] else es
  {
    var b := LowerBound(cmp, es, k);
    LowerBoundBelow(cmp, es, k);
    LowerBoundAbove(cmp, es, k);
    forall j | 0 <= j < b ensures es[j].key != k {
      assert cmp(es[j].key, k) < 0;
    }
    if b < |es| && es[b].key == k {
      RemoveFirst(es, k, b);
    } else {
      forall j | b < j < |es| ensures es[j].key != k {
        assert cmp(es[b].key, es[j].key) < 0;
        assert cmp(es[b].key, k) >= 0;
      }
      RemoveAbsent(es, k);
    }
  }

  /** Inserting between the keys below and the keys above keeps a list sorted. */
  lemma InsertSorted(cmp: Comparer, es: seq<Entry>, b: nat, e: Entry)
    requires ValidComparer(cmp) && Sorted(cmp, es) && b <= |es|
    requires forall i :: 0 <= i < b ==> cmp(es[i].key, e.key) < 0
    requires forall i :: b <= i < |es| ==> cmp(e.key, es[i].key) < 0
    ensures Sorted(cmp, es[..b] + [e] + es[b..])
  {
    var r := es[..b] + [e] + es[b..];
    forall i, j | 0 <= i < j < |r| ensures cmp(r[i].key, r[j].key) < 0 {
      if i < b && j < b {
        assert r[i] == es[i] && r[j] == es[j];
      } else if i < b && j == b {
        assert r[i] == es[i];
      } else if i < b {
        assert r[i] == es[i] && r[j] == es[j - 1];
      } else if i == b {
        assert r[j] == es[j - 1];
      } else {
        assert r[i] == es[i - 1] && r[j] == es[j - 1];
      }
    }
  }

  /** Put keeps the list sorted. */
  lemma PutSorted(cmp: Comparer, es: seq<Entry>, k: Bytes, v: Bytes)
    requires ValidComparer(cmp) && Sorted(cmp, es)
    ensures Sorted(cmp, Put(cmp, es, k, v))
  {
    var b := LowerBound(cmp, es, k);
    PutSplice(cmp, es, k, v);
    LowerBoundBelow(cmp, es, k);
    LowerBoundAbove(cmp, es, k);
    if !(b < |es| && es[b].key == k) {
      forall i | b <= i < |es| ensures cmp(k, es[i].key) < 0 {
        assert cmp(es[i].key, k) >= 0;
        assert es[i].key != k by {
          if i > b {
            assert cmp(es[b].key, es[i].key) < 0;
            assert cmp(es[b].key, k) >= 0;
          }
        }
      }
      InsertSorted(cmp, es, b, Entry(k, v));
    } else {
      var r := Put(cmp, es, k, v);
      forall i, j | 0 <= i < j < |r| ensures cmp(r[i].key, r[j].key) < 0 {
        assert r[i].key == es[i].key && r[j].key == es[j].key;
      }
    }
  }

  /** Remove keeps the list sorted. */
  lemma RemoveSorted(cmp: Comparer, es: seq<Entry>, k: Bytes)
    requires ValidComparer(cmp) && Sorted(cmp, es)
    ensures Sorted(cmp, Remove(es, k))
  {
    RemoveSplice(cmp, es, k);
    var b := LowerBound(cmp, es, k);
    if b < |es| && es[b].key == k {
      DeleteSorted(cmp, es, b);
      assert Remove(es, k) == es[..b] + es[b + 1..];
    } else {
      assert Remove(es, k) == es;
    }
  }

  /** A Put is visible to the next Get of the same key, and to no other key. */
  lemma {:induction false} GetAfterPut(cmp: Comparer, es: seq<Entry>, k: Bytes, v: Bytes, k': Bytes)
    requires ValidComparer(cmp)
    ensures Get(Put(cmp, es, k, v), k') == if k' == k then Some(v) else Get(es, k')
  {
    if |es| > 0 && cmp(es[0].key, k) < 0 {
      GetAfterPut(cmp, es[1..], k, v, k');
    }
  }

  /** After Remove the key is gone and every other key is untouched. */
  lemma GetAfterRemove(cmp: Comparer, es: seq<Entry>, k: Bytes, k': Bytes)
    requires ValidComparer(cmp) && Sorted(cmp, es)
    ensures Get(Remove(es, k), k') == if k' == k then None else Get(es, k')
  {
    RemoveSplice(cmp, es, k);
    var b := LowerBound(cmp, es, k);
    if b < |es| && es[b].key == k {
      if k' == k {
        DeletedKeyAbsent(cmp, es, b);
      } else {
        GetRemoveOther(es, b, k');
      }
    } else {
      GetAtLowerBound(cmp, es, k);
    }
  }

  /** Deleting an entry whose key is not `k'` does not change `Get(_, k')`. */
  lemma {:induction false} GetRemoveOther(es: seq<Entry>, b: nat, k': Bytes)
    requires b < |es| && es[b].key != k'
    ensures Get(es[..b] + es[b + 1..], k') == Get(es, k')
  {
    if b > 0 {
      var tail := es[1..];
      GetRemoveOther(tail, b - 1, k');
      assert es[..b] + es[b + 1..] == [es[0]] + (tail[..b - 1] + tail[b..]);
    } else {
      assert es[..b] + es[b + 1..] == es[1..];
    }
  }

  /** Length after Put: one more exactly when the key was absent. */
  lemma {:induction false} PutLength(cmp: Comparer, es: seq<Entry>, k: Bytes, v: Bytes)
    requires ValidComparer(cmp) && Sorted(cmp, es)
    ensures |Put(cmp, es, k, v)| == |es| + (if Get(es, k).None? then 1 else 0)
  {
    PutSplice(cmp, es, k, v);
    GetAtLowerBound(cmp, es, k);
  }

  /** Size after Put: the new value replaces the old one, or key and value are added. */
  lemma {:induction false} PutSize(cmp: Comparer, es: seq<Entry>, k: Bytes, v: Bytes)
    requires ValidComparer(cmp) && Sorted(cmp, es)
    ensures TotalSize(Put(cmp, es, k, v)) ==
      TotalSize(es) + |v| + (if Get(es, k).Some? then -|Get(es, k).value| else |k|)
  {
    var b := LowerBound(cmp, es, k);
    PutSplice(cmp, es, k, v);
    GetAtLowerBound(cmp, es, k);
    if b < |es| && es[b].key == k {
      TotalSizeUpdate(es, b, Entry(k, v));
    } else {
      TotalSizeInsert(es, b, Entry(k, v));
    }
  }

  /** Length after Remove: one less exactly when the key was present. */
  lemma {:induction false} RemoveLength(es: seq<Entry>, k: Bytes)
    ensures |Remove(es, k)| == |es| - (if Get(es, k).Some? then 1 else 0)
  {
    if |es| > 0 && es[0].key != k {
      RemoveLength(es[1..], k);
    }
  }

  /** Size after Remove: the removed key and value lengths are subtracted. */
  lemma {:induction false} RemoveSize(es: seq<Entry>, k: Bytes)
    ensures TotalSize(Remove(es, k)) ==
      TotalSize(es) - (if Get(es, k).Some? then |k| + |Get(es, k).value| else 0)
  {
    if |es| > 0 && es[0].key != k {
      RemoveSize(es[1..], k);
    }
  }

  /** The map view agrees with `Get`. */
  lemma {:induction false} ToMapGet(es: seq<Entry>, k: Bytes)
    ensures k in ToMap(es) <==> Get(es, k).Some?
    ensures k in ToMap(es) ==> ToMap(es)[k] == Get(es, k).value
  {
    if |es| > 0 {
      ToMapGet(es[1..], k);
    }
  }

  /** Put is map update. */
  lemma {:induction false} ToMapPut(cmp: Comparer, es: seq<Entry>, k: Bytes, v: Bytes)
    requires ValidComparer(cmp)
    ensures ToMap(Put(cmp, es, k, v)) == ToMap(es)[k := v]
  {
    var m := ToMap(Put(cmp, es, k, v));
    var m' := ToMap(es)[k := v];
    forall k' ensures (k' in m <==> k' in m') && (k' in m ==> m[k'] == m'[k']) {
      ToMapGet(Put(cmp, es, k, v), k');
      ToMapGet(es, k');
      GetAfterPut(cmp, es, k, v, k');
    }
  }

  /** Remove is map key removal. */
  lemma ToMapRemove(cmp: Comparer, es: seq<Entry>, k: Bytes)
    requires ValidComparer(cmp) && Sorted(cmp, es)
    ensures ToMap(Remove(es, k)) == ToMap(es) - {k}
  {
    var m := ToMap(Remove(es, k));
    var m' := ToMap(es) - {k};
    forall k' ensures (k' in m <==> k' in m') && (k' in m ==> m[k'] == m'[k']) {
      ToMapGet(Remove(es, k), k');
      ToMapGet(es, k');
      GetAfterRemove(cmp, es, k, k');
    }
  }

  /** Sizes of a concatenation add up. */
  lemma {:induction false} TotalSizeAppend(a: seq<Entry>, b: seq<Entry>)
    ensures TotalSize(a + b) == TotalSize(a) + TotalSize(b)
  {
    if |a| > 0 {
      assert (a + b)[0] == a[0];
      assert (a + b)[1..] == a[1..] + b;
      TotalSizeAppend(a[1..], b);
    } else {
      assert a + b == b;
    }
  }

  /** Sequence identity: overwriting behind a fixed head. */
  lemma ConsUpdate<T>(x: T, t: seq<T>, b: nat, e: T)
    requires b < |t|
    ensures [x] + t[b := e] == ([x] + t)[b + 1 := e]
  {
  }

  /** Sequence identity: inserting behind a fixed head. */
  lemma ConsSplice<T>(x: T, t: seq<T>, b: nat, e: T)
    requires b <= |t|
    ensures [x] + (t[..b] + [e] + t[b..]) == ([x] + t)[..b + 1] + [e] + ([x] + t)[b + 1..]
  {
    assert ([x] + t)[..b + 1] == [x] + t[..b];
    assert ([x] + t)[b + 1..] == t[b..];
  }

  /** Deleting one entry keeps a list sorted. */
  lemma DeleteSorted(cmp: Comparer, es: seq<Entry>, b: nat)
    requires Sorted(cmp, es) && b < |es|
    ensures Sorted(cmp, es[..b] + es[b + 1..])
  {
    var r := es[..b] + es[b + 1..];
    forall i, j | 0 <= i < j < |r| ensures cmp(r[i].key, r[j].key) < 0 {
      if j < b {
        assert r[i] == es[i] && r[j] == es[j];
      } else if i < b {
        assert r[i] == es[i] && r[j] == es[j + 1];
      } else {
        assert r[i] == es[i + 1] && r[j] == es[j + 1];
      }
    }
  }

  /** In a sorted list the key at `b` occurs nowhere else. */
  lemma DeletedKeyAbsent(cmp: Comparer, es: seq<Entry>, b: nat)
    requires ValidComparer(cmp) && Sorted(cmp, es) && b < |es|
    ensures Get(es[..b] + es[b + 1..], es[b].key) == None
  {
    var r := es[..b] + es[b + 1..];
    forall j | 0 <= j < |r| ensures r[j].key != es[b].key {
      if j < b {
        assert r[j] == es[j];
        assert cmp(es[j].key, es[b].key) < 0;
      } else {
        assert r[j] == es[j + 1];
        assert cmp(es[b].key, es[j + 1].key) < 0;
      }
    }
    GetAbsent(r, es[b].key);
  }

  /** Size of a list after overwriting one entry. */
  lemma TotalSizeUpdate(es: seq<Entry>, b: nat, e: Entry)
    requires b < |es|
    ensures TotalSize(es[b := e]) ==
      TotalSize(es) - |es[b].key| - |es[b].value| + |e.key| + |e.value|
  {
    assert es == es[..b] + ([es[b]] + es[b + 1..]);
    assert es[b := e] == es[..b] + ([e] + es[b + 1..]);
    TotalSizeAppend(es[..b], [es[b]] + es[b + 1..]);
    TotalSizeAppend(es[..b], [e] + es[b + 1..]);
    TotalSizeAppend([es[b]], es[b + 1..]);
    TotalSizeAppend([e], es[b + 1..]);
  }

  /** Size of a list after inserting one entry. */
  lemma TotalSizeInsert(es: seq<Entry>, b: nat, e: Entry)
    requires b <= |es|
    ensures TotalSize(es[..b] + [e] + es[b..]) == TotalSize(es) + |e.key| + |e.value|
  {
    assert es == es[..b] + es[b..];
    TotalSizeAppend(es[..b], es[b..]);
    TotalSizeAppend(es[..b] + [e], es[b..]);
    TotalSizeAppend(es[..b], [e]);
    assert TotalSize([e]) == |e.key| + |e.value| by {
      assert [e][1..] == [];
    }
  }

  /** Overwriting the value of one entry keeps a list sorted. */
  lemma UpdateSorted(cmp: Comparer, es: seq<Entry>, b: nat, e: Entry)
    requires Sorted(cmp, es) && b < |es| && es[b].key == e.key
    ensures Sorted(cmp, es[b := e])
  {
    var r := es[b := e];
    assert forall j :: 0 <= j < |es| ==> r[j].key == es[j].key;
  }

  /** A key absent from a sorted list goes in at its lower bound: that is
      what `Put` does, and the list stays sorted. */
  lemma InsertAtLowerBound(cmp: Comparer, es: seq<Entry>, k: Bytes, v: Bytes)
    requires ValidComparer(cmp) && Sorted(cmp, es)
    requires var b := LowerBound(cmp, es, k); !(b < |es| && es[b].key == k)
    ensures var b := LowerBound(cmp, es, k);
      && Put(cmp, es, k, v) == es[..b] + [Entry(k, v)] + es[b..]
      && Sorted(cmp, es[..b] + [Entry(k, v)] + es[b..])
      && TotalSize(es[..b] + [Entry(k, v)] + es[b..]) == TotalSize(es) + |k| + |v|
  {
    var b := LowerBound(cmp, es, k);
    LowerBoundBelow(cmp, es, k);
    LowerBoundAbove(cmp, es, k);
    forall i | b <= i < |es| ensures cmp(k, es[i].key) < 0 {
      if i > b {
        assert cmp(es[b].key, es[i].key) < 0;
      }
      assert cmp(es[i].key, k) > 0;
    }
    InsertSorted(cmp, es, b, Entry(k, v));
    TotalSizeInsert(es, b, Entry(k, v));
    PutSplice(cmp, es, k, v);
  }

  /** A key present at its lower bound is overwritten in place by `Put`,
      and the list stays sorted. */
  lemma OverwriteAtLowerBound(cmp: Comparer, es: seq<Entry>, k: Bytes, v: Bytes)
    requires ValidComparer(cmp) && Sorted(cmp, es)
    requires var b := LowerBound(cmp, es, k); b < |es| && es[b].key == k
    ensures var b := LowerBound(cmp, es, k);
      && Put(cmp, es, k, v) == es[b := Entry(k, v)]
      && Sorted(cmp, es[b := Entry(k, v)])
      && TotalSize(es[b := Entry(k, v)]) == TotalSize(es) - |es[b].value| + |v|
  {
    var b := LowerBound(cmp, es, k);
    UpdateSorted(cmp, es, b, Entry(k, v));
    TotalSizeUpdate(es, b, Entry(k, v));
    PutSplice(cmp, es, k, v);
  }

  /** Cutting entry `b` out of a list takes its key and value out of the
      total size. */
  lemma SpliceSize(es: seq<Entry>, b: nat)
    requires b < |es|
    ensures TotalSize(es[..b] + es[b + 1..]) == TotalSize(es) - |es[b].key| - |es[b].value|
  {
    assert es == es[..b] + ([es[b]] + es[b + 1..]);
    TotalSizeAppend(es[..b], [es[b]] + es[b + 1..]);
    TotalSizeAppend(es[..b], es[b + 1..]);
    TotalSizeAppend([es[b]], es[b + 1..]);
    assert TotalSize([es[b]]) == |es[b].key| + |es[b].value| by {
      assert [es[b]][1..] == [];
    }
  }
}

=== FILE: varint.dfy ===
/**
  Unsigned base-128 varints, as `encoding/binary`'s `PutUvarint` writes
  them and `Uvarint` reads them (the Protocol Buffers varint): seven bits
  per byte, least significant group first, the high bit set on every byte
  but the last.
 */
module Varint {
  import opened Order

  const MaxVarintLen64: nat := 10
  const MaxVarintLen32: nat := 5

  function Pow2(k: nat): (r: nat)
    ensures r >= 1
  {
    if k == 0 then 1 else 2 * Pow2(k - 1)
  }

  /** Seven more bits multiply the range by 128. */
  lemma Pow2Plus7(k: nat)
    ensures Pow2(k + 7) == 128 * Pow2(k)
  {
    calc {
      Pow2(k + 7);
      2 * Pow2(k + 6);
      4 * Pow2(k + 5);
      8 * Pow2(k + 4);
      16 * Pow2(k + 3);
      32 * Pow2(k + 2);
      64 * Pow2(k + 1);
      128 * Pow2(k);
    }
  }

  /** `PutUvarint`: the encoding of `x`. Every byte but the last carries
      the continuation bit, so no encoding is a proper prefix of another. */
  function Encode(x: nat): (r: Bytes)
    ensures 1 <= |r|
    decreases x
  {
    if x < 128 then [x] else [x % 128 + 128] + Encode(x / 128)
  }

  /** The last byte of an encoding ends it; every other byte continues it. */
  lemma {:induction false} EncodeShape(x: nat)
    ensures Encode(x)[|Encode(x)| - 1] < 128
    ensures forall j :: 0 <= j < |Encode(x)| - 1 ==> Encode(x)[j] >= 128
    decreases x
  {
    if x >= 128 {
      EncodeShape(x / 128);
      assert Encode(x) == [x % 128 + 128] + Encode(x / 128);
    }
  }

  /** `Uvarint`'s loop from the `i`-th byte on, with `buf` the bytes not
      yet read. The second component is the number of bytes the varint
      took when positive, 0 when `buf` ran out first, and negative when
      the value overflows 64 bits. */
  function Dec(buf: Bytes, i: nat): (r: (nat, int))
    requires i <= MaxVarintLen64
    ensures r.1 > 0 ==> i < r.1 <= i + |buf| && r.1 <= MaxVarintLen64
    ensures r.1 <= 0 ==> r.0 == 0
    decreases |buf|
  {
    if |buf| == 0 then (0, 0)
    else if i == MaxVarintLen64 then (0, -(i + 1))
    else if buf[0] < 128 then
      if i == MaxVarintLen64 - 1 && buf[0] > 1 then (0, -(i + 1))
      else (buf[0], i + 1)
    else
      var (v, n) := Dec(buf[1..], i + 1);
      if n <= 0 then (0, n)
      else ((buf[0] - 128) + 128 * v, n)
  }

  /** A value read from byte `i` on fits in the `64 - 7 * i` bits left. */
  lemma {:induction false} DecBound(buf: Bytes, i: nat)
    requires i <= MaxVarintLen64
    ensures Dec(buf, i).1 > 0 ==> i < MaxVarintLen64 && Dec(buf, i).0 < Pow2(64 - 7 * i)
    decreases |buf|
  {
    if |buf| > 0 && i < MaxVarintLen64 {
      if buf[0] < 128 {
        if i < MaxVarintLen64 - 1 {
          Pow2Plus7(57 - 7 * i);
        } else {
          assert Pow2(1) == 2;
        }
      } else {
        DecBound(buf[1..], i + 1);
        if Dec(buf[1..], i + 1).1 > 0 {
          Pow2Plus7(64 - 7 * (i + 1));
        }
      }
    }
  }

  /** `Uvarint`: the value and the byte count of the varint at the front
      of `buf`. */
  function Uvarint(buf: Bytes): (r: (nat, int))
    ensures r.1 > 0 ==> r.1 <= |buf| && r.1 <= MaxVarintLen64 && r.0 < Two64
    ensures r.1 <= 0 ==> r.0 == 0
  {
    DecBound(buf, 0);
    Pow2Two64();
    Dec(buf, 0)
  }

  lemma Pow2Two64()
    ensures Pow2(64) == Two64
  {
    assert Pow2(1) == 2;
    Pow2Plus7(1);
    Pow2Plus7(8);
    Pow2Plus7(15);
    Pow2Plus7(22);
    Pow2Plus7(29);
    Pow2Plus7(36);
    Pow2Plus7(43);
    Pow2Plus7(50);
    Pow2Plus7(57);
  }

  /** The encoding of `x` takes more than `k` bytes exactly when `x` needs
      more than `7k` bits. */
  lemma {:induction false} EncodeLength(x: nat, k: nat)
    requires k >= 1
    ensures |Encode(x)| > k <==> x >= Pow2(7 * k)
    decreases k
  {
    Pow2Plus7(7 * (k - 1));
    if x >= 128 && k > 1 {
      EncodeLength(x / 128, k - 1);
    }
  }

  /** An encoding is never longer than one byte more than its value. */
  lemma {:induction false} EncodeShort(x: nat)
    ensures |Encode(x)| <= x + 1
    decreases x
  {
    if x >= 128 {
      EncodeShort(x / 128);
    }
  }

  /** One continuation byte: the rest of the varint, shifted by seven
      bits, plus this byte's low seven bits. */
  lemma DecStep(buf: Bytes, i: nat)
    requires i < MaxVarintLen64 && |buf| > 0 && buf[0] >= 128
    requires Dec(buf[1..], i + 1).1 > 0
    ensures Dec(buf, i) == ((buf[0] - 128) + 128 * Dec(buf[1..], i + 1).0, Dec(buf[1..], i + 1).1)
  {
  }

  /** A value of more than seven bits that fits at byte `i` leaves room
      for its upper bits at byte `i + 1`. */
  lemma Shrink(x: nat, i: nat)
    requires i < MaxVarintLen64 && 128 <= x < Pow2(64 - 7 * i)
    ensures i < MaxVarintLen64 - 1 && x / 128 < Pow2(64 - 7 * (i + 1))
    ensures x == x % 128 + 128 * (x / 128)
  {
    assert Pow2(1) == 2;
    Pow2Plus7(64 - 7 * (i + 1));
  }

  /** A continuation byte in front of the encoding of the upper bits. */
  lemma DecCons(x: nat, rest: Bytes, i: nat)
    requires i < MaxVarintLen64 - 1 && x >= 128 && x == x % 128 + 128 * (x / 128)
    requires Dec(Encode(x / 128) + rest, i + 1) == (x / 128, i + 1 + |Encode(x / 128)|)
    ensures Dec(Encode(x) + rest, i) == (x, i + |Encode(x)|)
  {
    var e := Encode(x / 128);
    var buf := Encode(x) + rest;
    assert Encode(x) == [x % 128 + 128] + e;
    assert buf == [x % 128 + 128] + (e + rest);
    assert buf[0] == x % 128 + 128 && buf[1..] == e + rest;
    DecStep(buf, i);
    assert |Encode(x)| == 1 + |e|;
  }

  /** The final byte of a varint: its value, unless it would overflow. */
  lemma DecFinal(x: nat, rest: Bytes, i: nat)
    requires i < MaxVarintLen64 && x < 128 && x < Pow2(64 - 7 * i)
    ensures Dec(Encode(x) + rest, i) == (x, i + |Encode(x)|)
  {
    if i == MaxVarintLen64 - 1 {
      assert Pow2(1) == 2;
    }
    assert (Encode(x) + rest)[0] == x;
  }

  /** Reading an encoding back, from any point of the loop at which the
      value still fits. */
  lemma {:induction false} DecEncode(x: nat, rest: Bytes, i: nat)
    requires i < MaxVarintLen64 && x < Pow2(64 - 7 * i)
    ensures Dec(Encode(x) + rest, i) == (x, i + |Encode(x)|)
    decreases x
  {
    if x >= 128 {
      Shrink(x, i);
      DecEncode(x / 128, rest, i + 1);
      DecCons(x, rest, i);
    } else {
      DecFinal(x, rest, i);
    }
  }

  /** `Uvarint` inverts `PutUvarint` on every 64-bit value, whatever
      follows the encoding, and an encoding takes at most ten bytes. */
  lemma UvarintEncode(x: nat, rest: Bytes)
    requires x < Two64
    ensures Uvarint(Encode(x) + rest) == (x, |Encode(x)|)
    ensures |Encode(x)| <= MaxVarintLen64
  {
    Pow2Two64();
    DecEncode(x, rest, 0);
    assert Uvarint(Encode(x) + rest) == Dec(Encode(x) + rest, 0);
  }

  /** A proper prefix of an encoding never reads as a varint: `Uvarint`
      reports that the buffer ran out. */
  lemma UvarintPrefix(x: nat, t: nat)
    requires t < |Encode(x)|
    ensures Uvarint(Encode(x)[..t]).1 <= 0
  {
    EncodeShape(x);
    DecRunsOut(Encode(x)[..t], 0);
  }

  /** Bytes that all carry the continuation bit never end a varint. */
  lemma {:induction false} DecRunsOut(buf: Bytes, i: nat)
    requires i <= MaxVarintLen64
    requires forall j :: 0 <= j < |buf| ==> buf[j] >= 128
    ensures Dec(buf, i).1 <= 0
    decreases |buf|
  {
    if |buf| > 0 && i < MaxVarintLen64 {
      DecRunsOut(buf[1..], i + 1);
    }
  }
}

=== FILE: wrappers.dfy ===
/** Optional values and error-or-value results, used for Go's `(T, error)` returns. */
module Wrappers {

  datatype Option<+T> = None | Some(value: T)

  datatype Result<+T, +E> = Ok(value: T) | Err(error: E) {
    predicate IsFailure() {
      Err?
    }

    function PropagateFailure<U>(): Result<U, E>
      requires Err?
    {
      Err(error)
    }

    function Extract(): T
      requires Ok?
    {
      value
    }
  }
}
